=== FILE: README.md ===
# Subreddit scanner core, modelled in Dafny

The scanner crawls Reddit's public API one subreddit at a time and keeps what it learns in an SQLite store. This project models its decision logic as pure functions over explicit state and proves what that logic guarantees:

- **Rate limiter** (`RateLimiter`, `RateLimiterSafety`): the three sliding windows (60 s, 10 s, 1 s), the wait computation and the `acquire` loop, driven by a supplied sequence of clock readings; the statistics; and the exponential backoff, whose jitter factor is a parameter. The headline theorem is `RateLimiterSafety.SessionSafe`: under strictly increasing clock readings, no half-open window `(t - W, t]` ever holds more grants than its capacity.
- **API client** (`RedditClient`): token expiry, the `_make_request` retry loop over a sequence of per-attempt replies, the payload classifier behind `get_subreddit_info`, pagination of `get_thread_ids`, and the request counters.
- **Scanner** (`Scanner`, `CsvScan`): `process_subreddit` as a transition on the store and the counters; the auto-termination thresholds and the refresh loop; the popular/random interleaving; the CSV scan's row-retention rule; and the two-step CSV de-duplication.
- **Store** (`Store`): a finite map from lower-cased subreddit name to row, with insert-or-ignore, the partial updates, the inconsistency fixer, the ordered refresh query, the stale counts, the processing statistics, the user-profile cleanup, and the schema-version chain with the migrations' failures.
- **Configuration** (`Config`): the credential check of `from_env`, the "`None` keeps the value" rule of `update_from_args`, and the numeric checks of `validate`.
- **Category discovery** (`Discover`): chunk arithmetic, prompt lines, the line parser, and the sorted union of the answers gathered before the first failed call.
- **Migrations** (`Migrations`): the row projections of the v1→v2 and v2→v3 migrations, with SQL `COALESCE` and `NULL` made explicit; what a failed v1→v2 run leaves behind on the store's autocommit connection; and the add-missing-columns rule of `ensure_v4_columns`.

`Wrappers` (Option/Result), `JsonValue` (the JSON values the API returns, with Python truthiness), `Text` (Python's `strip`, `lower`, `split`, `join` and string order) and `Sequences` (subsequences, first-per-key filtering, stable sorting by rank) are the shared vocabulary.

Time, randomness and every outside call are parameters: clock readings, the jitter factor and the diversity coin are numbers handed in; `random.choice` is a nondeterministic pick, and every possible pick is covered by the contracts; the HTTP replies, the token endpoint, the language-model API and the points at which a shutdown signal arrives are sequences or functions supplied by the caller.

## Model

| member | source | states |
|---|---|---|
| RateLimiter.DefaultCaps | scanner/rate_limiter.py:27-43 | the constructor's default capacities (60 per minute, 15 per 10 s, 3 per s) are all at least 1, so no window is ever read while empty |
| RateLimiter.CleanupDropsOnlyOld | scanner/rate_limiter.py:63-75 | pruning removes a leading run of timestamps strictly older than the cutoff and stops at the first one that is not |
| RateLimiter.CleanupSorted | scanner/rate_limiter.py:71-75 | on a sorted window a timestamp survives pruning exactly when it is at or after the cutoff; one equal to the cutoff stays |
| RateLimiter.WaitTime | scanner/rate_limiter.py:77-108 | the wait is 0 when no window is full; otherwise it equals the remaining age (oldest + horizon - now) of some full window and is at least that of every full window; windows below capacity play no part |
| RateLimiter.MaxOrZero | scanner/rate_limiter.py:108 | `max(xs) if xs else 0`: 0 for no candidates, otherwise a member of the list at least as large as each |
| RateLimiter.PruneShortens | scanner/rate_limiter.py:86-89 | pruning the three windows only drops leading entries of each |
| RateLimiter.AcquireStep | scanner/rate_limiter.py:128-153 | one check grants iff the wait is at most 0, appending the same reading to all three windows and counting the request; it gives up iff a timeout is set and elapsed time plus wait exceeds it; otherwise it counts a blocked request and sleeps exactly the wait |
| RateLimiter.Acquire | scanner/rate_limiter.py:110-153 | a grant happens at the reading of the last check made, a timeout needs a timeout value, and the call uses no more readings than it is given |
| RateLimiter.AcquireGrantBookkeeping | scanner/rate_limiter.py:128-141 | a granting call adds exactly one request, records the grant time at the end of every window, and adds one blocked request per earlier check |
| RateLimiter.AcquireNoGrantBookkeeping | scanner/rate_limiter.py:143-153 | a call that does not grant records no timestamp and no request or wait time; each of its checks counts one blocked request and the windows only lose old entries |
| RateLimiter.Reset | scanner/rate_limiter.py:185-192 | `reset` empties all three windows and zeroes every counter |
| RateLimiter.GetStats | scanner/rate_limiter.py:163-183 | the statistics report the counters and window sizes, and an average wait that times the number of requests gives the total wait (0 before any grant) |
| RateLimiter.StatsAfterReset | scanner/rate_limiter.py:163-192 | after `reset` every statistic is 0 |
| RateLimiter.GetDelay | scanner/rate_limiter.py:224-242 | without jitter the delay is `min(base * multiplier ** attempt, max_delay)`; with jitter it lies between 0.75 and 1.25 times that, and never above 1.25 times the cap |
| RateLimiter.Wait | scanner/rate_limiter.py:244-249 | `wait` sleeps a delay within 25% of the raw delay (exactly the raw delay without jitter), then counts one more attempt and changes nothing else, so a `reset` afterwards gives the same policy as a `reset` before |
| RateLimiter.WaitNeverShortens | scanner/rate_limiter.py:231-249 | after a `wait`, the next raw delay is at least the one just slept on |
| RateLimiter.RawDelayCapped | scanner/rate_limiter.py:231-234 | the delay before jitter never exceeds `max_delay` |
| RateLimiter.RawDelayMonotone | scanner/rate_limiter.py:231-234 | with a non-negative base and a multiplier of at least 1, a later attempt never has a shorter delay before jitter |
| RateLimiter.JitteredDelayBound | scanner/rate_limiter.py:231-240 | for non-negative settings the jittered delay lies in `[0, 1.25 * max_delay]` |
| RateLimiter.ResetBackoff | scanner/rate_limiter.py:251-253 | `reset` returns the attempt counter to 0 and keeps the policy |
| RateLimiterSafety.CleanupTwice | scanner/rate_limiter.py:71-75 | pruning at one cutoff and then at a later one is the same as pruning once at the later one |
| RateLimiterSafety.FreshInv | scanner/rate_limiter.py:41-56 | a new limiter with no grants satisfies the safety invariant at any time |
| RateLimiterSafety.GrantSafe | scanner/rate_limiter.py:94-108 | a grant made when the pruned windows allow no wait keeps every window of every horizon within its capacity |
| RateLimiterSafety.StepPreservesInv | scanner/rate_limiter.py:128-153 | one loop iteration at a later clock reading keeps the windows equal to the grant history pruned at that reading, and keeps that history safe |
| RateLimiterSafety.AcquirePreservesInv | scanner/rate_limiter.py:110-153 | a whole `acquire` with strictly increasing readings preserves the invariant; its grant, if any, extends the history |
| RateLimiterSafety.SessionSafe | scanner/rate_limiter.py:17-25 | starting fresh, any sequence of `acquire` calls with strictly increasing clock readings grants no more than 60 / 15 / 3 (the given capacities) requests in any half-open window `(t - 60, t]`, `(t - 10, t]`, `(t - 1, t]` |
| RateLimiterSafety.ClosedSecondHoldsFour | scanner/rate_limiter.py:74-106 | the windows are half-open: with the defaults, requests at 0, 0.25, 0.5 and 1 s are all granted at once, so the closed second `[0, 1]` holds four grants while the half-open window `(0, 1]` the limiter counts holds three |
| RedditClient.Expiry | scanner/reddit_client.py:89-92 | the token is retired 60 seconds before the lifetime the server grants, which defaults to 3600 seconds |
| RedditClient.Authenticate | scanner/reddit_client.py:71-98 | authentication succeeds iff the endpoint issued a token with a usable lifetime, and then stores that token and its expiry; a token whose `expires_in` is null or not a number is stored before the call raises, so the old expiry stays; any other failure raises before anything changes; the counters are never touched |
| RedditClient.EnsureTokenValid | scanner/reddit_client.py:100-108 | a present, non-empty, unexpired token is kept without a call; otherwise the token is fetched again, and the call raises iff the fetch did not issue a token with a usable lifetime |
| RedditClient.TokenValidUntilExpiry | scanner/reddit_client.py:92-106 | a freshly issued token is used without refresh exactly at the instants before `issued + expires_in - 60` |
| RedditClient.ValidTokenNotRefreshed | scanner/reddit_client.py:102-108 | a valid token is left untouched whatever the token endpoint would say |
| RedditClient.UnreadExpiryKeepsToken | scanner/reddit_client.py:88-108 | a refresh whose token has an unusable lifetime raises but leaves the new token in place, and before the old expiry the next request uses it without another refresh |
| RedditClient.OnException | scanner/reddit_client.py:225-233 | the generic failure arm counts one failure and backs off and retries iff this was not the last attempt, otherwise returns nothing |
| RedditClient.OnStatusError | scanner/reddit_client.py:206-223 | an HTTP error counts one failure; 404 and 403 end the loop with their marker, a 5xx backs off and retries, any other status gives up with nothing |
| RedditClient.OnTooManyRequests | scanner/reddit_client.py:182-187 | a 429 with a readable `Retry-After` (60 s when absent) counts a rate-limit hit, sleeps that long and retries without a backoff; an unreadable header raises into the generic arm |
| RedditClient.OnUnauthorized | scanner/reddit_client.py:190-194 | a 401 drops the token and re-authenticates; success spends the attempt, a failure of the token call goes through the error arms and is counted; a token with an unusable lifetime stays in place beside the old expiry, and any other failure leaves no token |
| RedditClient.OnResponse | scanner/reddit_client.py:196-204 | a 302 returns nothing without counting a failure; an error status goes through the status-error arm; otherwise the JSON body is returned |
| RedditClient.AttemptStep | scanner/reddit_client.py:163-233 | one attempt counts a request iff a response arrived, a rate-limit hit iff it was a readable 429, at most one failure, backs off at most once on the current backoff attempt, and returns only an answer the attempt's reply justifies |
| RedditClient.AttemptReactions | scanner/reddit_client.py:182-233 | per kind of reply: readable 429 retries with no backoff; 302 stops with nothing and no failure; 404 or 403 stop with their marker; 5xx retries after a backoff; a transport error retries unless last; a 401 that re-authenticates just continues |
| RedditClient.Loop | scanner/reddit_client.py:163-236 | the retry loop from attempt `i` makes between 1 and `n - i` attempts, each opened by the acquire, the pause and the send; it counts at most one failure each, never moves the backoff counter back, and returns a payload only after at least one attempt |
| RedditClient.LoopCounts | scanner/reddit_client.py:163-236 | the retry loop counts exactly the responses among its attempts as requests, and exactly the 429s with a readable `Retry-After` as rate-limit hits |
| RedditClient.LoopWaits | scanner/reddit_client.py:161-230 | the backoff sleeps on attempt numbers counting up by one from where it started, one per retry that backs off |
| RedditClient.LoopAnswers | scanner/reddit_client.py:196-223 | a payload the retry loop returns is the answer of its last attempt: the JSON body of a successful response, or the marker of a 404 or 403 |
| RedditClient.AllRateLimitedExhausts | scanner/reddit_client.py:182-236 | when every attempt draws a readable 429, all attempts are used, each counts a hit, and the call returns nothing |
| RedditClient.MakeRequest | scanner/reddit_client.py:140-236 | a request raises exactly when the up-front token refresh fails, and then keeps only what the refresh stored and counts nothing; otherwise it makes at most `max_retries` attempts |
| RedditClient.MakeRequestProperties | scanner/reddit_client.py:159-236 | each attempt opens with exactly one rate-limiter acquire; the backoff starts from attempt 0; a returned payload is a 404/403 marker or the body of the successful last attempt; `total_requests` counts the responses |
| RedditClient.StatusNameInjective | scanner/reddit_client.py:247 | the stored status names are distinct |
| RedditClient.Classify | scanner/reddit_client.py:257-282 | the 404 marker gives `notfound` and the 403 marker `deleted`, both without metadata; an object whose `data` is an object gives that object as metadata with the status `quarantined` when its `quarantine` is truthy, else `private` when its `subreddit_type` is `"private"`, else `active`; every other payload, `None` included, gives `error` without metadata |
| RedditClient.MarkersClassified | scanner/reddit_client.py:206-266 | the markers the request loop returns for 404 and 403 are classified `notfound` and `deleted` |
| RedditClient.PublicIsActive | scanner/reddit_client.py:268-280 | a subreddit object that is neither quarantined nor private is `active`, with the object as its metadata |
| RedditClient.GetSubredditInfo | scanner/reddit_client.py:238-286 | the main request runs on the client `AfterDiversity` leaves; when it raises the result is `error` without metadata, and otherwise it is `Classify` of the returned payload; the client is the one the main request leaves; metadata comes back exactly with the active, private and quarantined statuses |
| RedditClient.AfterDiversity | scanner/reddit_client.py:116-138 | no diversity request leaves the client as it was; one counts a diversity request exactly when its single-attempt request returned instead of raising |
| RedditClient.NotFoundOnFirst404 | scanner/reddit_client.py:206-264 | a 404 on the first attempt classifies the subreddit `notfound` with no metadata, after one request and one failure |
| RedditClient.PostIds | scanner/reddit_client.py:330-334 | at most one id per child is collected |
| RedditClient.PostId | scanner/reddit_client.py:330-334 | a child yields an id only when it is a `t3` object with an object `data`, and then yields exactly its truthy `data.id` |
| RedditClient.PostIdsFromPosts | scanner/reddit_client.py:330-334 | every collected id is truthy and is the `data.id` of some `t3` child |
| RedditClient.PostsCollected | scanner/reddit_client.py:330-334 | the id of every `t3` child with an object `data` and a truthy `data.id` is collected |
| RedditClient.ReadPage | scanner/reddit_client.py:321-334 | a request that raised fails the page; an absent or falsy payload, or an object without `data`, stops the loop; a page read as a listing has a non-empty list of children, none of which raises, and contributes the post ids of those children |
| RedditClient.ListingRead | scanner/reddit_client.py:323-334 | a response whose `data` object holds a non-empty `children` list is read as those children and its `after` (null when absent) if no child is a non-object or a `t3` child without an object `data`, and fails otherwise |
| RedditClient.MarkerStops | scanner/reddit_client.py:323-324 | the 404 and 403 markers of the request loop end the pagination without raising |
| RedditClient.Fetch | scanner/reddit_client.py:310-341 | the pagination loop only extends the ids it holds, asks for at most one page per response, and a run that escaped made at least one request |
| RedditClient.FetchPages | scanner/reddit_client.py:310-338 | each page request asks for exactly the shortfall capped at 100, only while fewer than `limit` ids are held; a returned run holds the pages' post ids in order; a page read fails exactly when it is the last one read and the run escaped |
| RedditClient.ThreadIdsPages | scanner/reddit_client.py:288-344 | `get_thread_ids` sizes each request to the shortfall capped at 100; it returns the post ids of the pages it read, in order, unless the last page it read raised, in which case it returns nothing; no earlier page raised |
| RedditClient.RefreshFailureEscapes | scanner/reddit_client.py:310-321 | a failed token refresh on the first request makes `get_thread_ids` raise after asking for `min(100, limit)` ids |
| RedditClient.FetchStops | scanner/reddit_client.py:323-338 | a run that returned on its own stopped on a page that breaks (empty, without `data`, or without children), on a falsy `after`, or with the limit reached |
| RedditClient.GetStats | scanner/reddit_client.py:346-362 | the statistics report the four counters, and the success rate times the total is the number of requests that did not fail (0 before any request) |
| Store.AddSubreddit | scanner/database.py:169-191 | `INSERT OR IGNORE` under the lower-cased name: reports a new row iff that key was absent; the new row is pending and uncollected; existing rows are untouched and no other key appears |
| Store.AddSubredditIdempotent | scanner/database.py:169-191 | adding a name again, in any letter case, changes nothing and reports no new row |
| Store.UpdateSubreddit | scanner/database.py:313-342 | status and message are always written (no message clears it); the collected flag changes only when a value is given; no other field or row changes, and a missing row is a no-op |
| Store.UpdateSubredditStatus | scanner/database.py:291-311 | writes status and message, and makes the row accessible iff the status is `active` or `pending`; nothing else changes |
| Store.Decode | scanner/database.py:532-546 | a falsy value, and a value without `&`, pass through unchanged; only a string holding `&` is rewritten, and it stays a string; a list or dict holding `"&"` and a truthy number or boolean raise |
| Store.ColumnValue | scanner/database.py:261-283 | every column but the two decoded ones takes the API field of its name, or the `.get` default when absent |
| Store.UpdateSubredditMetadata | scanner/database.py:219-289 | succeeds iff every bound value can be bound; a failure rolls back and changes nothing; on success the row becomes active, accessible, with no error message and stamped `now`, keeps its collected flag and retry count, and holds each column's API value or default; no other row changes |
| Store.MetadataDefaults | scanner/database.py:261-283 | an empty API object stores the `.get` defaults: images and videos allowed, polls not, not adult, language `en`, no title, description or subscriber count |
| Store.EmptyMetadataRow | scanner/database.py:261-283 | with an empty API object every column holds exactly its `.get` default |
| Store.EmptyMetadataStorable | scanner/database.py:230-289 | an empty API object never makes the statement raise |
| Store.FixInconsistentStates | scanner/database.py:496-530 | afterwards no row is pending-but-collected or completed-but-uncollected; the first kind loses its collected flag, the second goes back to pending, consistent rows are untouched, and the two counts are the numbers of rows of each kind |
| Store.FixInconsistentStatesIdempotent | scanner/database.py:496-530 | an immediate second call changes nothing and reports zero for both counts |
| Store.BeforeIrreflexive | scanner/database.py:419-422 | no row sorts before itself under the `ORDER BY` |
| Store.BeforeTransitive | scanner/database.py:419-422 | the `ORDER BY` relation is transitive, so it is a strict order up to ties |
| Store.MinimalExists | scanner/database.py:416-433 | every non-empty set of rows has a row that nothing in the set sorts before, so the query can always pick a next row |
| Store.SubredditsForUpdate | scanner/database.py:383-435 | the refresh list holds only collected active rows that were never updated or are older than `now - stale_days * 86400` (adult-only when asked), none twice, in `ORDER BY` order, as many as a positive limit allows or all of them otherwise, and no due row left out sorts before one taken |
| Store.RefreshOrder | scanner/database.py:419-422 | in the refresh list never-updated rows come first by subscribers descending (missing as 0), then stale rows by last update ascending, with subscribers descending (missing last) breaking ties |
| Store.CountStaleSubreddits | scanner/database.py:344-381 | `total` is the never-updated count plus the stale count, and equals the length of the unfiltered, unlimited refresh list at the same clock |
| Store.DueSplits | scanner/database.py:356-381 | the due rows split into the never-updated and the stale ones, which do not overlap |
| Store.GetProcessingStats | scanner/database.py:437-467 | `total` counts every row; each status present maps to the number of rows holding it and no absent status appears; `collected` counts collected rows; `pending` counts rows not collected or with status `error` or `pending` |
| Store.PendingComplement | scanner/database.py:458-467 | the rows still to collect and the settled rows together make up the total, and neither count exceeds it |
| Store.CleanupUserProfilesAsWritten | scanner/database.py:469-494 | removes exactly the rows of type `user` or whose name matches `LIKE 'u_%'` (two or more characters starting with `u` or `U`), keeps the rest as they were, and returns the number removed |
| Store.CleanupDeletesOrdinarySubreddit | scanner/database.py:480-490 | as written, any name of two or more characters starting with `u` whose second character is not `_` is deleted, though it is no user profile; the corrected cleanup keeps it |
| Store.CleanupDeletesUkpolitics | scanner/database.py:480-490 | as written, `ukpolitics` is deleted; the corrected cleanup keeps it |
| Store.CleanupUserProfiles | scanner/database.py:469-494 | a row survives iff it is not of type `user` and its name does not start with the two characters `u_`; survivors are unchanged and the count is the number removed |
| Store.CleanupWithinAsWritten | scanner/database.py:480-490 | the corrected cleanup keeps every row the written one keeps: it only deletes less |
| Store.InitializeSchema | scanner/database.py:104-152 | opening raises iff the stored version is newer than 4 or a migration it needs raises (v1 to v2 only from version 1, v2 to v3 from versions 1 and 2), with that migration's message; a fresh store starts at 4 without the column check; an empty version table is filled with 4; versions 1 to 3 run one step per version up to 4; a version below 1 is written back unchanged with no step |
| Store.ReopenRunsNothing | scanner/database.py:123-152 | a store that opened holds a version that opens again with no migration step |
| Store.OpenV1Store | scanner/database.py:131-135 | opening a v1 store with the all-or-nothing migration fails exactly when a thread id is listed under two subreddits, and the failure leaves the store as it was |
| Store.ReopenAfterFailedMigration | scanner/database.py:131-135 | with the migration as written, a failed open is followed by another failed open, raising `table subreddits_v2 already exists`, even after the thread table is repaired |
| Scanner.TrackSuccessesWindow | scanner/scanner.py:82-86 | from an empty list, `n` recorded successes leave `min(n, 10)` entries: the list never outgrows its window |
| Scanner.Delete | scanner/scanner.py:180-181 | the raw `DELETE` removes the row under the name exactly as given and no other |
| Scanner.SetRetryCount | scanner/scanner.py:253-256 | the raw `UPDATE` sets that row's retry count and touches nothing else; a missing row is a no-op |
| Scanner.Failed | scanner/scanner.py:282-291 | the exception arm reports failure and adds one to the failed count, nothing else in the counters |
| Scanner.OnActive | scanner/scanner.py:185-218 | an active subreddit with metadata adds one to `processed` and resets the 403 run; the call succeeds iff the subscriber count can be formatted with `,`, a failed format being counted as a failure |
| Scanner.OnForbidden | scanner/scanner.py:240-259 | a 403 reports success without counting a processed or failed subreddit |
| Scanner.OnOtherStatus | scanner/scanner.py:262-280 | any other status reports success and only resets the 403 run |
| Scanner.ProcessSubreddit | scanner/scanner.py:161-291 | only the row under the given name (or its lower-cased key) may change or disappear and none appears; the call succeeds iff nothing raised, counting a failure otherwise; `processed` grows exactly for an active, non-profile subreddit with metadata |
| Scanner.ProcessUserProfile | scanner/scanner.py:178-183 | a payload of type `user` deletes the row and reports success with the counters unchanged, whatever the status |
| Scanner.ProcessActive | scanner/scanner.py:185-218 | active with metadata: the row ends active, collected, with retry count 0 and no error message; the 403 run resets and `processed` grows by one |
| Scanner.ProcessNotFound | scanner/scanner.py:231-237 | `notfound` deletes the row whatever its retry count and resets the 403 run |
| Scanner.ProcessForbidden | scanner/scanner.py:239-259 | `deleted` bumps the retry count and the 403 run; at three retries the row is deleted and the run reset; below that the row keeps the new count and stays at status `processing`, which the refresh query never selects again |
| Scanner.ProcessOtherStatus | scanner/scanner.py:261-280 | any other status is stored with message `Status: <status>`, accessible iff active, collected, retry count 0, and the 403 run resets |
| Scanner.ProcessRaised | scanner/scanner.py:282-291 | when `get_subreddit_info` raises, the row ends as it was before the call except for status `error` and the exception's message, no other row changes, one failure is counted and the result is `False` |
| Scanner.RefreshLoop | scanner/scanner.py:329-344 | the refresh loop handles a prefix of the list, stops only at the end, at the shutdown signal or when a threshold trips, and a trip means 403 run `>= max_consecutive_403` or rate-limit hits `>= max_total_429` |
| Scanner.TrippedProcessesNothing | scanner/scanner.py:333-336 | once a threshold has tripped the loop handles nothing and changes nothing |
| Scanner.LoopStep | scanner/scanner.py:329-344 | one turn of the loop processes the next subreddit and then stops iff a threshold trips after it |
| Scanner.LoopStops | scanner/scanner.py:329-336 | at the end of the list, at the shutdown signal or with a tripped threshold the loop does nothing |
| Scanner.ForbiddenRunStops | scanner/scanner.py:97-113 | a run of first-time 403s on distinct stored rows ends the loop after at most `max_consecutive_403` minus the current run |
| Scanner.Interleave | scanner/scanner.py:115-154 | lists of at most two come back unchanged; otherwise every distinct input element appears exactly once, and every even position holds the earliest input element not used before it |
| Scanner.InterleaveStartsWithFirst | scanner/scanner.py:129-135 | the interleaved list starts with the input's first element |
| Scanner.OrderedPicksInOrder | scanner/scanner.py:129-144 | the even-position picks appear in input order |
| Scanner.InterleavePermutes | scanner/scanner.py:125-154 | for a duplicate-free input the interleaving is a permutation of it |
| Scanner.Run | scanner/scanner.py:293-365 | `run` fixes inconsistent states first, then visits only rows the refresh query selects on the fixed store, none twice, no more than the limit allows, and none past the shutdown signal |
| CsvScan.Loaded | scanner/scanner.py:509-514 | the loaded rows are the file's rows that name a subreddit, in file order, each as often as in the file, and no row without one |
| CsvScan.ParseShown | scanner/scanner.py:517 | `int()` reads back every count written in decimal |
| CsvScan.SortKey | scanner/scanner.py:517 | a missing or empty subscriber cell sorts as 0 |
| CsvScan.SortRowsOrder | scanner/scanner.py:516-517 | the scan order is by subscriber count, largest first, is a permutation of the loaded rows, and keeps file order among rows with the same count |
| CsvScan.CsvStep | scanner/scanner.py:554-653 | a row is a duplicate iff its stripped, lower-cased name is already stored; it errors iff it was not stored and fetching raised or the subscriber comparison raised; counters move with the outcome, the store changes at most at that key, and the 403 run is kept or cleared, never grown |
| CsvScan.OnFetched | scanner/scanner.py:573-643 | after the pending insert: a user profile is removed without touching the 403 run; `notfound` and `deleted` end with the row removed; every answer but a user profile clears the 403 run |
| CsvScan.ErroredRowsAreErrored | scanner/scanner.py:647-651 | a row is kept for errors iff its handling raised |
| CsvScan.CsvLoop | scanner/scanner.py:536-653 | the rows kept are those whose handling raised followed by every row not reached; the loop stops early only at the shutdown signal, a tripped threshold or the limit; the 403 run never grows from 0 |
| CsvScan.WriteRows | scanner/scanner.py:682-694 | the written rows are the kept ones, in order, with their subreddit and subscriber cells; a row without a `retry_count` is written with `"0"` and any other keeps its own |
| CsvScan.RunCsvScan | scanner/scanner.py:482-720 | a subscriber cell `int()` rejects makes the sort raise and leaves the file as it was; otherwise the file is rewritten with the errored rows and every unreached row; starting from no 403 run, only rate-limit hits can trip the threshold in this mode |
| CsvScan.WriteRowsIdempotent | scanner/scanner.py:686-690 | rewriting written rows changes nothing |
| CsvScan.DedupeCsv | scanner/scanner.py:722-813 | the rows written keep the file's order, hold no key twice and none the store has; every kept row is the first loaded row of its key, and every key of the file that the store lacks is still there; the two duplicate counts and the rows kept add up to the rows loaded |
| CsvScan.DedupeIdempotent | scanner/scanner.py:722-813 | deduplicating a file that was just deduplicated against the same store changes nothing |
| CsvScan.KeptRowsClean | scanner/scanner.py:756-794 | after both steps every kept row names a subreddit, no key repeats, and no key is in the store |
| Sequences.FirstByKeepsFirst | scanner/scanner.py:756-763 | each row the first-occurrence pass keeps is the first row of its key in the input |
| Sequences.KeptAreFirst | scanner/scanner.py:756-794 | after both de-duplication steps every kept row is still the first row of its key in the input |
| Config.DefaultSettings | scanner/config.py:24-61 | every field holds its dataclass default |
| Config.DefaultsValid | scanner/config.py:144-168 | the defaults (60, 12, 2 requests; cooldown 2; 3 retries) pass the numeric checks of `validate` |
| Config.Missing | scanner/config.py:98-107 | the missing list holds exactly the credentials that are unset or empty |
| Config.FromEnv | scanner/config.py:64-123 | `from_env` raises iff a credential is unset or empty, with a message naming the missing ones in the fixed order; otherwise it builds the settings from the environment |
| Config.EnvSettingsFields | scanner/config.py:114-123 | the credentials come from the environment; the user agent and database path fall back to their defaults, the agent naming the account |
| Config.EnvSettingsDefaults | scanner/config.py:114-123 | every field `from_env` does not read keeps its dataclass default |
| Config.PresentIffNoneMissing | scanner/config.py:98-107 | the credentials are present iff the missing list is empty |
| Config.OnlyPasswordMissing | scanner/config.py:98-112 | with only the password unset, the message names `REDDIT_PASSWORD` alone |
| Config.UpdateFromArgs | scanner/config.py:125-135 | a field changes iff an argument of its name carries a value other than `None`, and then takes that value; every other field keeps its value |
| Config.IgnoredArgument | scanner/config.py:132-134 | a keyword whose value is `None`, or that names no field, no method of `Config` and no double-underscore name, has no effect |
| Config.UpdateFromArgsIdempotent | scanner/config.py:125-135 | applying the same arguments twice is the same as once |
| Config.Check | scanner/config.py:144-168 | one check passes iff its comparison is false and the later checks pass; a true comparison raises its own message |
| Config.Validate | scanner/config.py:137-168 | `validate` passes iff at least one request a minute is allowed, the 10-second cap is at most the per-minute one, the 1-second cap at most the 10-second one, both paths are strings naming usable paths, and cooldown and retries are not negative; a pass returns the settings unchanged |
| Config.Compare | scanner/config.py:145-167 | `<` and `>` compare numbers (booleans among them) by value; a pair that is neither two numbers nor two strings raises the TypeError naming the operator and both type names |
| Config.PathCheck | scanner/config.py:154-161 | `Path()` of anything but a string raises; a path of the wrong kind raises its message followed by `: ` and the path; a usable path lets the later checks decide |
| Config.RateChecks | scanner/config.py:144-152 | the three rate-limit checks pass iff the per-minute cap is at least 1 and the shorter windows are no wider than the longer ones, and then the later checks decide |
| Config.PathChecks | scanner/config.py:154-161 | the path checks pass iff both paths are strings naming usable paths, and then the later checks decide |
| Config.CountChecks | scanner/config.py:163-168 | the last two checks pass iff cooldown and retries are not negative |
| Config.PathErrorsNamePath | scanner/config.py:154-161 | once the numbers pass, a database path that is not a file is reported as `Database path exists but is not a file: <path>`, and then a log directory that is not a directory as `Log directory path exists but is not a directory: <path>` |
| Config.StringLimitRaises | scanner/config.py:145-149 | a string per-minute cap raises `'<' not supported between instances of 'str' and 'int'`; with a valid integer per-minute cap, a string 10-second cap raises the same text for `'>'` |
| Config.ValidateReportsFirstFailure | scanner/config.py:145-149 | a per-minute cap below 1 is reported first; otherwise a 10-second cap above it is |
| Discover.ChunkSizeExact | scanner/categorize_discover.py:19-31 | the chunk size `int((200000 - 10000) / 125)` is exactly 1520, the division leaving no remainder |
| Discover.NumChunks | scanner/categorize_discover.py:217 | the number of chunks is the ceiling of `total / 1520`: enough chunks to hold every subreddit, one fewer would not, and none for an empty list |
| Discover.ChunkAt | scanner/categorize_discover.py:250-253 | every chunk holds between 1 and 1520 subreddits |
| Discover.FirstChunk | scanner/categorize_discover.py:251-253 | the first chunk is the first `min(total, 1520)` subreddits |
| Discover.ChunkShift | scanner/categorize_discover.py:251-253 | chunk `i + 1` of a list is chunk `i` of the list without its first 1520 subreddits |
| Discover.ChunksCover | scanner/categorize_discover.py:250-253 | the chunks, in order, concatenate back to the input, and each holds between 1 and 1520 subreddits |
| Discover.PromptLines | scanner/categorize_discover.py:86-91 | one line per subreddit, in input order |
| Discover.PromptLine | scanner/categorize_discover.py:89-91 | a line is at most the name plus 307 characters long, whatever the title and description |
| Discover.PromptListsEachSubreddit | scanner/categorize_discover.py:86-102 | when no field holds a line break, the subreddit list of the prompt splits back into one line per subreddit in input order, each naming its subreddit with the first 100 characters of its title and the first 200 of its description |
| Discover.ParsedNamesClean | scanner/categorize_discover.py:143-154 | every parsed category is 1 to 50 characters long, holds no line break and has no white space at either end |
| Discover.CleanLineWithin | scanner/categorize_discover.py:147-149 | cleaning a line never introduces a line break |
| Discover.ParseListed | scanner/categorize_discover.py:133-154 | an answer listing clean names one per line parses back to exactly those names, in order |
| Discover.CleanNameFixed | scanner/categorize_discover.py:147-149 | cleaning leaves a clean name as it is |
| Discover.DashBullet | scanner/categorize_discover.py:149 | a `- ` bullet is removed from a clean name |
| Discover.StarBeforeDash | scanner/categorize_discover.py:149 | the markers come off in the order `-`, `*`, `•` only: a `*` bullet in front of `- name` is removed but the dash then stays |
| Discover.CollectFrom | scanner/categorize_discover.py:248-278 | the chunk loop asks every chunk in order until the first call that raises and then stops; the gathered names are exactly those of the answered chunks |
| Discover.InsertSorted | scanner/categorize_discover.py:288 | inserting a new name into a sorted list keeps it sorted and adds exactly that name |
| Discover.SortCategories | scanner/categorize_discover.py:288 | `sorted(set)` yields a strictly increasing list holding exactly the set's names |
| Discover.SortedUnique | scanner/categorize_discover.py:288 | two strictly increasing lists with the same names are equal, so the saved list is determined by the set |
| Discover.DiscoverCategories | scanner/categorize_discover.py:209-292 | one prompt per chunk; the saved list is sorted, holds no name twice, and holds exactly the names parsed from the chunks answered before the first failure |
| Text.Strip | scanner/scanner.py:554 | `strip()` removes white space from both ends only: the result is a slice of the input with white space only before and after it and none at either of its ends, empty only for an all-white-space string |
| Text.StripIdempotent | scanner/categorize_discover.py:147-149 | stripping twice is stripping once |
| Text.Lower | scanner/database.py:186 | `lower()` keeps the length, maps each upper-case ASCII letter to the letter 32 code points above, leaves no upper-case letter and changes nothing else |
| Text.LowerIdempotent | scanner/scanner.py:554 | lower-casing twice is lower-casing once, so the store's keys are their own lookup keys |
| Text.Take | scanner/categorize_discover.py:89-90 | a cut is the prefix of length `min(n, len(s))` |
| Text.SplitJoin | scanner/categorize_discover.py:102 | joining lines with `\n` and splitting at `\n` gives the lines back, when none holds a line break |
| Text.JoinSplit | scanner/categorize_discover.py:143 | splitting at a separator and joining with it gives the string back |
| Text.StrLtTransitive | scanner/categorize_discover.py:288 | Python's string order is transitive |
| Text.StrLtTotal | scanner/categorize_discover.py:288 | any two different strings are ordered one way or the other |
| Text.DigitsValueShow | scanner/scanner.py:517 | reading back the decimal digits of a count gives the count |
| Migrations.Coalesce | scanner/database_migrations.py:70-76 | SQL `COALESCE`: `NULL` iff every argument is `NULL`, otherwise the first argument that is not |
| Migrations.CoalesceTwo | scanner/database_migrations.py:73-76 | two-argument `COALESCE` is the first argument unless that is `NULL` |
| Migrations.CoalesceThree | scanner/database_migrations.py:70 | three-argument `COALESCE` takes the first non-`NULL` of its arguments, else the last |
| Migrations.MigrateRowV1Fields | scanner/database_migrations.py:57-126 | a migrated row keeps its profile and timestamps; its status is never `NULL` and prefers the processing state's, then the row's, then `pending`; its retry count is the processing state's or 0; its error message prefers the processing state's |
| Migrations.MigrateRowV1Flags | scanner/database_migrations.py:75-124 | the collected flags are copied (`NULL` as 0) when the processing state has them, are both 1 iff its status is `completed` when it lacks them, and are 0 when there is no processing state |
| Migrations.UnjoinedRowAgrees | scanner/database_migrations.py:57-126 | a row with no processing-state row migrates as if there were no processing state at all |
| Migrations.MigrateThreads | scanner/database_migrations.py:128-133 | the thread-id copy succeeds iff no thread id is listed under two subreddits; then every listed id maps to its subreddit and no other id appears |
| Migrations.ThreadsAreDistinctPairs | scanner/database_migrations.py:129-133 | the copied table holds exactly the distinct `(thread_id, subreddit)` pairs of the old one |
| Migrations.MigrateV1ToV2 | scanner/database_migrations.py:11-168 | the v1 to v2 migration raises iff a thread id is listed under two subreddits; otherwise it keeps every subreddit name, migrating each row through the statement that fits the processing state, and the threads through the distinct-pair copy |
| Migrations.MigrateV1ToV2AsWritten | scanner/database_migrations.py:11-168 | on the autocommit connection a run fails with `table subreddits_v2 already exists` whenever an earlier run left that table; otherwise it fails iff a thread id clashes, and then leaves the filled `subreddits_v2` and an empty `thread_ids_v2` behind; a successful run agrees with the pure migration |
| Migrations.FailedMigrationSticks | scanner/database_migrations.py:164-168 | after a failed run, every later run fails, whatever the v1 tables then hold |
| Migrations.ClashStrandsStore | scanner/database_migrations.py:129-133 | a store with thread `t1` under `a` and `b` fails, keeps `subreddits_v2`, and still fails once the clash is removed, although the repaired tables on their own migrate |
| Migrations.MigrateV1ToV2Atomic | scanner/database_migrations.py:164-168 | the intended all-or-nothing run: a failure leaves the store unchanged; on a store without leftovers it migrates iff no thread id clashes, agreeing with the pure migration |
| Migrations.AtomicFailureRetries | scanner/database_migrations.py:164-168 | with the all-or-nothing run a failure leaves no table behind, and the next run on a repaired thread table migrates |
| Migrations.MigrateRowV2Forgets | scanner/database_migrations.py:199-215 | two v2 rows give the same v3 row iff they agree on every column but the retry count, the threads-collected flag and the last-checked time: exactly those three are dropped |
| Migrations.MigrateRowV2Fresh | scanner/database_migrations.py:211-213 | every v3 row starts with no category, no tags and language `en` |
| Migrations.MigrateV2ToV3 | scanner/database_migrations.py:171-248 | the v2 to v3 migration keeps every subreddit name and copies each row |
| Migrations.AddMissing | scanner/database_migrations.py:279-285 | the columns added are listed columns, in list order, each one missing before and added without error, and every missing column whose add succeeds is added |
| Migrations.AddMissingNone | scanner/database_migrations.py:279-280 | when every listed column exists nothing is added |
| Migrations.NewColumnsDistinct | scanner/database_migrations.py:256-271 | the fourteen listed columns have distinct names |
| Migrations.EnsureV4Columns | scanner/database_migrations.py:251-289 | `ensure_v4_columns` adds exactly the listed columns that were missing and whose add succeeded, in list order; the table's columns afterwards are the old ones plus those |
| Migrations.EnsureV4ColumnsIdempotent | scanner/database_migrations.py:279-289 | once every add has succeeded, a second call adds nothing, whatever its own adds would do |
| Migrations.FailedColumnRetried | scanner/database_migrations.py:282-285 | a failed add is skipped rather than raised and leaves the column missing, so the next call tries it again |
| Migrations.RetryCountReturns | scanner/database_migrations.py:279-283 | a store without `retry_count` gets it back with default 0 |
| Migrations.AddColumnsToRow | scanner/database_migrations.py:282 | adding columns gives each row exactly the new column names on top of its own and keeps every existing value |
| Migrations.EnsureV4KeepsValues | scanner/database_migrations.py:256-285 | `ensure_v4_columns` never alters an existing column's value, and each added column holds its declared default |
| Migrations.AddedDefaults | scanner/database_migrations.py:256-271 | every added column of distinct names holds its `DEFAULT` value in every row |

## Left out

- Sleeping, logging, printing and progress reports (`_show_progress`, `_report_progress`, `_report_final`) are not modelled: they change no state that a later decision reads. Sleeps appear as events or as the next clock reading.
- The per-subreddit cooldown and the batch pauses of `run` and `run_csv_scan` only sleep. They are left out with the other sleeps.
- `_should_trust_403` is defined but never called, so it is not modelled.
- Floating-point arithmetic is modelled as exact `real` arithmetic. This covers the limiter's timestamps and waits, the backoff delays and the success rates. Python's rounding is not modelled.
- RateLimiter.Acquire: the source reads the clock several times within one check; the model reads it once per check. Elapsed time and the grant use that one reading.
- RateLimiter.DefaultCaps: a capacity of 0 would make the source index an empty window. The model requires every capacity to be at least 1, which `validate` does not enforce.
- RedditClient: which statuses `raise_for_status()` raises on depends on the HTTP library's version, so it is a parameter (`isError`).
- RedditClient: the human-like delay before each request and the content of the diversity request are not modelled. Both are recorded as events.
- RedditClient: the access token is kept as an opaque string. No header or request body is modelled.
- RedditClient.ThreadIds: the URL, `sort`, `time_filter` and the `after` cursor sent with the next request are not modelled. The responses are given as the request routine's outcomes.
- RedditClient.GetSubredditInfo: whether the diversity request fires is decided by the caller. In the source it fires when the feature is on and a uniform draw is at most 0.2. The caller passes the request's replies, or nothing, and the random choice of endpoint is not modelled.
- JsonValue: JSON numbers are integers. A fractional number from the API, such as `created_utc`, is not modelled.
- Store: database I/O, transactions, `vacuum` and the database-side `get_subreddit_info` are not modelled.
- Store: the first `update_subreddit_metadata` is shadowed by the second definition in the same class, so only the second is modelled.
- Store.UpdateSubredditMetadata: the character-reference substitution inside `html.unescape` is a parameter, so the entity table of the HTML standard is not modelled. Its `'&' in` test, which returns a value without `&` unchanged, is modelled.
- Store.GetProcessingStats: the source returns the per-status counts in the same dictionary as `total_subreddits`, `metadata_collected` and `metadata_pending`, so a status with one of those names would be overwritten. The model keeps the four results apart and does not model that collision.
- Store.SubredditsForUpdate: SQL leaves rows that tie on all three sort keys in no defined order, and the model picks any tie order.
- Store: a `NULL` status is not modelled; every row has a string status. Subscriber counts are integers or absent, and the other non-integer values SQLite would store are not modelled.
- Scanner.Run: a shutdown signal is given as the index of the first item whose check sees it. Signal handlers and the clock reading for `stale_days` are not modelled beyond that.
- CsvScan: reading and writing the file through `csv.DictReader` and `csv.DictWriter` are not modelled. A row keeps only the three columns the scanner writes back, which is all `extrasaction='ignore'` lets through.
- CsvScan.ParseInt: Python's `int()` also accepts `_` between digits and non-ASCII digits. The model reads an optional sign and ASCII digits only, so such cells count as unparseable.
- CsvScan.RunCsvScan: the CSV mode never adds to the 403 run, because every answer clears it or leaves it alone. The model proves that, starting from no run, only rate-limit hits can trip the threshold. It does not model the process-wide counters beyond that.
- Text.Strip: the model treats ASCII white space and U+001C–U+001F as white space. Python's `strip()` also removes other Unicode white space, which is not modelled.
- Text.Lower: only ASCII letters are lower-cased. Python's `lower()` covers all of Unicode, which is not modelled.
- Config.UpdateFromArgs: a keyword naming a method of `Config` or a special attribute passes `hasattr`. `setattr` then replaces the method on the instance, or raises `TypeError` for a name such as `__class__`. The settings map holds the fields only, so such keywords are not modelled.
- Config.IgnoredArgument: the lemma excludes every name with two underscores at both ends, although Python defines only some of them.
- Config.Validate: the text of the TypeError `Path()` raises on a path that is not a string differs between Python versions. The model uses `expected str, bytes or os.PathLike object, not <type>` and states only that such a path fails, not which text it gives.
- Discover: `load_subreddits_from_db`, `call_claude_api`, `estimate_cost`, the `input()` confirmation and writing `categories_raw.txt` are not modelled. The API is a function from chunk index and prompt to an answer, or to `None` when the call raises.
- Discover.CreateDiscoveryPrompt: the fixed instruction text is reproduced, but only the subreddit-list part of the prompt carries properties.
- Migrations: SQL DDL, indexes, `VACUUM`, table renames and the declared column types are not modelled. Foreign keys are not enforced by SQLite by default and are not modelled either.
- Migrations: `processing_state` is assumed to hold at most one row per subreddit, so the `LEFT JOIN` produces one row per subreddit.
- Migrations.MigrateV1ToV2: only the primary-key clash of the thread-id copy makes the model fail. Other failing statements, such as a v1 table that lacks a column the copy names, are not modelled.
- Migrations.MigrateV2ToV3: the copy never fails in the model. On the autocommit connection a failure there would likewise leave `subreddits_v3` behind.
- `migrate_v3_to_v4.py` and `main.py`, with its argument parsing, logging setup and mode dispatch, are not part of this model.

## Findings

| source | as written | input that shows it | evidently intended | confidence | as-written member | corrected member |
|---|---|---|---|---|---|---|
| scanner/database.py:480-490 | `cleanup_user_profiles` deletes rows `WHERE subreddit_type = 'user' OR name LIKE 'u_%'`; in `LIKE`, `_` matches any single character and ASCII case is ignored | a stored subreddit `ukpolitics` of an ordinary type is deleted, as is any name of two or more characters starting with `u` or `U` | delete user profiles only: rows of type `user` or whose name starts with the literal `u_` (`LIKE 'u\_%' ESCAPE '\'`) | high, not executed | Store.CleanupUserProfilesAsWritten, Store.CleanupDeletesOrdinarySubreddit, Store.CleanupDeletesUkpolitics | Store.CleanupUserProfiles |
| scanner/database_migrations.py:164-168 | `migrate_v1_to_v2` runs on the store's connection, which is opened with `isolation_level=None` (database.py:89-93), and it issues no `BEGIN`; each statement commits at once, so the handler's `conn.rollback()` undoes nothing, and a failed run leaves `subreddits_v2` and `thread_ids_v2` in place with the schema version still 1 | a v1 store whose `thread_ids` lists thread `t1` under subreddits `a` and `b`: opening fails on the primary key of `thread_ids_v2`, and every later open fails at `CREATE TABLE subreddits_v2` (`table subreddits_v2 already exists`), even after the duplicate is removed | the migration runs in one transaction, so a failure leaves the v1 store as it was and a later open can migrate it | high, not executed | Migrations.MigrateV1ToV2AsWritten, Migrations.FailedMigrationSticks, Migrations.ClashStrandsStore, Store.ReopenAfterFailedMigration | Migrations.MigrateV1ToV2Atomic, Migrations.AtomicFailureRetries, Store.OpenV1Store |

=== FILE: config.dfy ===
/** The crawler's configuration: the dataclass with its defaults, the
    credential check when it is built from the environment, the "a `None`
    argument keeps the field" update from the command line, and the numeric
    guards of `validate`. Attribute values are dynamically typed in the
    source, so the configuration is a map from field to value. */
module Config {
  import opened Wrappers
  import Text

  /** The dataclass fields, in declaration order. */
  datatype Field =
    | ClientId | ClientSecret | Username | Password | UserAgent
    | DbPath | LogDir | LogLevel
    | RatePerMinute | RatePer10s | RatePer1s
    | MinRequestDelay | MaxRequestDelay | SubredditCooldown | MaxRetries
    | ShuffleOrder | RequestDiversity | BatchPauseInterval | BatchPauseMin | BatchPauseMax
    | MaxConsecutive403 | MaxTotal429 | Resume | ForceRefresh

  /** The attribute name `hasattr` and `setattr` see. */
  function FieldName(f: Field): string {
    match f
    case ClientId => "reddit_client_id"
    case ClientSecret => "reddit_client_secret"
    case Username => "reddit_username"
    case Password => "reddit_password"
    case UserAgent => "user_agent"
    case DbPath => "db_path"
    case LogDir => "log_dir"
    case LogLevel => "log_level"
    case RatePerMinute => "rate_limit_per_minute"
    case RatePer10s => "rate_limit_per_10s"
    case RatePer1s => "rate_limit_per_1s"
    case MinRequestDelay => "min_request_delay"
    case MaxRequestDelay => "max_request_delay"
    case SubredditCooldown => "subreddit_cooldown"
    case MaxRetries => "max_retries"
    case ShuffleOrder => "shuffle_order"
    case RequestDiversity => "request_diversity"
    case BatchPauseInterval => "batch_pause_interval"
    case BatchPauseMin => "batch_pause_min"
    case BatchPauseMax => "batch_pause_max"
    case MaxConsecutive403 => "max_consecutive_403"
    case MaxTotal429 => "max_total_429"
    case Resume => "resume"
    case ForceRefresh => "force_refresh"
  }

  /** A Python value stored in an attribute. */
  datatype Value = VInt(i: int) | VFloat(x: real) | VStr(s: string) | VBool(b: bool)

  /** Every field holds a value, as in a constructed dataclass. */
  type Settings = m: map<Field, Value> | forall f: Field :: f in m
    witness DefaultSettings("", "", "", "", DefaultUserAgent(""))

  /** The default user agent up to the account name. */
  const UserAgentPrefix: string :=
    "python:com.github.subdir:v1.0.0 (Subreddit Discovery Tool; https://github.com/justriverjames/subdir by /u/"

  /** The default user agent, naming the account. */
  function DefaultUserAgent(username: string): string {
    UserAgentPrefix + username + ")"
  }

  /** The dataclass default of each field, given the four credentials
      and the user agent. */
  function Default(f: Field, id: string, secret: string, user: string, password: string, agent: string): Value {
    match f
    case ClientId => VStr(id)
    case ClientSecret => VStr(secret)
    case Username => VStr(user)
    case Password => VStr(password)
    case UserAgent => VStr(agent)
    case DbPath => VStr("subreddit_scanner.db")
    case LogDir => VStr("logs")
    case LogLevel => VStr("INFO")
    case RatePerMinute => VInt(60)
    case RatePer10s => VInt(12)
    case RatePer1s => VInt(2)
    case MinRequestDelay => VFloat(1.5)
    case MaxRequestDelay => VFloat(3.0)
    case SubredditCooldown => VInt(2)
    case MaxRetries => VInt(3)
    case ShuffleOrder => VBool(true)
    case RequestDiversity => VBool(true)
    case BatchPauseInterval => VInt(100)
    case BatchPauseMin => VFloat(20.0)
    case BatchPauseMax => VFloat(40.0)
    case MaxConsecutive403 => VInt(10)
    case MaxTotal429 => VInt(3)
    case Resume => VBool(false)
    case ForceRefresh => VBool(false)
  }

  function DefaultSettings(id: string, secret: string, user: string, password: string, agent: string): (m: map<Field, Value>)
    ensures forall f: Field :: f in m && m[f] == Default(f, id, secret, user, password, agent)
  {
    map f: Field | true :: Default(f, id, secret, user, password, agent)
  }

  // ---------------------------------------------------------------------
  // from_env
  // ---------------------------------------------------------------------

  /** The environment variables holding the credentials, in the order the
      error message lists them. */
  const CredentialVariables: seq<string> :=
    ["REDDIT_CLIENT_ID", "REDDIT_CLIENT_SECRET", "REDDIT_USERNAME", "REDDIT_PASSWORD"]

  /** `not os.getenv(name)`: unset or empty. */
  predicate Unset(env: map<string, string>, name: string) {
    name !in env || env[name] == ""
  }

  /** `os.getenv(name, default)`. */
  function GetEnv(env: map<string, string>, name: string, default: string): string {
    if name in env then env[name] else default
  }

  /** The missing credentials, in the fixed order. */
  function Missing(env: map<string, string>, names: seq<string>): (r: seq<string>)
    ensures forall x :: x in r <==> x in names && Unset(env, x)
    ensures |r| <= |names|
  {
    if names == [] then []
    else (if Unset(env, names[0]) then [names[0]] else []) + Missing(env, names[1..])
  }

  /** `', '.join(xs)`. */
  function JoinComma(xs: seq<string>): string {
    if |xs| == 0 then "" else if |xs| == 1 then xs[0] else xs[0] + ", " + JoinComma(xs[1..])
  }

  /** `all([client_id, client_secret, username, password])`. */
  predicate CredentialsPresent(env: map<string, string>) {
    !Unset(env, "REDDIT_CLIENT_ID") && !Unset(env, "REDDIT_CLIENT_SECRET")
    && !Unset(env, "REDDIT_USERNAME") && !Unset(env, "REDDIT_PASSWORD")
  }

  /** The fields `from_env` reads from the environment. */
  predicate FromEnvironment(f: Field) {
    f.ClientId? || f.ClientSecret? || f.Username? || f.Password? || f.UserAgent? || f.DbPath? || f.LogDir? || f.LogLevel?
  }

  /** The value `from_env` gives field `f` once the credentials are
      present. */
  function EnvValue(f: Field, env: map<string, string>): Value
    requires CredentialsPresent(env)
  {
    match f
    case ClientId => VStr(env["REDDIT_CLIENT_ID"])
    case ClientSecret => VStr(env["REDDIT_CLIENT_SECRET"])
    case Username => VStr(env["REDDIT_USERNAME"])
    case Password => VStr(env["REDDIT_PASSWORD"])
    case UserAgent => VStr(GetEnv(env, "USER_AGENT", DefaultUserAgent(env["REDDIT_USERNAME"])))
    case DbPath => VStr(GetEnv(env, "SCANNER_DB_PATH", "subreddit_scanner.db"))
    case LogDir => VStr(GetEnv(env, "SCANNER_LOG_DIR", "logs"))
    case LogLevel => VStr(GetEnv(env, "LOG_LEVEL", "INFO"))
    case _ => Default(f, "", "", "", "", "")
  }

  /** The configuration `from_env` builds: credentials from the
      environment, user agent, paths and log level from their variables or
      the defaults, every other field the dataclass default. */
  function EnvSettings(env: map<string, string>): (r: Settings)
    requires CredentialsPresent(env)
    ensures forall f: Field :: r[f] == EnvValue(f, env)
  {
    map f: Field | true :: EnvValue(f, env)
  }

  /** What `from_env` reads: the credentials as set, the user agent from
      `USER_AGENT` or built from the username, the database path from
      `SCANNER_DB_PATH` or its default. */
  lemma EnvSettingsFields(env: map<string, string>)
    requires CredentialsPresent(env)
    ensures var r := EnvSettings(env);
            r[ClientId] == VStr(env["REDDIT_CLIENT_ID"]) && r[Password] == VStr(env["REDDIT_PASSWORD"])
            && r[UserAgent] == VStr(GetEnv(env, "USER_AGENT", DefaultUserAgent(env["REDDIT_USERNAME"])))
            && r[DbPath] == VStr(GetEnv(env, "SCANNER_DB_PATH", "subreddit_scanner.db"))
  {
    var r := EnvSettings(env);
    assert r[ClientId] == EnvValue(ClientId, env) && r[Password] == EnvValue(Password, env);
    assert r[UserAgent] == EnvValue(UserAgent, env) && r[DbPath] == EnvValue(DbPath, env);
  }

  /** Every field `from_env` does not read keeps its dataclass default. */
  lemma EnvSettingsDefaults(env: map<string, string>, f: Field)
    requires CredentialsPresent(env) && !FromEnvironment(f)
    ensures EnvSettings(env)[f] == Default(f, "", "", "", "", "")
  {
    assert EnvSettings(env)[f] == EnvValue(f, env);
  }

  /** `Config.from_env` after the `.env` file is loaded: raises naming
      every missing credential when any is missing. */
  function FromEnv(env: map<string, string>): (r: Result<Settings>)
    ensures r.Err? <==> !CredentialsPresent(env)
    ensures r.Err? ==> (r.message ==
              "Missing required Reddit API credentials: " + JoinComma(Missing(env, CredentialVariables))
              + "\nPlease set these environment variables or create a .env file.")
    ensures r.Ok? ==> CredentialsPresent(env) && r.value == EnvSettings(env)
  {
    if !CredentialsPresent(env) then
      Result<Settings>.Err("Missing required Reddit API credentials: " + JoinComma(Missing(env, CredentialVariables))
          + "\nPlease set these environment variables or create a .env file.")
    else
      Ok(EnvSettings(env))
  }

  /** The credentials count as present exactly when none of the four
      variables is unset or empty, that is, when the list of missing ones
      is empty. */
  lemma PresentIffNoneMissing(env: map<string, string>)
    ensures CredentialsPresent(env) <==> !exists x :: x in CredentialVariables && Unset(env, x)
    ensures CredentialsPresent(env) <==> Missing(env, CredentialVariables) == []
  {
    var missing := Missing(env, CredentialVariables);
    assert CredentialVariables[0] == "REDDIT_CLIENT_ID" && CredentialVariables[1] == "REDDIT_CLIENT_SECRET";
    assert CredentialVariables[2] == "REDDIT_USERNAME" && CredentialVariables[3] == "REDDIT_PASSWORD";
    if missing != [] {
      assert missing[0] in missing;
    }
  }

  /** Only the password missing: the message names the password and
      nothing else. */
  lemma OnlyPasswordMissing(id: string, secret: string, user: string)
    requires id != "" && secret != "" && user != ""
    ensures var env := map["REDDIT_CLIENT_ID" := id, "REDDIT_CLIENT_SECRET" := secret, "REDDIT_USERNAME" := user];
            Missing(env, CredentialVariables) == ["REDDIT_PASSWORD"]
  {
    var env := map["REDDIT_CLIENT_ID" := id, "REDDIT_CLIENT_SECRET" := secret, "REDDIT_USERNAME" := user];
    var names := CredentialVariables;
    assert names[3..] == ["REDDIT_PASSWORD"] && names[4..] == [];
    assert Missing(env, names[3..]) == ["REDDIT_PASSWORD"];
    assert Missing(env, names[2..]) == ["REDDIT_PASSWORD"];
    assert Missing(env, names[1..]) == ["REDDIT_PASSWORD"];
  }

  // ---------------------------------------------------------------------
  // update_from_args
  // ---------------------------------------------------------------------

  /** `update_from_args(**kwargs)`: a keyword that names a field and
      carries a value other than `None` overwrites that field. Keywords that
      name no attribute at all are ignored; those naming a method or a
      special attribute are outside the settings map. */
  function UpdateFromArgs(cfg: Settings, kwargs: map<string, Option<Value>>): (r: Settings)
    ensures forall f: Field :: FieldName(f) in kwargs && kwargs[FieldName(f)].Some? ==> r[f] == kwargs[FieldName(f)].value
    ensures forall f: Field :: (FieldName(f) !in kwargs || kwargs[FieldName(f)].None?) ==> r[f] == cfg[f]
  {
    map f: Field | true ::
      if FieldName(f) in kwargs && kwargs[FieldName(f)].Some? then kwargs[FieldName(f)].value else cfg[f]
  }

  /** Attribute names other than the fields that `hasattr` finds on a
      `Config`: its three methods, and the special names with two
      underscores at both ends (every name of that form is counted here,
      although Python defines only some of them). */
  predicate OtherAttribute(key: string) {
    key in {"from_env", "update_from_args", "validate"}
    || (|key| >= 4 && key[..2] == "__" && key[|key| - 2..] == "__")
  }

  /** A keyword whose value is `None`, or one that names no attribute of a
      `Config`, changes nothing. */
  lemma IgnoredArgument(cfg: Settings, kwargs: map<string, Option<Value>>, key: string)
    requires key in kwargs
    requires kwargs[key].None? || (!OtherAttribute(key) && forall f: Field :: FieldName(f) != key)
    ensures UpdateFromArgs(cfg, kwargs) == UpdateFromArgs(cfg, kwargs - {key})
  {
    var a := UpdateFromArgs(cfg, kwargs);
    var b := UpdateFromArgs(cfg, kwargs - {key});
    forall f: Field
      ensures a[f] == b[f]
    {
      if FieldName(f) == key {
        assert kwargs[key].None?;
      } else {
        assert FieldName(f) in kwargs <==> FieldName(f) in kwargs - {key};
      }
    }
  }

  /** Applying the same arguments twice is applying them once. */
  lemma UpdateFromArgsIdempotent(cfg: Settings, kwargs: map<string, Option<Value>>)
    ensures UpdateFromArgs(UpdateFromArgs(cfg, kwargs), kwargs) == UpdateFromArgs(cfg, kwargs)
  {
    var once := UpdateFromArgs(cfg, kwargs);
    var twice := UpdateFromArgs(once, kwargs);
    forall f: Field
      ensures twice[f] == once[f]
    {
    }
  }

  // ---------------------------------------------------------------------
  // validate
  // ---------------------------------------------------------------------

  /** The number Python compares: `bool` is an `int`; a string makes the
      comparison raise. */
  function Number(v: Value): Option<real> {
    match v
    case VInt(i) => Some(i as real)
    case VFloat(x) => Some(x)
    case VBool(b) => Some(if b then 1.0 else 0.0)
    case VStr(_) => None
  }

  function Num(cfg: Settings, f: Field): Option<real> {
    Number(cfg[f])
  }

  /** The numeric part of `validate`: at least one request a minute, the
      shorter windows no wider than the longer ones, and no negative
      cooldown or retry count. */
  predicate NumbersValid(cfg: Settings) {
    RatesValid(cfg) && CountsValid(cfg)
  }

  /** At least one request a minute, and the shorter windows no wider than
      the longer ones. */
  predicate RatesValid(cfg: Settings) {
    Num(cfg, RatePerMinute).Some? && Num(cfg, RatePer10s).Some? && Num(cfg, RatePer1s).Some?
    && Num(cfg, RatePerMinute).value >= 1.0
    && Num(cfg, RatePer10s).value <= Num(cfg, RatePerMinute).value
    && Num(cfg, RatePer1s).value <= Num(cfg, RatePer10s).value
  }

  /** No negative cooldown or retry count. */
  predicate CountsValid(cfg: Settings) {
    Num(cfg, SubredditCooldown).Some? && Num(cfg, MaxRetries).Some?
    && Num(cfg, SubredditCooldown).value >= 0.0
    && Num(cfg, MaxRetries).value >= 0.0
  }

  /** The comparison operators `validate` uses. */
  datatype Op = Lt | Gt

  function OpText(op: Op): string {
    if op == Lt then "<" else ">"
  }

  /** Python's TypeError text for an unsupported comparison. */
  function TypeErrorText(op: string, left: string, right: string): string {
    "'" + op + "' not supported between instances of '" + left + "' and '" + right + "'"
  }

  /** `type(v).__name__`. */
  function TypeName(v: Value): string {
    match v
    case VInt(_) => "int"
    case VFloat(_) => "float"
    case VStr(_) => "str"
    case VBool(_) => "bool"
  }

  /** Python's `a < b` or `a > b`: numbers (booleans among them) compare by
      value, two strings by code points, and any other pair raises the
      TypeError that names the operator and both types. */
  function Compare(a: Value, op: Op, b: Value): (r: Result<bool>)
    ensures Number(a).Some? && Number(b).Some? ==>
              r == Ok(if op == Lt then Number(a).value < Number(b).value else Number(b).value < Number(a).value)
    ensures r.Err? <==> (Number(a).None? || Number(b).None?) && !(a.VStr? && b.VStr?)
    ensures r.Err? ==> r.message == TypeErrorText(OpText(op), TypeName(a), TypeName(b))
  {
    if Number(a).Some? && Number(b).Some? then
      Ok(if op == Lt then Number(a).value < Number(b).value else Number(b).value < Number(a).value)
    else if a.VStr? && b.VStr? then
      Ok(if op == Lt then Text.StrLt(a.s, b.s) else Text.StrLt(b.s, a.s))
    else
      Err(TypeErrorText(OpText(op), TypeName(a), TypeName(b)))
  }

  /** One path check of `validate`: `Path(v)` raises on anything but a
      string; otherwise a path of the wrong kind raises `message` followed
      by the path, and a usable one lets the remaining checks run. */
  function PathCheck(v: Value, wrongKind: bool, message: string, rest: Result<Settings>): (r: Result<Settings>)
    ensures r.Ok? <==> v.VStr? && !wrongKind && rest.Ok?
    ensures v.VStr? && wrongKind ==> r == Err(message + ": " + v.s)
    ensures r.Ok? ==> r == rest
  {
    if !v.VStr? then Err("expected str, bytes or os.PathLike object, not " + TypeName(v))
    else Check(Ok(wrongKind), message + ": " + v.s, rest)
  }

  /** One check of `validate`: a comparison that raises, one that holds
      (raising `message`), or one that lets the remaining checks run. */
  function Check(failed: Result<bool>, message: string, rest: Result<Settings>): (r: Result<Settings>)
    ensures r.Ok? <==> failed == Ok(false) && rest.Ok?
    ensures failed == Ok(true) ==> r == Err(message)
    ensures r.Ok? ==> r == rest
  {
    match failed
    case Err(m) => Err(m)
    case Ok(true) => Err(message)
    case Ok(false) => rest
  }

  /** The messages of `validate`'s checks, in source order. */
  const PerMinuteMessage: string := "rate_limit_per_minute must be >= 1"
  const Per10sMessage: string := "rate_limit_per_10s cannot exceed rate_limit_per_minute"
  const Per1sMessage: string := "rate_limit_per_1s cannot exceed rate_limit_per_10s"
  const DbPathMessage: string := "Database path exists but is not a file"
  const LogDirMessage: string := "Log directory path exists but is not a directory"
  const CooldownMessage: string := "subreddit_cooldown must be >= 0"
  const RetriesMessage: string := "max_retries must be >= 0"

  /** `Config.validate`; the two path checks are inputs. The checks run in
      source order and the first that fails is the one reported. */
  function Validate(cfg: Settings, dbPathNotFile: bool, logDirNotDir: bool): (r: Result<Settings>)
    ensures r.Ok? <==> NumbersValid(cfg) && cfg[DbPath].VStr? && cfg[LogDir].VStr? && !dbPathNotFile && !logDirNotDir
    ensures r.Ok? ==> r.value == cfg
  {
    RateChecks(cfg, PathChecks(cfg, dbPathNotFile, logDirNotDir, CountChecks(cfg)))
  }

  /** The three rate-limit checks, ahead of `rest`. */
  function RateChecks(cfg: Settings, rest: Result<Settings>): (r: Result<Settings>)
    ensures r.Ok? <==> RatesValid(cfg) && rest.Ok?
    ensures RatesValid(cfg) ==> r == rest
  {
    Check(Compare(cfg[RatePerMinute], Lt, VInt(1)), PerMinuteMessage,
    Check(Compare(cfg[RatePer10s], Gt, cfg[RatePerMinute]), Per10sMessage,
    Check(Compare(cfg[RatePer1s], Gt, cfg[RatePer10s]), Per1sMessage,
    rest)))
  }

  /** The database-path and log-directory checks, ahead of `rest`. */
  function PathChecks(cfg: Settings, dbPathNotFile: bool, logDirNotDir: bool, rest: Result<Settings>): (r: Result<Settings>)
    ensures r.Ok? <==> cfg[DbPath].VStr? && cfg[LogDir].VStr? && !dbPathNotFile && !logDirNotDir && rest.Ok?
    ensures r.Ok? ==> r == rest
  {
    PathCheck(cfg[DbPath], dbPathNotFile, DbPathMessage,
    PathCheck(cfg[LogDir], logDirNotDir, LogDirMessage,
    rest))
  }

  /** The cooldown and retry-count checks. */
  function CountChecks(cfg: Settings): (r: Result<Settings>)
    ensures r.Ok? <==> CountsValid(cfg)
    ensures r.Ok? ==> r.value == cfg
  {
    Check(Compare(cfg[SubredditCooldown], Lt, VInt(0)), CooldownMessage,
    Check(Compare(cfg[MaxRetries], Lt, VInt(0)), RetriesMessage,
    Ok(cfg)))
  }

  /** A path of the wrong kind is reported with the path itself, once the
      rate limits pass: the database path first, then the log directory. */
  lemma PathErrorsNamePath(cfg: Settings, dbPathNotFile: bool, logDirNotDir: bool)
    requires NumbersValid(cfg) && cfg[DbPath].VStr? && cfg[LogDir].VStr?
    ensures dbPathNotFile ==>
              Validate(cfg, dbPathNotFile, logDirNotDir)
              == Err(DbPathMessage + ": " + cfg[DbPath].s)
    ensures !dbPathNotFile && logDirNotDir ==>
              Validate(cfg, dbPathNotFile, logDirNotDir)
              == Err(LogDirMessage + ": " + cfg[LogDir].s)
  {
  }

  /** A string where a number is compared raises the TypeError of the
      operator the source uses: `<` against the literal for the per-minute
      limit, `>` against the per-minute limit for the 10-second one. */
  lemma StringLimitRaises(cfg: Settings, dbPathNotFile: bool, logDirNotDir: bool, s: string)
    ensures cfg[RatePerMinute] == VStr(s) ==>
              Validate(cfg, dbPathNotFile, logDirNotDir)
              == Err(TypeErrorText("<", "str", "int"))
    ensures cfg[RatePerMinute].VInt? && cfg[RatePerMinute].i >= 1 && cfg[RatePer10s] == VStr(s) ==>
              Validate(cfg, dbPathNotFile, logDirNotDir)
              == Err(TypeErrorText(">", "str", "int"))
  {
    if cfg[RatePerMinute].VInt? && cfg[RatePerMinute].i >= 1 && cfg[RatePer10s] == VStr(s) {
      assert Compare(cfg[RatePerMinute], Lt, VInt(1)) == Ok(false);
      assert Compare(cfg[RatePer10s], Gt, cfg[RatePerMinute]).Err?;
    }
  }

  /** The checks run in source order and the first failing one is
      reported: a per-minute limit below 1 is reported whatever else is
      wrong, and a per-10-second limit above the per-minute one is
      reported next. */
  lemma ValidateReportsFirstFailure(cfg: Settings, dbPathNotFile: bool, logDirNotDir: bool)
    ensures Num(cfg, RatePerMinute).Some? && Num(cfg, RatePerMinute).value < 1.0 ==>
              Validate(cfg, dbPathNotFile, logDirNotDir) == Err(PerMinuteMessage)
    ensures (Num(cfg, RatePerMinute).Some? && Num(cfg, RatePerMinute).value >= 1.0
             && Num(cfg, RatePer10s).Some? && Num(cfg, RatePerMinute).value < Num(cfg, RatePer10s).value) ==>
              Validate(cfg, dbPathNotFile, logDirNotDir) == Err(Per10sMessage)
  {
  }

  /** The defaults pass the numeric checks, whatever the credentials. */
  lemma DefaultsValid(id: string, secret: string, user: string, password: string, agent: string)
    ensures NumbersValid(DefaultSettings(id, secret, user, password, agent))
  {
  }
}

=== FILE: csv_scan.dfy ===
/** The CSV side of the orchestrator: loading and ordering a CSV of
    candidate subreddits, the resumable scan that shrinks the file as it
    goes, and the offline de-duplication against the store. A CSV row is
    reduced to the three columns the scanner writes back; reading and
    writing the file are left out. */
module CsvScan {
  import opened Wrappers
  import opened Text
  import opened JsonValue
  import opened Store
  import opened Scanner
  import opened Sequences
  import RC = RedditClient

  /** A row of the CSV. `subreddit` is empty when the cell is missing or
      blank; the other two are `None` when the file has no such column. */
  datatype CsvRow = CsvRow(subreddit: string, subscribers: Option<string>, retryCount: Option<string>)

  /** `row['subreddit'].strip().lower()`. */
  function RowKey(row: CsvRow): string {
    Lower(Strip(row.subreddit))
  }

  /** `if row.get('subreddit')`: only rows naming a subreddit are loaded. */
  function Loaded(rows: seq<CsvRow>): (r: seq<CsvRow>)
    ensures forall i :: 0 <= i < |r| ==> r[i].subreddit != ""
    ensures SubseqOf(r, rows)
    ensures forall i :: 0 <= i < |rows| && rows[i].subreddit != "" ==> rows[i] in r
    ensures forall x :: multiset(r)[x] == if x.subreddit == "" then 0 else multiset(rows)[x]
  {
    if rows == [] then []
    else
      var tail := Loaded(rows[1..]);
      assert multiset(rows) == multiset([rows[0]]) + multiset(rows[1..]) by {
        assert rows == [rows[0]] + rows[1..];
      }
      if rows[0].subreddit == "" then tail
      else
        assert multiset([rows[0]] + tail) == multiset([rows[0]]) + multiset(tail);
        [rows[0]] + tail
  }

  // ---------------------------------------------------------------------
  // The sort key: int(x.get('subscribers', 0) or 0)
  // ---------------------------------------------------------------------

  /** `int(text)` on a string: surrounding white space is ignored, then an
      optional sign and at least one decimal digit. */
  function ParseInt(text: string): (r: Option<int>)
    ensures r.Some? ==> Strip(text) != ""
  {
    var t := Strip(text);
    if t == "" then None
    else if (t[0] == '-' || t[0] == '+') && |t| > 1 && AllDigits(t[1..]) then
      Some(if t[0] == '-' then -(DigitsValue(t[1..]) as int) else DigitsValue(t[1..]))
    else if AllDigits(t) then Some(DigitsValue(t))
    else None
  }

  /** A decimal count reads back as itself. */
  lemma ParseShown(n: nat)
    ensures ParseInt(ShowNat(n)) == Some(n)
  {
    var s := ShowNat(n);
    assert !IsSpace(s[0]) && !IsSpace(s[|s| - 1]);
    StripNoop(s);
    DigitsValueShow(n);
  }

  /** The sort key of a row; `None` where `int()` raises. A missing or
      empty cell counts as 0. */
  function SortKey(row: CsvRow): (r: Option<int>)
    ensures row.subscribers.None? || row.subscribers == Some("") ==> r == Some(0)
  {
    match row.subscribers
    case None => Some(0)
    case Some(cell) => if cell == "" then Some(0) else ParseInt(cell)
  }

  predicate Keyed(rows: seq<CsvRow>) {
    forall i :: 0 <= i < |rows| ==> SortKey(rows[i]).Some?
  }

  function Rank(row: CsvRow): int {
    SortKey(row).GetOr(0)
  }

  // ---------------------------------------------------------------------
  // csv_rows.sort(key=..., reverse=True): stable, largest first
  // ---------------------------------------------------------------------

  /** The loaded rows in scan order: most subscribers first, rows with the
      same count in file order. */
  function SortRows(rows: seq<CsvRow>): seq<CsvRow> {
    SortBy(rows, Rank)
  }

  /** The scan order is by subscriber count, largest first, is a
      permutation of the loaded rows, and keeps file order among rows with
      the same count. */
  lemma SortRowsOrder(rows: seq<CsvRow>, i: nat, j: nat)
    requires i <= j < |rows|
    ensures Rank(SortRows(rows)[i]) >= Rank(SortRows(rows)[j])
    ensures multiset(SortRows(rows)) == multiset(rows)
    ensures forall k :: OfRank(SortRows(rows), Rank, k) == OfRank(rows, Rank, k)
  {
    SortByStable(rows, Rank);
    DescendingPairs(SortRows(rows), Rank, i, j);
  }

  // ---------------------------------------------------------------------
  // run_csv_scan
  // ---------------------------------------------------------------------

  /** `subscribers < 100` on the API value after `or 0`; `None` where the
      comparison raises (a non-empty string, array or object). */
  function Small(v: Json): Option<bool> {
    match v
    case JNum(n) => Some(n < 100)
    case JBool(_) => Some(true)
    case JNull => Some(true)
    case _ => if Truthy(v) then None else Some(true)
  }

  /** What became of a row that was reached. */
  datatype Outcome =
    | Duplicate     // already in the store: removed from the CSV
    | Skipped       // a user profile or under 100 subscribers: removed, not counted
    | Dropped       // 404 or 403: removed from the store and the CSV
    | Saved         // stored with metadata or a status
    | Errored       // something raised: kept in the CSV

  datatype CsvState = CsvState(db: Db, consecutive403: int, recent: nat, hits: nat,
                               processed: int, duplicates: nat, saved: nat, errors: nat)

  /** Only `Skipped` rows leave `processed` alone. */
  predicate Counted(o: Outcome) {
    o != Skipped
  }

  /** The bookkeeping every row's handling shares: the counters move with
      the outcome, the store changes at most at the row's key, and the run
      of 403s is kept or cleared, never grown. */
  predicate Accounted(s: CsvState, t: CsvState, key: string, o: Outcome) {
    t.processed == s.processed + (if Counted(o) then 1 else 0)
    && t.duplicates == s.duplicates + (if o == Duplicate then 1 else 0)
    && t.errors == s.errors + (if o == Errored then 1 else 0)
    && t.saved == s.saved + (if o == Saved then 1 else 0)
    && (o == Skipped || o == Dropped ==> key !in t.db)
    && (o == Saved ==> key in t.db && t.db[key].collected)
    && (o == Errored ==> key in t.db)
    && (forall k :: k in s.db && k != key ==> k in t.db && t.db[k] == s.db[k])
    && t.db.Keys <= s.db.Keys + {key}
    && (t.consecutive403 == s.consecutive403 || t.consecutive403 == 0)
  }

  /** One row of the scan, given what fetching it returns. A row whose key
      is already stored is a duplicate and costs no request; any other is
      added as pending first. */
  method CsvStep(s: CsvState, row: CsvRow, item: Item, ctx: Ctx) returns (t: CsvState, o: Outcome)
    ensures (o == Duplicate <==> RowKey(row) in s.db)
    ensures o == Errored <==> RowKey(row) !in s.db && (item.fetched.Raised? || RaisesOnSize(item.fetched))
    ensures Accounted(s, t, RowKey(row), o)
  {
    var key := RowKey(row);
    LowerIdempotent(Strip(row.subreddit));
    if key in s.db {
      return s.(processed := s.processed + 1, duplicates := s.duplicates + 1), Duplicate;
    }
    var s1 := s.(db := AddSubreddit(s.db, key).0, hits := item.hitsAfter);
    match item.fetched
    case Raised(_) =>
      t, o := s1.(errors := s1.errors + 1, processed := s1.processed + 1), Errored;
    case Info(md, status) =>
      t, o := OnFetched(s1, key, md, status, ctx);
  }

  /** The size filter raises: an active subreddit whose subscriber value
      cannot be compared with 100. */
  predicate RaisesOnSize(f: Fetched) {
    f.Info? && !UserProfile(f.metadata) && ActiveWithMetadata(f) && Small(ShownSubscribers(f.metadata.value)).None?
  }

  /** The classification of a row just added as pending. A user profile is
      removed without touching the run of 403s; every other answer clears
      it. */
  method OnFetched(s: CsvState, key: string, md: Option<map<string, Json>>, status: RC.Status, ctx: Ctx)
    returns (t: CsvState, o: Outcome)
    requires key in s.db && Key(key) == key
    ensures o != Duplicate && (o == Errored <==> RaisesOnSize(Info(md, status)))
    ensures Accounted(s, t, key, o)
    ensures UserProfile(md) ==> o == Skipped && t.consecutive403 == s.consecutive403
    ensures !UserProfile(md) ==> t.consecutive403 == 0
    ensures status == RC.NotFound || status == RC.Deleted ==> o == Dropped || o == Skipped
  {
    if UserProfile(md) {
      return s.(db := Delete(s.db, key)), Skipped;
    }
    var s1 := s.(consecutive403 := 0, recent := TrackSuccess(s.recent));
    if ActiveWithMetadata(Info(md, status)) {
      match Small(ShownSubscribers(md.value))
      case None =>
        t, o := s1.(errors := s1.errors + 1, processed := s1.processed + 1), Errored;
      case Some(true) =>
        t, o := s1.(db := Delete(s1.db, key)), Skipped;
      case Some(false) =>
        var db2 := UpdateSubredditMetadata(s1.db, key, md.value, ctx.now, ctx.unescape).0;
        var db3 := UpdateSubreddit(db2, key, "active", None, Some(true));
        t, o := s1.(db := db3, saved := s1.saved + 1, processed := s1.processed + 1), Saved;
    } else if status == RC.NotFound || status == RC.Deleted {
      t, o := s1.(db := Delete(s1.db, key), processed := s1.processed + 1), Dropped;
    } else {
      var name := RC.StatusName(status);
      var db2 := UpdateSubredditStatus(s1.db, key, name, None);
      var db3 := UpdateSubreddit(db2, key, name, Some("Status: " + name), Some(true));
      t, o := s1.(db := db3, saved := s1.saved + 1, processed := s1.processed + 1), Saved;
    }
  }

  /** The rows among the first `|outs|` whose outcome was `Errored`. */
  function ErroredRows(rows: seq<CsvRow>, outs: seq<Outcome>): seq<CsvRow>
    requires |outs| <= |rows|
  {
    if outs == [] then []
    else ErroredRows(rows, outs[..|outs| - 1]) + (if outs[|outs| - 1] == Errored then [rows[|outs| - 1]] else [])
  }

  lemma ErroredRowsSnoc(rows: seq<CsvRow>, outs: seq<Outcome>, o: Outcome)
    requires |outs| < |rows|
    ensures ErroredRows(rows, outs + [o]) == ErroredRows(rows, outs) + (if o == Errored then [rows[|outs|]] else [])
  {
    assert (outs + [o])[..|outs|] == outs;
  }

  /** A row is kept exactly when it was reached and its handling raised. */
  lemma {:induction false} ErroredRowsAreErrored(rows: seq<CsvRow>, outs: seq<Outcome>, row: CsvRow)
    requires |outs| <= |rows|
    ensures row in ErroredRows(rows, outs) <==> exists i :: 0 <= i < |outs| && outs[i] == Errored && rows[i] == row
  {
    if outs != [] {
      var n := |outs| - 1;
      ErroredRowsAreErrored(rows, outs[..n], row);
      assert forall i :: 0 <= i < n ==> outs[..n][i] == outs[i];
      if exists i :: 0 <= i < |outs| && outs[i] == Errored && rows[i] == row {
        var i :| 0 <= i < |outs| && outs[i] == Errored && rows[i] == row;
        if i < n {
          assert outs[..n][i] == Errored;
        }
      }
    }
  }

  datatype CsvEnd = CsvEnd(state: CsvState, outs: seq<Outcome>, kept: seq<CsvRow>, tripped: bool)

  /** `self.limit if self.limit else len(csv_rows)`. */
  function CsvLimit(limit: Option<int>, count: nat): int {
    if limit.Some? && limit.value != 0 then limit.value else count
  }

  /** The `for` loop of `run_csv_scan` over the sorted rows. It stops at a
      shutdown request (`signal` is the first row whose check sees one), at
      a tripped threshold, or once `processed` reaches the limit; the rows
      kept are those whose handling raised followed by every row not
      reached. */
  method CsvLoop(start: CsvState, rows: seq<CsvRow>, fetch: nat -> Item, limit: int,
                 signal: nat, lim: Limits, ctx: Ctx) returns (r: CsvEnd)
    ensures |r.outs| <= |rows|
    ensures r.kept == ErroredRows(rows, r.outs) + rows[|r.outs|..]
    ensures |r.outs| < |rows| ==> |r.outs| >= signal || r.tripped || r.state.processed >= limit
    ensures r.tripped ==> Trips(r.state.consecutive403, r.state.hits, lim)
    ensures start.processed <= limit ==> r.state.processed <= limit
    ensures start.consecutive403 == 0 ==> r.state.consecutive403 == 0
    ensures r.state.duplicates + r.state.saved + r.state.errors <= start.duplicates + start.saved + start.errors + |r.outs|
  {
    var st := start;
    var outs: seq<Outcome> := [];
    var kept: seq<CsvRow> := [];
    var tripped := false;
    while |outs| < |rows|
      invariant |outs| <= |rows|
      invariant kept == ErroredRows(rows, outs)
      invariant start.processed <= limit ==> st.processed <= limit
      invariant start.consecutive403 == 0 ==> st.consecutive403 == 0
      invariant st.duplicates + st.saved + st.errors <= start.duplicates + start.saved + start.errors + |outs|
      invariant !tripped
    {
      var idx := |outs|;
      if idx >= signal {
        break;
      }
      if Trips(st.consecutive403, st.hits, lim) {
        tripped := true;
        break;
      }
      if st.processed >= limit {
        break;
      }
      var o;
      st, o := CsvStep(st, rows[idx], fetch(idx), ctx);
      ErroredRowsSnoc(rows, outs, o);
      outs := outs + [o];
      kept := kept + (if o == Errored then [rows[idx]] else []);
    }
    r := CsvEnd(st, outs, kept + rows[|outs|..], tripped);
  }

  /** The file written back: the kept rows, with a missing retry count
      written as 0. */
  function WriteRows(rows: seq<CsvRow>): (r: seq<CsvRow>)
    ensures |r| == |rows|
    ensures forall i :: 0 <= i < |r| ==>
              (r[i].retryCount.Some? && r[i].subreddit == rows[i].subreddit
               && r[i].subscribers == rows[i].subscribers
               && (rows[i].retryCount.Some? ==> r[i] == rows[i])
               && (rows[i].retryCount.None? ==> r[i].retryCount == Some("0")))
  {
    seq(|rows|, i requires 0 <= i < |rows| =>
      if rows[i].retryCount.None? then rows[i].(retryCount := Some("0")) else rows[i])
  }

  /** `run_csv_scan` after the file is read: load, sort (which raises on a
      subscriber cell `int()` rejects, before anything is touched), scan,
      and write back the rows that raised followed by every row the scan
      did not reach. */
  method RunCsvScan(file: seq<CsvRow>, db: Db, c403: int, recent: nat, hits: nat, limit: Option<int>,
                    fetch: nat -> Item, signal: nat, lim: Limits, ctx: Ctx)
    returns (r: Result<CsvEnd>, written: seq<CsvRow>)
    ensures r.Err? <==> !Keyed(Loaded(file))
    ensures r.Err? ==> written == file
    ensures r.Ok? ==>
              var sorted := SortRows(Loaded(file));
              |r.value.outs| <= |sorted|
              && written == WriteRows(ErroredRows(sorted, r.value.outs) + sorted[|r.value.outs|..])
              && (|r.value.outs| < |sorted| ==>
                    (|r.value.outs| >= signal || r.value.tripped
                     || r.value.state.processed >= CsvLimit(limit, |sorted|)))
    ensures r.Ok? && c403 == 0 && lim.max403 > 0 && r.value.tripped ==> r.value.state.hits >= lim.max429
  {
    var loaded := Loaded(file);
    if !Keyed(loaded) {
      return Err("invalid literal for int() with base 10"), file;
    }
    var sorted := SortRows(loaded);
    var start := CsvState(db, c403, recent, hits, 0, 0, 0, 0);
    var end := CsvLoop(start, sorted, fetch, CsvLimit(limit, |sorted|), signal, lim, ctx);
    r := Ok(end);
    written := WriteRows(end.kept);
  }

  /** Writing is idempotent: a second pass changes nothing. */
  lemma WriteRowsIdempotent(rows: seq<CsvRow>)
    ensures WriteRows(WriteRows(rows)) == WriteRows(rows)
  {
  }

  // ---------------------------------------------------------------------
  // dedupe_csv
  // ---------------------------------------------------------------------

  datatype Deduped = Deduped(written: seq<CsvRow>, internalDuplicates: nat, storeDuplicates: nat)

  /** Step 1 of `dedupe_csv`: the first row of each key. */
  function UniqueRows(rows: seq<CsvRow>): seq<CsvRow> {
    FirstBy(rows, RowKey, {})
  }

  /** Step 2 of `dedupe_csv`: the rows whose key is not in the store. */
  function NewRows(rows: seq<CsvRow>, db: Db): seq<CsvRow> {
    KeepUnlisted(rows, RowKey, db.Keys)
  }

  /** `dedupe_csv`: drop every later row of a key, then every row whose key
      is in the store. The rows written keep the file's order, hold no key
      twice and none the store has, and every key of the file the store
      lacks is still there, carried by the first loaded row of that key;
      the two counts add up to the rows removed. */
  method DedupeCsv(file: seq<CsvRow>, db: Db) returns (r: Deduped)
    ensures var kept := NewRows(UniqueRows(Loaded(file)), db);
            r.written == WriteRows(kept)
            && SubseqOf(kept, file) && DistinctBy(kept, RowKey)
            && (forall i :: 0 <= i < |kept| ==> RowKey(kept[i]) !in db)
            && (forall i :: 0 <= i < |file| && file[i].subreddit != "" && RowKey(file[i]) !in db ==>
                  (RowKey(file[i]) in KeysBy(kept, RowKey)))
            && r.internalDuplicates + r.storeDuplicates + |kept| == |Loaded(file)|
            && AllFirstOfKey(kept, Loaded(file), RowKey)
  {
    var loaded := Loaded(file);
    var unique := UniqueRows(loaded);
    var kept := NewRows(unique, db);
    assert |kept| <= |unique| <= |loaded| by {
      SubseqLength(unique, loaded);
      SubseqLength(kept, unique);
    }
    assert SubseqOf(kept, file) && DistinctBy(kept, RowKey) by {
      SubseqTransitive(kept, unique, loaded);
      SubseqTransitive(kept, loaded, file);
      SubseqDistinctBy(kept, unique, RowKey);
    }
    assert forall i :: 0 <= i < |file| && file[i].subreddit != "" && RowKey(file[i]) !in db ==>
             RowKey(file[i]) in KeysBy(kept, RowKey) by {
      forall i | 0 <= i < |file| && file[i].subreddit != "" && RowKey(file[i]) !in db
        ensures RowKey(file[i]) in KeysBy(kept, RowKey)
      {
        KeysSurvive(loaded, RowKey, db.Keys, file[i]);
      }
    }
    KeptAreFirst(loaded, RowKey, db.Keys);
    r := Deduped(WriteRows(kept), |loaded| - |unique|, |unique| - |kept|);
  }

  lemma {:induction false} SubseqLength<T>(a: seq<T>, b: seq<T>)
    requires SubseqOf(a, b)
    ensures |a| <= |b|
    decreases |b|
  {
    if a != [] {
      if a[0] == b[0] && SubseqOf(a[1..], b[1..]) {
        SubseqLength(a[1..], b[1..]);
      } else {
        SubseqLength(a, b[1..]);
      }
    }
  }

  /** Deduplicating a cleaned file against the same store changes nothing. */
  lemma DedupeIdempotent(file: seq<CsvRow>, db: Db)
    ensures var once := WriteRows(NewRows(UniqueRows(Loaded(file)), db));
            WriteRows(NewRows(UniqueRows(Loaded(once)), db)) == once
  {
    KeptRowsClean(file, db);
    CleanRowsStay(NewRows(UniqueRows(Loaded(file)), db), db);
  }

  /** The rows kept name distinct subreddits, none of them empty or stored. */
  lemma KeptRowsClean(file: seq<CsvRow>, db: Db)
    ensures var kept := NewRows(UniqueRows(Loaded(file)), db);
            DistinctBy(kept, RowKey)
            && forall i :: 0 <= i < |kept| ==> kept[i].subreddit != "" && RowKey(kept[i]) !in db.Keys
  {
    var loaded := Loaded(file);
    var unique := UniqueRows(loaded);
    var kept := NewRows(unique, db);
    assert SubseqOf(kept, unique) && SubseqOf(unique, loaded) && DistinctBy(unique, RowKey);
    assert forall i :: 0 <= i < |loaded| ==> loaded[i].subreddit != "";
    assert DistinctBy(kept, RowKey) && forall i :: 0 <= i < |kept| ==> kept[i].subreddit != "" by {
      SubseqKeeps(kept, unique, loaded, RowKey, (row: CsvRow) => row.subreddit != "");
    }
  }

  /** Rows that name distinct subreddits, none of them stored, pass the
      de-duplication unchanged once written. */
  lemma CleanRowsStay(kept: seq<CsvRow>, db: Db)
    requires DistinctBy(kept, RowKey)
    requires forall i :: 0 <= i < |kept| ==> kept[i].subreddit != "" && RowKey(kept[i]) !in db.Keys
    ensures WriteRows(NewRows(UniqueRows(Loaded(WriteRows(kept))), db)) == WriteRows(kept)
  {
    var once := WriteRows(kept);
    LoadedAll(once);
    SameKeysDistinct(once, kept, RowKey);
    KeysAlreadyClean(once, RowKey, db.Keys);
    WriteRowsIdempotent(kept);
  }

  lemma {:induction false} LoadedAll(rows: seq<CsvRow>)
    requires forall i :: 0 <= i < |rows| ==> rows[i].subreddit != ""
    ensures Loaded(rows) == rows
  {
    if rows != [] {
      LoadedAll(rows[1..]);
      assert rows == [rows[0]] + rows[1..];
    }
  }
}

=== FILE: discover.dfy ===
/** The category-discovery script: the active subreddits are cut into
    fixed-size chunks, each chunk becomes one prompt, each answer is parsed
    into category names line by line, and the union of the names from the
    chunks answered before the first failure is saved in sorted order. The
    language-model call is an oracle from (chunk index, prompt) to an answer,
    or to `None` when it raises. */
module Discover {
  import opened Wrappers
  import opened Text
  import opened Sequences

  // ---------------------------------------------------------------------
  // Chunk arithmetic
  // ---------------------------------------------------------------------

  const AvgTokensPerSubreddit: nat := 125
  const MaxContextTokens: nat := 200000
  const ReservedTokens: nat := 10000
  const EffectiveTokensPerChunk: nat := MaxContextTokens - ReservedTokens

  /** `int(EFFECTIVE_TOKENS_PER_CHUNK / AVG_TOKENS_PER_SUBREDDIT)`. The
      float division is exact here, so truncating it is integer division. */
  const SubredditsPerChunk: nat := EffectiveTokensPerChunk / AvgTokensPerSubreddit

  lemma ChunkSizeExact()
    ensures SubredditsPerChunk == 1520
    ensures SubredditsPerChunk * AvgTokensPerSubreddit == EffectiveTokensPerChunk
  {
  }

  /** `(total + SUBREDDITS_PER_CHUNK - 1) // SUBREDDITS_PER_CHUNK`: the
      fewest chunks that hold `total` subreddits. */
  function NumChunks(total: nat): (n: nat)
    ensures n * SubredditsPerChunk >= total
    ensures n > 0 ==> (n - 1) * SubredditsPerChunk < total
    ensures n == 0 <==> total == 0
  {
    (total + SubredditsPerChunk - 1) / SubredditsPerChunk
  }

  /** `subreddits[start_idx:end_idx]` for chunk `i`, with `end_idx` capped
      at the total. */
  function ChunkAt<T>(xs: seq<T>, i: nat): (r: seq<T>)
    requires i < NumChunks(|xs|)
    ensures 0 < |r| <= SubredditsPerChunk
  {
    var start := i * SubredditsPerChunk;
    var end := if start + SubredditsPerChunk < |xs| then start + SubredditsPerChunk else |xs|;
    xs[start..end]
  }

  /** The chunks in the order the loop visits them. */
  function ChunkList<T>(xs: seq<T>): (r: seq<seq<T>>)
    ensures |r| == NumChunks(|xs|)
    ensures forall i :: 0 <= i < |r| ==> r[i] == ChunkAt(xs, i)
  {
    seq(NumChunks(|xs|), i requires 0 <= i < NumChunks(|xs|) => ChunkAt(xs, i))
  }

  function Flatten<T>(ss: seq<seq<T>>): seq<T> {
    if ss == [] then [] else ss[0] + Flatten(ss[1..])
  }

  /** The first chunk starts at the head of the list. */
  lemma FirstChunk<T>(xs: seq<T>)
    requires 0 < |xs|
    ensures ChunkAt(xs, 0) == xs[..Min(|xs|, SubredditsPerChunk)]
  {
    assert 0 * SubredditsPerChunk == 0;
  }

  /** Past the first chunk, the chunks of a list are the chunks of its
      remainder. */
  lemma ChunkListRest<T>(xs: seq<T>)
    requires |xs| > SubredditsPerChunk
    ensures ChunkList(xs) == [xs[..SubredditsPerChunk]] + ChunkList(xs[SubredditsPerChunk..])
  {
    var rest := xs[SubredditsPerChunk..];
    ChunkSizeExact();
    assert NumChunks(|xs|) == NumChunks(|rest|) + 1;
    forall i | 0 <= i < NumChunks(|rest|)
      ensures ChunkAt(xs, i + 1) == ChunkAt(rest, i)
    {
      ChunkShift(xs, i);
    }
  }

  lemma ChunkShift<T>(xs: seq<T>, i: nat)
    requires |xs| > SubredditsPerChunk && i < NumChunks(|xs| - SubredditsPerChunk)
    ensures i + 1 < NumChunks(|xs|)
    ensures ChunkAt(xs, i + 1) == ChunkAt(xs[SubredditsPerChunk..], i)
  {
    ChunkSizeExact();
    var rest := xs[SubredditsPerChunk..];
    assert (i + 1) * SubredditsPerChunk == i * SubredditsPerChunk + SubredditsPerChunk;
    var a := ChunkAt(xs, i + 1);
    var b := ChunkAt(rest, i);
    assert |a| == |b|;
    forall k | 0 <= k < |a| ensures a[k] == b[k] {
      assert a[k] == xs[(i + 1) * SubredditsPerChunk + k];
      assert b[k] == rest[i * SubredditsPerChunk + k];
    }
  }

  /** The chunks are non-empty, no larger than the chunk size, and laid end
      to end they give back the whole list: every subreddit lands in exactly
      one chunk, in order. */
  lemma {:induction false} ChunksCover<T>(xs: seq<T>)
    ensures Flatten(ChunkList(xs)) == xs
    ensures forall i :: 0 <= i < |ChunkList(xs)| ==> 0 < |ChunkList(xs)[i]| <= SubredditsPerChunk
    decreases |xs|
  {
    if xs == [] {
    } else if |xs| <= SubredditsPerChunk {
      assert NumChunks(|xs|) == 1;
      FirstChunk(xs);
      assert ChunkList(xs)[0] == ChunkAt(xs, 0);
      assert xs[..Min(|xs|, SubredditsPerChunk)] == xs;
      assert ChunkList(xs) == [xs];
    } else {
      ChunkListRest(xs);
      ChunksCover(xs[SubredditsPerChunk..]);
      assert xs == xs[..SubredditsPerChunk] + xs[SubredditsPerChunk..];
    }
  }

  // ---------------------------------------------------------------------
  // create_discovery_prompt
  // ---------------------------------------------------------------------

  /** A subreddit as `load_subreddits_from_db` hands it over, with a
      missing title or description already replaced by the empty string. */
  datatype Subreddit = Subreddit(name: string, title: string, description: string)

  const TitleCut: nat := 100
  const DescriptionCut: nat := 200

  /** `f"r/{name}: {title} - {desc}"` with the title cut to 100 characters
      and the description to 200. */
  function PromptLine(s: Subreddit): (r: string)
    ensures |r| <= |s.name| + 7 + TitleCut + DescriptionCut
  {
    "r/" + s.name + ": " + Take(s.title, TitleCut) + " - " + Take(s.description, DescriptionCut)
  }

  function PromptLines(subs: seq<Subreddit>): (r: seq<string>)
    ensures |r| == |subs|
    ensures forall i :: 0 <= i < |subs| ==> r[i] == PromptLine(subs[i])
  {
    seq(|subs|, i requires 0 <= i < |subs| => PromptLine(subs[i]))
  }

  function PromptHead(count: nat): string {
    "Given the following " + ShowNat(count)
    + " subreddits with their titles and descriptions, suggest broad categories that would be useful for organizing and filtering them.\n\n"
    + "Return ONLY a list of category names, one per line. Focus on:\n"
    + "- Broad, useful categories that users would want to filter by\n"
    + "- Categories should be 1-3 words maximum\n"
    + "- No explanations, just the category names\n"
    + "- Categories should be general enough to apply to multiple subreddits\n\n"
    + "Subreddits:\n"
  }

  const PromptTail: string := "\n\nCategories (one per line):"

  /** `create_discovery_prompt`: the fixed instructions with the count,
      then one line per subreddit. */
  function CreateDiscoveryPrompt(subs: seq<Subreddit>): string {
    PromptHead(|subs|) + Join(PromptLines(subs), '\n') + PromptTail
  }

  predicate OneLine(s: Subreddit) {
    '\n' !in s.name && '\n' !in s.title && '\n' !in s.description
  }

  /** When no field holds a line break, the subreddit list of the prompt
      splits back into one line per subreddit, in input order, each naming
      its subreddit and carrying the first 100 characters of the title and
      the first 200 of the description. */
  lemma PromptListsEachSubreddit(subs: seq<Subreddit>)
    requires |subs| > 0 && forall i :: 0 <= i < |subs| ==> OneLine(subs[i])
    ensures var lines := Split(Join(PromptLines(subs), '\n'), '\n');
            |lines| == |subs|
            && forall i :: 0 <= i < |subs| ==>
                 var t := Take(subs[i].title, TitleCut);
                 var d := Take(subs[i].description, DescriptionCut);
                 lines[i] == "r/" + subs[i].name + ": " + t + " - " + d
                 && t == subs[i].title[..|t|] && |t| == Min(|subs[i].title|, TitleCut)
                 && d == subs[i].description[..|d|] && |d| == Min(|subs[i].description|, DescriptionCut)
  {
    var lines := PromptLines(subs);
    forall i | 0 <= i < |lines|
      ensures '\n' !in lines[i]
    {
      var s := subs[i];
      var t := Take(s.title, TitleCut);
      var d := Take(s.description, DescriptionCut);
      assert '\n' !in t && '\n' !in d by {
        assert forall k :: 0 <= k < |t| ==> t[k] == s.title[k];
        assert forall k :: 0 <= k < |d| ==> d[k] == s.description[k];
      }
      assert lines[i] == "r/" + s.name + ": " + t + " - " + d;
    }
    SplitJoin(lines, '\n');
  }

  function Min(a: nat, b: nat): nat {
    if a < b then a else b
  }

  // ---------------------------------------------------------------------
  // parse_categories
  // ---------------------------------------------------------------------

  const MaxCategoryLength: nat := 50

  /** `s.removeprefix(c)` for a one-character prefix. */
  function RemovePrefix(s: string, c: char): string {
    if |s| > 0 && s[0] == c then s[1..] else s
  }

  /** One line of the answer: stripped, then one leading `-`, one `*` and
      one `•` removed in that order, then stripped again. */
  function CleanLine(line: string): string {
    Strip(RemovePrefix(RemovePrefix(RemovePrefix(Strip(line), '-'), '*'), '•'))
  }

  /** The length filter: non-empty and at most 50 characters. */
  predicate Keep(c: string) {
    c != "" && |c| <= MaxCategoryLength
  }

  /** `parse_categories`: the cleaned lines of the stripped answer that
      pass the filter, in line order. */
  function ParseCategories(response: string): seq<string> {
    MapKeep(AnswerLines(response), CleanLine, Keep)
  }

  /** `response.strip().split('\n')`. */
  function AnswerLines(response: string): seq<string> {
    Split(Strip(response), '\n')
  }

  /** Every name the parser returns is between 1 and 50 characters, holds
      no line break, and has no white space at either end. */
  lemma ParsedNamesClean(response: string, x: string)
    requires x in ParseCategories(response)
    ensures Keep(x) && '\n' !in x && !IsSpace(x[0]) && !IsSpace(x[|x| - 1])
  {
    var lines := AnswerLines(response);
    var r := MapKeep(lines, CleanLine, Keep);
    var k :| 0 <= k < |r| && r[k] == x;
    var j :| 0 <= j < |lines| && CleanLine(lines[j]) == x;
    CleanLineWithin(lines[j]);
  }

  /** Cleaning only removes characters, so a line without a line break gives
      a name without one. */
  lemma CleanLineWithin(line: string)
    requires '\n' !in line
    ensures '\n' !in CleanLine(line)
  {
    var a := Strip(line);
    StripWithout(line, '\n');
    var b := RemovePrefix(RemovePrefix(RemovePrefix(a, '-'), '*'), '•');
    RemovePrefixWithout(a, '-', '\n');
    RemovePrefixWithout(RemovePrefix(a, '-'), '*', '\n');
    RemovePrefixWithout(RemovePrefix(RemovePrefix(a, '-'), '*'), '•', '\n');
    StripWithout(b, '\n');
  }

  /** Dropping a leading character adds none. */
  lemma RemovePrefixWithout(s: string, c: char, d: char)
    requires d !in s
    ensures d !in RemovePrefix(s, c)
  {
  }

  /** A name the parser gives back unchanged: it passes the filter, holds no
      line break, has no white space at either end, and does not start with
      one of the stripped markers. */
  predicate CleanName(c: string) {
    Keep(c) && '\n' !in c && !IsSpace(c[0]) && !IsSpace(c[|c| - 1])
    && c[0] != '-' && c[0] != '*' && c[0] != '•'
  }

  /** Round trip: an answer that lists clean names one per line parses back
      to exactly those names, in order. */
  lemma ParseListed(cats: seq<string>)
    requires forall i :: 0 <= i < |cats| ==> CleanName(cats[i])
    ensures ParseCategories(Join(cats, '\n')) == cats
  {
    if cats == [] {
      assert AnswerLines("") == [""];
      assert CleanLine("") == "";
    } else {
      AnswerLinesListed(cats);
      KeepClean(cats);
    }
  }

  /** The lines of an answer that lists clean names are those names. */
  lemma AnswerLinesListed(cats: seq<string>)
    requires |cats| > 0 && forall i :: 0 <= i < |cats| ==> CleanName(cats[i])
    ensures AnswerLines(Join(cats, '\n')) == cats
  {
    JoinEnds(cats);
    StripNoop(Join(cats, '\n'));
    SplitJoin(cats, '\n');
  }

  lemma KeepClean(cats: seq<string>)
    requires forall i :: 0 <= i < |cats| ==> CleanName(cats[i])
    ensures MapKeep(cats, CleanLine, Keep) == cats
  {
    forall i | 0 <= i < |cats|
      ensures CleanLine(cats[i]) == cats[i]
    {
      CleanNameFixed(cats[i]);
    }
    MapKeepFixed(cats, CleanLine, Keep);
  }

  /** Cleaning leaves a clean name as it is. */
  lemma CleanNameFixed(c: string)
    requires CleanName(c)
    ensures CleanLine(c) == c
  {
    StripNoop(c);
  }

  /** The first and last characters of a join of non-empty pieces are the
      first character of the first piece and the last of the last. */
  lemma {:induction false} JoinEnds(xs: seq<string>)
    requires |xs| > 0 && forall i :: 0 <= i < |xs| ==> |xs[i]| > 0
    ensures var j := Join(xs, '\n');
            |j| > 0 && j[0] == xs[0][0] && j[|j| - 1] == xs[|xs| - 1][|xs[|xs| - 1]| - 1]
  {
    if |xs| > 1 {
      JoinEnds(xs[1..]);
    }
  }

  /** The markers come off in a fixed order: a `*` before a `- ` bullet
      takes only the `*` away, and the bullet stays. */
  lemma StarBeforeDash(name: string)
    requires CleanName(name)
    ensures var dash := "- " + name; CleanLine("*" + dash) == dash
  {
    var dash := "- " + name;
    var star := "*" + dash;
    assert star[0] == '*' && star[|star| - 1] == name[|name| - 1];
    StripNoop(star);
    assert star[1..] == dash;
    var cut := RemovePrefix(RemovePrefix(RemovePrefix(star, '-'), '*'), '•');
    assert cut == dash;
    StripNoop(dash);
    assert Strip(cut) == dash;
    assert CleanLine(star) == Strip(cut);
  }

  /** A `- ` bullet in front of a clean name is removed with its space. */
  lemma DashBullet(name: string)
    requires CleanName(name)
    ensures CleanLine("- " + name) == name
  {
    var dash := "- " + name;
    assert dash[0] == '-' && dash[|dash| - 1] == name[|name| - 1];
    StripNoop(dash);
    var spaced := dash[1..];
    assert spaced == " " + name;
    assert RemovePrefix(RemovePrefix(RemovePrefix(dash, '-'), '*'), '•') == spaced;
    assert spaced[1..] == name;
    assert StripLeft(spaced) == StripLeft(name);
    StripNoop(name);
    assert StripLeft(name) == name;
  }

  // ---------------------------------------------------------------------
  // The chunk loop of main() and the saved list
  // ---------------------------------------------------------------------

  /** Where the chunk loop ended: the names gathered, how many chunks were
      answered, and whether a call raised. */
  datatype Discovery = Discovery(categories: set<string>, answered: nat, failed: bool)

  /** The names one answer contributes. */
  function NamesOf(text: string): set<string> {
    set c | c in ParseCategories(text)
  }

  /** The chunk loop from chunk `idx` of `n`, having gathered `acc`: it
      stops at the first call that raises (`None`), and otherwise adds the
      names of each answer. */
  function CollectFrom<A>(n: nat, call: nat -> Option<A>, names: A -> set<string>, idx: nat, acc: set<string>): (r: Discovery)
    requires idx <= n
    ensures idx <= r.answered <= n
    ensures r.failed <==> r.answered < n
    ensures r.failed ==> call(r.answered).None?
    ensures forall i :: idx <= i < r.answered ==> call(i).Some?
    ensures forall x :: x in r.categories <==> x in acc || exists i :: idx <= i < r.answered && call(i).Some? && x in names(call(i).value)
    decreases n - idx
  {
    if idx == n then Discovery(acc, idx, false)
    else
      match call(idx)
      case None => Discovery(acc, idx, true)
      case Some(answer) => CollectFrom(n, call, names, idx + 1, acc + names(answer))
  }

  /** One prompt per chunk, in chunk order. */
  function Prompts(subs: seq<Subreddit>): seq<string> {
    seq(NumChunks(|subs|), i requires 0 <= i < NumChunks(|subs|) => CreateDiscoveryPrompt(ChunkAt(subs, i)))
  }

  /** Strictly increasing in Python's string order, hence free of
      duplicates. */
  predicate SortedStrings(xs: seq<string>) {
    forall i, j :: 0 <= i < j < |xs| ==> StrLt(xs[i], xs[j])
  }

  /** Insert a new name in its place. */
  function InsertSorted(x: string, xs: seq<string>): (r: seq<string>)
    requires SortedStrings(xs) && x !in xs
    ensures SortedStrings(r) && |r| == |xs| + 1
    ensures forall y :: y in r <==> y == x || y in xs
  {
    if xs == [] then [x]
    else if StrLt(x, xs[0]) then
      assert forall j :: 0 <= j < |xs| ==> StrLt(x, xs[j]) by {
        forall j | 0 < j < |xs| ensures StrLt(x, xs[j]) {
          StrLtTransitive(x, xs[0], xs[j]);
        }
      }
      [x] + xs
    else
      assert xs[0] in xs;
      StrLtTotal(x, xs[0]);
      var rest := InsertSorted(x, xs[1..]);
      assert forall j :: 0 <= j < |rest| ==> StrLt(xs[0], rest[j]) by {
        forall j | 0 <= j < |rest| ensures StrLt(xs[0], rest[j]) {
          assert rest[j] in rest;
          if rest[j] != x {
            var k :| 0 <= k < |xs[1..]| && xs[1..][k] == rest[j];
            assert xs[k + 1] == rest[j];
          }
        }
      }
      assert forall y :: y in xs <==> y == xs[0] || y in xs[1..] by {
        assert xs == [xs[0]] + xs[1..];
      }
      [xs[0]] + rest
  }

  /** `sorted(all_categories)`. */
  method SortCategories(cats: set<string>) returns (r: seq<string>)
    ensures SortedStrings(r) && |r| == |cats|
    ensures forall x :: x in r <==> x in cats
  {
    r := [];
    var rest := cats;
    while rest != {}
      invariant SortedStrings(r) && rest <= cats
      invariant forall x :: x in r <==> x in cats && x !in rest
      invariant |r| + |rest| == |cats|
      decreases |rest|
    {
      var x :| x in rest;
      r := InsertSorted(x, r);
      rest := rest - {x};
    }
  }

  /** There is only one sorted listing of a set, so the saved file is
      determined by the names gathered. */
  lemma {:induction false} SortedUnique(a: seq<string>, b: seq<string>)
    requires SortedStrings(a) && SortedStrings(b)
    requires forall x :: x in a <==> x in b
    ensures a == b
  {
    assert a == [] <==> b == [] by {
      if a != [] {
        assert a[0] in a;
      }
      if b != [] {
        assert b[0] in b;
      }
    }
    if a != [] {
      assert a[0] in a && b[0] in b;
      var j :| 0 <= j < |b| && b[j] == a[0];
      var k :| 0 <= k < |a| && a[k] == b[0];
      if j > 0 && k > 0 {
        StrLtAsymmetric(a[0], b[0]);
      }
      assert a[0] == b[0] by {
        if j == 0 {
        } else {
          StrLtIrreflexive(b[0]);
        }
      }
      forall x
        ensures x in a[1..] <==> x in b[1..]
      {
        if x in a[1..] {
          var m :| 0 <= m < |a[1..]| && a[1..][m] == x;
          assert a[m + 1] == x;
          assert x in b;
          StrLtIrreflexive(x);
          var n :| 0 <= n < |b| && b[n] == x;
          assert b[1..][n - 1] == x;
        }
        if x in b[1..] {
          var m :| 0 <= m < |b[1..]| && b[1..][m] == x;
          assert b[m + 1] == x;
          assert x in a;
          StrLtIrreflexive(x);
          var n :| 0 <= n < |a| && a[n] == x;
          assert a[1..][n - 1] == x;
        }
      }
      SortedUnique(a[1..], b[1..]);
    }
  }

  /** `main()` after the confirmation: cut the subreddits into chunks, ask
      for each chunk's categories until a call raises, and save the sorted
      union. Every saved name came from an answered chunk, every name of an
      answered chunk is saved, once, and the calls stop at the first
      failure. */
  method DiscoverCategories(subs: seq<Subreddit>, api: (nat, string) -> Option<string>) returns (saved: seq<string>, d: Discovery)
    ensures var prompts := Prompts(subs);
            var call := (i: nat) => if i < |prompts| then api(i, prompts[i]) else None;
            d == CollectFrom(|prompts|, call, NamesOf, 0, {})
            && |prompts| == NumChunks(|subs|)
            && SortedStrings(saved)
            && forall x :: x in saved <==> exists i :: 0 <= i < d.answered && call(i).Some? && x in NamesOf(call(i).value)
  {
    var prompts := Prompts(subs);
    var call := (i: nat) => if i < |prompts| then api(i, prompts[i]) else None;
    d := CollectFrom(|prompts|, call, NamesOf, 0, {});
    saved := SortCategories(d.categories);
  }
}

=== FILE: json.dfy ===
/** Decoded JSON documents, as Python's `json` module hands them back, and
    Python's truthiness on them. */
module JsonValue {

  /** A decoded JSON document as `response.json()` hands it back. Numbers are
      integers only. */
  datatype Json =
    | JNull
    | JBool(b: bool)
    | JNum(n: int)
    | JStr(s: string)
    | JArr(items: seq<Json>)
    | JObj(fields: map<string, Json>)

  /** Python's `bool(x)` on the decoded value. */
  predicate Truthy(j: Json) {
    match j
    case JNull => false
    case JBool(b) => b
    case JNum(n) => n != 0
    case JStr(s) => |s| > 0
    case JArr(items) => |items| > 0
    case JObj(fields) => |fields| > 0
  }
}

=== FILE: migrations.dfy ===
/** The historical schema migrations, as functions on rows rather than SQL:
    v1 to v2 merges the processing-state table into the subreddit rows and
    reduces the thread table to distinct (thread, subreddit) pairs, v2 to v3
    projects the subreddit rows onto the metadata columns, and the v4 step
    adds the columns a database is missing. The store's connection commits
    each statement as it runs, so the `rollback()` in a migration's error
    handler undoes nothing: a v1-to-v2 run that fails part-way leaves its
    new tables behind, which is modelled below next to the intended,
    all-or-nothing run. */
module Migrations {
  import opened Wrappers
  import opened Sequences

  /** An SQLite cell: `NULL`, an integer (booleans are 0 and 1) or text. */
  datatype Cell = Null | Int(i: int) | Text(s: string)

  /** SQL `COALESCE`: the first non-`NULL` argument, or `NULL`. */
  function Coalesce(cells: seq<Cell>): (r: Cell)
    ensures r.Null? <==> forall i :: 0 <= i < |cells| ==> cells[i].Null?
    ensures !r.Null? ==> exists i :: 0 <= i < |cells| && cells[i] == r && forall j :: 0 <= j < i ==> cells[j].Null?
  {
    if cells == [] then Null
    else if !cells[0].Null? then cells[0]
    else
      var r := Coalesce(cells[1..]);
      assert forall i :: 0 < i < |cells| ==> cells[i] == cells[1..][i - 1];
      r
  }

  lemma CoalesceTwo(a: Cell, b: Cell)
    ensures Coalesce([a, b]) == if a.Null? then b else a
  {
    assert [a, b][1..] == [b];
    assert [b][1..] == [];
  }

  lemma CoalesceThree(a: Cell, b: Cell, c: Cell)
    ensures Coalesce([a, b, c]) == if !a.Null? then a else if !b.Null? then b else c
  {
    assert [a, b, c][1..] == [b, c];
    CoalesceTwo(b, c);
  }

  // ---------------------------------------------------------------------
  // migrate_v1_to_v2
  // ---------------------------------------------------------------------

  /** The columns every migration copies as they are: title, descriptions,
      subscriber and active-user counts, the adult flag, type and creation
      time. */
  datatype Profile = Profile(title: Cell, description: Cell, publicDescription: Cell, subscribers: Cell,
                             activeUsers: Cell, over18: Cell, subredditType: Cell, createdUtc: Cell)

  /** A v1 `subreddits` row; its name is the key of the table. */
  datatype V1Subreddit = V1Subreddit(profile: Profile, status: Cell, lastUpdated: Cell, lastChecked: Cell, errorMessage: Cell)

  /** A v1 `processing_state` row, keyed by subreddit. */
  datatype StateRow = StateRow(status: Cell, retryCount: Cell, errorMessage: Cell,
                               metadataCollected: Cell, threadsCollected: Cell)

  /** The `processing_state` table as the migration finds it: missing,
      present without both collected-flag columns, that is lacking either
      one (the flag cells are then never read), or present with both. */
  datatype ProcessingState = Absent | WithoutFlags(rows: map<string, StateRow>) | WithFlags(rows: map<string, StateRow>)

  /** A v1 `thread_ids` row; `source` and `discovered_at` do not survive. */
  datatype ThreadRow = ThreadRow(threadId: string, subreddit: string, source: Cell, discoveredAt: Cell)

  datatype V1Db = V1Db(subreddits: map<string, V1Subreddit>, state: ProcessingState, threads: seq<ThreadRow>)

  datatype V2Subreddit = V2Subreddit(profile: Profile, status: Cell, lastUpdated: Cell, lastChecked: Cell,
                                     retryCount: Cell, errorMessage: Cell, metadataCollected: Cell, threadsCollected: Cell)

  /** The v2 store: subreddit rows by name, and each thread id's subreddit. */
  datatype V2Db = V2Db(subreddits: map<string, V2Subreddit>, threads: map<string, string>)

  /** The `LEFT JOIN` partner of a subreddit: its processing-state row, or
      all `NULL` when it has none. */
  function Joined(state: ProcessingState, name: string): StateRow {
    if !state.Absent? && name in state.rows then state.rows[name] else StateRow(Null, Null, Null, Null, Null)
  }

  /** `CASE WHEN p.status = 'completed' THEN 1 ELSE 0 END`. */
  function CompletedFlag(status: Cell): Cell {
    if status == Text("completed") then Int(1) else Int(0)
  }

  /** One subreddit row through whichever of the three `INSERT ... SELECT`
      statements applies. */
  function MigrateRowV1(name: string, s: V1Subreddit, state: ProcessingState): V2Subreddit {
    var p := Joined(state, name);
    match state
    case Absent =>
      V2Subreddit(s.profile, Coalesce([s.status, Text("pending")]), s.lastUpdated, s.lastChecked,
                  Int(0), s.errorMessage, Int(0), Int(0))
    case WithFlags(_) =>
      V2Subreddit(s.profile, Coalesce([p.status, s.status, Text("pending")]), s.lastUpdated, s.lastChecked,
                  Coalesce([p.retryCount, Int(0)]), Coalesce([p.errorMessage, s.errorMessage]),
                  Coalesce([p.metadataCollected, Int(0)]), Coalesce([p.threadsCollected, Int(0)]))
    case WithoutFlags(_) =>
      V2Subreddit(s.profile, Coalesce([p.status, s.status, Text("pending")]), s.lastUpdated, s.lastChecked,
                  Coalesce([p.retryCount, Int(0)]), Coalesce([p.errorMessage, s.errorMessage]),
                  CompletedFlag(p.status), CompletedFlag(p.status))
  }

  /** What a migrated row holds: the profile and timestamps as they were; a
      status that is never `NULL` and prefers the processing state's over
      the row's over `'pending'`; a retry count that is the processing
      state's or 0; an error message that prefers the processing state's. */
  lemma MigrateRowV1Fields(name: string, s: V1Subreddit, state: ProcessingState)
    ensures var r := MigrateRowV1(name, s, state);
            var p := Joined(state, name);
            r.profile == s.profile && r.lastUpdated == s.lastUpdated && r.lastChecked == s.lastChecked
            && !r.status.Null? && !r.retryCount.Null?
            && (!p.status.Null? ==> r.status == p.status)
            && (p.status.Null? && !s.status.Null? ==> r.status == s.status)
            && (p.status.Null? && s.status.Null? ==> r.status == Text("pending"))
            && (!p.retryCount.Null? ==> r.retryCount == p.retryCount)
            && (p.retryCount.Null? ==> r.retryCount == Int(0))
            && (!p.errorMessage.Null? ==> r.errorMessage == p.errorMessage)
            && (p.errorMessage.Null? ==> r.errorMessage == s.errorMessage)
  {
    var p := Joined(state, name);
    CoalesceTwo(s.status, Text("pending"));
    CoalesceThree(p.status, s.status, Text("pending"));
    CoalesceTwo(p.retryCount, Int(0));
    CoalesceTwo(p.errorMessage, s.errorMessage);
  }

  /** The collected flags: copied with `NULL` read as 0 when the processing
      state has them, 1 exactly for a `'completed'` processing state when it
      lacks them, and 0 without a processing-state table. */
  lemma MigrateRowV1Flags(name: string, s: V1Subreddit, state: ProcessingState)
    ensures var r := MigrateRowV1(name, s, state);
            var p := Joined(state, name);
            (state.Absent? ==> r.metadataCollected == Int(0) && r.threadsCollected == Int(0))
            && (state.WithFlags? ==>
                  r.metadataCollected == (if p.metadataCollected.Null? then Int(0) else p.metadataCollected)
                  && r.threadsCollected == (if p.threadsCollected.Null? then Int(0) else p.threadsCollected))
            && (state.WithoutFlags? ==>
                  r.metadataCollected == r.threadsCollected
                  && (r.metadataCollected == Int(1) <==> p.status == Text("completed"))
                  && (r.metadataCollected == Int(0) <==> p.status != Text("completed")))
  {
    var p := Joined(state, name);
    CoalesceTwo(p.metadataCollected, Int(0));
    CoalesceTwo(p.threadsCollected, Int(0));
  }

  /** A subreddit without a processing-state row comes out the same from
      all three statements: the join gives `NULL`s, and both flag rules then
      give 0. */
  lemma UnjoinedRowAgrees(name: string, s: V1Subreddit, state: ProcessingState)
    requires state.Absent? || name !in state.rows
    ensures MigrateRowV1(name, s, state) == MigrateRowV1(name, s, Absent)
  {
    CoalesceTwo(s.status, Text("pending"));
    CoalesceThree(Null, s.status, Text("pending"));
    CoalesceTwo(Null, Int(0));
    CoalesceTwo(Null, s.errorMessage);
  }

  /** Every thread id belongs to one subreddit, as the v2 primary key on
      `thread_id` demands. */
  predicate ConsistentIds(rows: seq<ThreadRow>) {
    forall i, j :: 0 <= i < |rows| && 0 <= j < |rows| && rows[i].threadId == rows[j].threadId ==>
      rows[i].subreddit == rows[j].subreddit
  }

  /** `INSERT INTO thread_ids_v2 SELECT DISTINCT thread_id, subreddit`: the
      distinct pairs go in, and a second subreddit for one thread id breaks
      the primary key. */
  function MigrateThreads(rows: seq<ThreadRow>): (r: Result<map<string, string>>)
    ensures r.Ok? <==> ConsistentIds(rows)
    ensures r.Ok? ==> forall i :: 0 <= i < |rows| ==> rows[i].threadId in r.value && r.value[rows[i].threadId] == rows[i].subreddit
    ensures r.Ok? ==> forall id :: id in r.value ==> exists i :: 0 <= i < |rows| && rows[i].threadId == id
  {
    if rows == [] then Ok(map[])
    else
      var rest := MigrateThreads(rows[1..]);
      match rest
      case Err(m) =>
        InconsistentTail(rows);
        Err(m)
      case Ok(m) =>
        var id := rows[0].threadId;
        if id in m && m[id] != rows[0].subreddit then
          ThreadClash(rows, m);
          Err("UNIQUE constraint failed: thread_ids_v2.thread_id")
        else
          ThreadJoin(rows, m);
          ThreadExtend(rows, m);
          Ok(m[id := rows[0].subreddit])
  }

  /** A clash in the rest is a clash in the whole. */
  lemma InconsistentTail(rows: seq<ThreadRow>)
    requires |rows| > 0 && !ConsistentIds(rows[1..])
    ensures !ConsistentIds(rows)
  {
    var tail := rows[1..];
    var i, j :| 0 <= i < |tail| && 0 <= j < |tail| && tail[i].threadId == tail[j].threadId && tail[i].subreddit != tail[j].subreddit;
    assert rows[i + 1] == tail[i] && rows[j + 1] == tail[j];
  }

  /** A clash between the head and the migrated rest breaks consistency. */
  lemma ThreadClash(rows: seq<ThreadRow>, m: map<string, string>)
    requires |rows| > 0 && rows[0].threadId in m && m[rows[0].threadId] != rows[0].subreddit
    requires forall id :: id in m ==> exists i :: 0 <= i < |rows[1..]| && rows[1..][i].threadId == id
    requires forall i :: 0 <= i < |rows[1..]| ==> rows[1..][i].threadId in m && m[rows[1..][i].threadId] == rows[1..][i].subreddit
    ensures !ConsistentIds(rows)
  {
    var k :| 0 <= k < |rows[1..]| && rows[1..][k].threadId == rows[0].threadId;
    assert rows[k + 1] == rows[1..][k];
  }

  /** Without a clash, the head joins a consistent rest consistently. */
  lemma ThreadJoin(rows: seq<ThreadRow>, m: map<string, string>)
    requires |rows| > 0 && (rows[0].threadId in m ==> m[rows[0].threadId] == rows[0].subreddit)
    requires ConsistentIds(rows[1..])
    requires forall i :: 0 <= i < |rows[1..]| ==> rows[1..][i].threadId in m && m[rows[1..][i].threadId] == rows[1..][i].subreddit
    ensures ConsistentIds(rows)
  {
    forall i, j | 0 <= i < |rows| && 0 <= j < |rows| && rows[i].threadId == rows[j].threadId
      ensures rows[i].subreddit == rows[j].subreddit
    {
      if i > 0 {
        assert rows[i] == rows[1..][i - 1];
      }
      if j > 0 {
        assert rows[j] == rows[1..][j - 1];
      }
    }
  }

  /** Adding the head's pair to the migrated rest covers every row, and
      only thread ids of rows. */
  lemma ThreadExtend(rows: seq<ThreadRow>, m: map<string, string>)
    requires |rows| > 0 && (rows[0].threadId in m ==> m[rows[0].threadId] == rows[0].subreddit)
    requires forall i :: 0 <= i < |rows[1..]| ==> rows[1..][i].threadId in m && m[rows[1..][i].threadId] == rows[1..][i].subreddit
    requires forall id :: id in m ==> exists i :: 0 <= i < |rows[1..]| && rows[1..][i].threadId == id
    ensures var m' := m[rows[0].threadId := rows[0].subreddit];
      (forall i :: 0 <= i < |rows| ==> rows[i].threadId in m' && m'[rows[i].threadId] == rows[i].subreddit)
      && (forall id :: id in m' ==> exists i :: 0 <= i < |rows| && rows[i].threadId == id)
  {
    assert forall i :: 0 < i < |rows| ==> rows[i] == rows[1..][i - 1];
    var m' := m[rows[0].threadId := rows[0].subreddit];
    forall id | id in m'
      ensures exists i :: 0 <= i < |rows| && rows[i].threadId == id
    {
      if id != rows[0].threadId {
        var k :| 0 <= k < |rows[1..]| && rows[1..][k].threadId == id;
        assert rows[k + 1].threadId == id;
      }
    }
  }

  /** The migrated thread table holds exactly the distinct (thread,
      subreddit) pairs of the old one. */
  lemma ThreadsAreDistinctPairs(rows: seq<ThreadRow>)
    requires MigrateThreads(rows).Ok?
    ensures var m := MigrateThreads(rows).value;
            (set id | id in m :: (id, m[id])) == (set i | 0 <= i < |rows| :: (rows[i].threadId, rows[i].subreddit))
  {
    var m := MigrateThreads(rows).value;
    forall id | id in m
      ensures (id, m[id]) in (set i | 0 <= i < |rows| :: (rows[i].threadId, rows[i].subreddit))
    {
      var i :| 0 <= i < |rows| && rows[i].threadId == id;
    }
  }

  /** `migrate_v1_to_v2`: every subreddit row is merged with its processing
      state (processing-state rows of unknown subreddits are dropped with
      the table), and the threads become their distinct pairs; a thread id
      under two subreddits makes the migration raise. What a failed run
      leaves in the store is `MigrateV1ToV2AsWritten` below. */
  function MigrateV1ToV2(db: V1Db): (r: Result<V2Db>)
    ensures r.Ok? <==> ConsistentIds(db.threads)
    ensures r.Ok? ==> r.value.subreddits.Keys == db.subreddits.Keys
                      && (forall n :: n in db.subreddits ==> r.value.subreddits[n] == MigrateRowV1(n, db.subreddits[n], db.state))
                      && Ok(r.value.threads) == MigrateThreads(db.threads)
  {
    match MigrateThreads(db.threads)
    case Err(m) => Err(m)
    case Ok(threads) => Ok(V2Db(MigratedRows(db), threads))
  }

  /** The rows the `INSERT ... SELECT` into `subreddits_v2` writes. */
  function MigratedRows(db: V1Db): map<string, V2Subreddit> {
    map n | n in db.subreddits :: MigrateRowV1(n, db.subreddits[n], db.state)
  }

  /** A v1 store as the migration finds it: the v1 tables, and the
      `subreddits_v2` and `thread_ids_v2` tables an earlier failed run left
      behind, if any. */
  datatype V1Store = V1Store(db: V1Db, leftover: Option<V2Db>)

  /** One run of the migration: the migrated store, or the message it
      raised and the store as the run left it. */
  datatype Run = Migrated(v2: V2Db) | Failed(message: string, after: V1Store)

  const TableExists: string := "table subreddits_v2 already exists"

  /** `migrate_v1_to_v2` on the store's autocommit connection. Creating
      `subreddits_v2` fails when an earlier run left it behind. A thread-id
      clash fails after `subreddits_v2` is filled and `thread_ids_v2` is
      created; the failing `INSERT` alone is undone, so `thread_ids_v2`
      stays empty; the handler's `rollback()` finds no transaction. */
  function MigrateV1ToV2AsWritten(s: V1Store): (r: Run)
    ensures s.leftover.Some? ==> r == Failed(TableExists, s)
    ensures s.leftover.None? ==> (r.Migrated? <==> ConsistentIds(s.db.threads))
    ensures r.Migrated? ==> Ok(r.v2) == MigrateV1ToV2(s.db)
    ensures r.Failed? && s.leftover.None? ==>
              r.after == V1Store(s.db, Some(V2Db(MigratedRows(s.db), map[])))
  {
    if s.leftover.Some? then Failed(TableExists, s)
    else
      match MigrateV1ToV2(s.db)
      case Ok(v2) => Migrated(v2)
      case Err(m) => Failed(m, V1Store(s.db, Some(V2Db(MigratedRows(s.db), map[]))))
  }

  /** As written, a failed run strands the store: every later run fails,
      whatever the v1 tables then hold, even once the clash is repaired. */
  lemma FailedMigrationSticks(db: V1Db, repaired: V1Db)
    requires !ConsistentIds(db.threads)
    ensures var first := MigrateV1ToV2AsWritten(V1Store(db, None));
            first.Failed? && first.after.leftover.Some?
            && MigrateV1ToV2AsWritten(V1Store(repaired, first.after.leftover)) == Failed(TableExists, V1Store(repaired, first.after.leftover))
  {
  }

  /** One thread id listed under two subreddits: the first run fails and
      leaves `subreddits_v2` behind, and a run on the repaired thread table
      still fails. */
  lemma ClashStrandsStore()
    ensures var db := V1Db(map[], Absent, [ThreadRow("t1", "a", Null, Null), ThreadRow("t1", "b", Null, Null)]);
            var first := MigrateV1ToV2AsWritten(V1Store(db, None));
            var repaired := db.(threads := [ThreadRow("t1", "a", Null, Null)]);
            first.Failed? && first.after.leftover.Some?
            && MigrateV1ToV2AsWritten(V1Store(repaired, first.after.leftover)).Failed?
            && MigrateV1ToV2(repaired).Ok?
  {
    var db := V1Db(map[], Absent, [ThreadRow("t1", "a", Null, Null), ThreadRow("t1", "b", Null, Null)]);
    assert db.threads[0].threadId == db.threads[1].threadId && db.threads[0].subreddit != db.threads[1].subreddit;
    FailedMigrationSticks(db, db.(threads := [ThreadRow("t1", "a", Null, Null)]));
  }

  /** The run the error handler's `rollback()` was meant to give: all its
      statements in one transaction, so a failure leaves the store as it
      was. */
  function MigrateV1ToV2Atomic(s: V1Store): (r: Run)
    ensures r.Failed? ==> r.after == s
    ensures s.leftover.None? ==> (r.Migrated? <==> ConsistentIds(s.db.threads))
    ensures r.Migrated? ==> Ok(r.v2) == MigrateV1ToV2(s.db)
  {
    if s.leftover.Some? then Failed(TableExists, s)
    else
      match MigrateV1ToV2(s.db)
      case Ok(v2) => Migrated(v2)
      case Err(m) => Failed(m, s)
  }

  /** With an all-or-nothing run, a store without leftovers never gets any,
      and once the clash is repaired the next run migrates. */
  lemma AtomicFailureRetries(db: V1Db, repaired: V1Db)
    requires ConsistentIds(repaired.threads)
    ensures var first := MigrateV1ToV2Atomic(V1Store(db, None));
            first.Failed? ==> first.after.leftover.None?
                              && MigrateV1ToV2Atomic(V1Store(repaired, first.after.leftover)).Migrated?
  {
  }

  // ---------------------------------------------------------------------
  // migrate_v2_to_v3
  // ---------------------------------------------------------------------

  datatype V3Subreddit = V3Subreddit(profile: Profile, category: Cell, tags: Cell, language: Cell,
                                     status: Cell, lastUpdated: Cell, errorMessage: Cell, metadataCollected: Cell)

  /** The `SELECT` of the v2-to-v3 copy for one row. */
  function MigrateRowV2(r: V2Subreddit): V3Subreddit {
    V3Subreddit(r.profile, Null, Null, Text("en"), r.status, r.lastUpdated, r.errorMessage, r.metadataCollected)
  }

  /** The copy forgets exactly the retry count, the threads-collected flag
      and the last-checked time: two v2 rows give the same v3 row if and
      only if they agree on every other column. */
  lemma MigrateRowV2Forgets(a: V2Subreddit, b: V2Subreddit)
    ensures MigrateRowV2(a) == MigrateRowV2(b) <==>
            a.(retryCount := Null, threadsCollected := Null, lastChecked := Null)
            == b.(retryCount := Null, threadsCollected := Null, lastChecked := Null)
  {
    if MigrateRowV2(a) == MigrateRowV2(b) {
      assert a.profile == MigrateRowV2(a).profile;
    }
  }

  /** Every v3 row starts without category or tags, in English. */
  lemma MigrateRowV2Fresh(r: V2Subreddit)
    ensures MigrateRowV2(r).category.Null? && MigrateRowV2(r).tags.Null? && MigrateRowV2(r).language == Text("en")
  {
  }

  /** `migrate_v2_to_v3`: every subreddit row is copied by the projection,
      and the thread table is dropped. */
  function MigrateV2ToV3(db: V2Db): (r: map<string, V3Subreddit>)
    ensures r.Keys == db.subreddits.Keys
    ensures forall n :: n in r ==> r[n] == MigrateRowV2(db.subreddits[n])
  {
    map n | n in db.subreddits :: MigrateRowV2(db.subreddits[n])
  }

  // ---------------------------------------------------------------------
  // ensure_v4_columns
  // ---------------------------------------------------------------------

  /** A column the v4 schema may have to add, with the value its `DEFAULT`
      gives every existing row (`NULL` when the definition has none). */
  datatype NewColumn = NewColumn(name: string, default: Cell)

  const NewColumns: seq<NewColumn> := [
    NewColumn("icon_url", Null),
    NewColumn("primary_color", Null),
    NewColumn("advertiser_category", Null),
    NewColumn("submission_type", Null),
    NewColumn("allow_images", Int(1)),
    NewColumn("allow_videos", Int(1)),
    NewColumn("allow_galleries", Int(0)),
    NewColumn("allow_videogifs", Int(0)),
    NewColumn("allow_polls", Int(0)),
    NewColumn("link_flair_enabled", Int(0)),
    NewColumn("spoilers_enabled", Int(0)),
    NewColumn("whitelist_status", Null),
    NewColumn("is_accessible", Int(1)),
    NewColumn("retry_count", Int(0))
  ]

  /** The loop of `ensure_v4_columns` over `cols`: a column the table lacks
      is attempted; `ok` says whether its `ALTER TABLE` succeeds, and a
      failure is logged and skipped. `existing` is read once, before the
      loop. */
  function AddMissing(cols: seq<NewColumn>, existing: set<string>, ok: string -> bool): (added: seq<NewColumn>)
    ensures SubseqOf(added, cols)
    ensures forall i :: 0 <= i < |added| ==> added[i].name !in existing && ok(added[i].name)
    ensures forall i :: 0 <= i < |cols| && cols[i].name !in existing && ok(cols[i].name) ==> cols[i] in added
  {
    if cols == [] then []
    else
      var rest := AddMissing(cols[1..], existing, ok);
      assert forall i :: 0 < i < |cols| ==> cols[i] == cols[1..][i - 1];
      if cols[0].name !in existing && ok(cols[0].name) then [cols[0]] + rest else rest
  }

  /** Nothing is attempted when the table already has every column. */
  lemma {:induction false} AddMissingNone(cols: seq<NewColumn>, existing: set<string>, ok: string -> bool)
    requires forall i :: 0 <= i < |cols| ==> cols[i].name in existing
    ensures AddMissing(cols, existing, ok) == []
  {
    if cols != [] {
      assert forall i :: 0 <= i < |cols[1..]| ==> cols[1..][i] == cols[i + 1];
      AddMissingNone(cols[1..], existing, ok);
    }
  }

  function ColumnName(c: NewColumn): string {
    c.name
  }

  /** The listed columns have distinct names. */
  lemma NewColumnsDistinct()
    ensures DistinctBy(NewColumns, ColumnName)
  {
    forall i | 0 <= i < |NewColumns|
      ensures Position(NewColumns[i].name) == i
    {
    }
  }

  /** Where a listed name sits in the list. */
  function Position(name: string): int {
    match name
    case "icon_url" => 0
    case "primary_color" => 1
    case "advertiser_category" => 2
    case "submission_type" => 3
    case "allow_images" => 4
    case "allow_videos" => 5
    case "allow_galleries" => 6
    case "allow_videogifs" => 7
    case "allow_polls" => 8
    case "link_flair_enabled" => 9
    case "spoilers_enabled" => 10
    case "whitelist_status" => 11
    case "is_accessible" => 12
    case "retry_count" => 13
    case _ => -1
  }

  function Names(cols: seq<NewColumn>): set<string> {
    set i | 0 <= i < |cols| :: cols[i].name
  }

  /** The outcome of `ensure_v4_columns`: the columns added, in list order,
      and the table's columns afterwards. */
  datatype Ensured = Ensured(added: seq<NewColumn>, columns: set<string>)

  function EnsureV4Columns(existing: set<string>, ok: string -> bool): (r: Ensured)
    ensures SubseqOf(r.added, NewColumns)
    ensures r.columns == existing + Names(r.added)
    ensures forall i :: 0 <= i < |r.added| ==> r.added[i].name !in existing && ok(r.added[i].name)
    ensures forall i :: 0 <= i < |NewColumns| && NewColumns[i].name !in existing && ok(NewColumns[i].name) ==>
              NewColumns[i] in r.added
  {
    var added := AddMissing(NewColumns, existing, ok);
    Ensured(added, existing + Names(added))
  }

  /** Once every attempted column went in, a second call adds nothing,
      whatever its `ALTER TABLE`s would do. */
  lemma EnsureV4ColumnsIdempotent(existing: set<string>, ok: string -> bool, ok2: string -> bool)
    requires forall i :: 0 <= i < |NewColumns| ==> NewColumns[i].name in existing || ok(NewColumns[i].name)
    ensures EnsureV4Columns(EnsureV4Columns(existing, ok).columns, ok2).added == []
  {
    var first := EnsureV4Columns(existing, ok);
    forall i | 0 <= i < |NewColumns|
      ensures NewColumns[i].name in first.columns
    {
      if NewColumns[i].name !in existing {
        assert NewColumns[i] in first.added;
        var j :| 0 <= j < |first.added| && first.added[j] == NewColumns[i];
        assert NewColumns[i].name in Names(first.added);
      }
    }
    AddMissingNone(NewColumns, first.columns, ok2);
  }

  /** A column whose `ALTER TABLE` failed is still missing afterwards, so the
      next call attempts it again. */
  lemma FailedColumnRetried(existing: set<string>, ok: string -> bool, i: nat)
    requires i < |NewColumns| && NewColumns[i].name !in existing && !ok(NewColumns[i].name)
    ensures NewColumns[i].name !in EnsureV4Columns(existing, ok).columns
  {
    var r := EnsureV4Columns(existing, ok);
    assert forall j :: 0 <= j < |r.added| ==> r.added[j].name != NewColumns[i].name;
  }

  /** A v3 table has no retry counter (the v2-to-v3 copy dropped it), so the
      v4 step brings it back, at 0 for every row. */
  lemma RetryCountReturns(existing: set<string>, ok: string -> bool)
    requires "retry_count" !in existing && ok("retry_count")
    ensures NewColumn("retry_count", Int(0)) in EnsureV4Columns(existing, ok).added
  {
    assert NewColumns[13] == NewColumn("retry_count", Int(0));
  }

  /** `ALTER TABLE ... ADD COLUMN` on one stored row: each added column takes
      its default. */
  function AddColumnsToRow(row: map<string, Cell>, added: seq<NewColumn>): (r: map<string, Cell>)
    ensures r.Keys == row.Keys + Names(added)
    ensures forall k :: k in row && k !in Names(added) ==> r[k] == row[k]
    decreases |added|
  {
    if added == [] then row
    else
      var r := AddColumnsToRow(row, added[..|added| - 1]);
      var last := added[|added| - 1];
      assert Names(added) == Names(added[..|added| - 1]) + {last.name} by {
        forall x | x in Names(added) ensures x in Names(added[..|added| - 1]) + {last.name} {
          var i :| 0 <= i < |added| && added[i].name == x;
          if i < |added| - 1 {
            assert added[..|added| - 1][i] == added[i];
          }
        }
        forall x | x in Names(added[..|added| - 1]) ensures x in Names(added) {
          var i :| 0 <= i < |added| - 1 && added[..|added| - 1][i].name == x;
          assert added[i] == added[..|added| - 1][i];
        }
      }
      r[last.name := last.default]
  }

  /** Adding the v4 columns to a row of the table never alters a value the
      row already had, and every added column holds its default. */
  lemma EnsureV4KeepsValues(row: map<string, Cell>, ok: string -> bool)
    ensures var added := EnsureV4Columns(row.Keys, ok).added;
            var r := AddColumnsToRow(row, added);
            (forall k :: k in row ==> r[k] == row[k])
            && forall i :: 0 <= i < |added| ==> r[added[i].name] == added[i].default
  {
    var added := EnsureV4Columns(row.Keys, ok).added;
    assert forall i :: 0 <= i < |added| ==> added[i].name !in row;
    NewColumnsDistinct();
    SubseqDistinctBy(added, NewColumns, ColumnName);
    AddedDefaults(row, added);
  }

  /** With distinct names, each added column holds its own default. */
  lemma {:induction false} AddedDefaults(row: map<string, Cell>, added: seq<NewColumn>)
    requires DistinctBy(added, ColumnName)
    ensures forall i :: 0 <= i < |added| ==> AddColumnsToRow(row, added)[added[i].name] == added[i].default
    decreases |added|
  {
    if added != [] {
      var init := added[..|added| - 1];
      assert DistinctBy(init, ColumnName) by {
        forall i, j | 0 <= i < j < |init| ensures ColumnName(init[i]) != ColumnName(init[j]) {
          assert init[i] == added[i] && init[j] == added[j];
        }
      }
      AddedDefaults(row, init);
      forall i | 0 <= i < |added| - 1
        ensures AddColumnsToRow(row, added)[added[i].name] == added[i].default
      {
        assert init[i] == added[i];
        assert ColumnName(added[i]) != ColumnName(added[|added| - 1]);
      }
    }
  }
}

=== FILE: rate_limiter.dfy ===
/** The sliding-window rate limiter and the exponential backoff policy of
    `scanner/rate_limiter.py`.

    The limiter keeps three timestamp windows (60 s, 10 s and 1 s). Every
    check prunes each window against the clock, computes how long the caller
    would have to wait, and either records the clock reading in all three
    windows (a grant), gives up (a timeout), or sleeps and checks again.
    Time is a `real` number of seconds supplied by the caller: every loop
    iteration of `acquire` consumes one clock reading. */
module RateLimiter {
  import opened Wrappers

  const MinuteHorizon: real := 60.0
  const TenSecondHorizon: real := 10.0
  const SecondHorizon: real := 1.0

  /** The three capacities: requests per minute, per 10 s and per second. */
  datatype Caps = Caps(perMinute: int, per10s: int, per1s: int)

  /** A capacity of 0 would make the source index an empty window, so every
      capacity must be at least 1. */
  predicate ValidCaps(caps: Caps) {
    caps.perMinute >= 1 && caps.per10s >= 1 && caps.per1s >= 1
  }

  /** The source's constructor defaults: 60 per minute, 15 per 10 s, 3 per s. */
  function DefaultCaps(): (caps: Caps)
    ensures ValidCaps(caps)
  {
    Caps(60, 15, 3)
  }

  datatype Limiter = Limiter(
    w60: seq<real>,
    w10: seq<real>,
    w1: seq<real>,
    totalRequests: nat,
    totalWaitTime: real,
    requestsBlocked: nat)

  /** The state after construction, and after `reset`. */
  function Fresh(): Limiter {
    Limiter([], [], [], 0, 0.0, 0)
  }

  predicate Sorted(w: seq<real>) {
    forall i, j :: 0 <= i < j < |w| ==> w[i] <= w[j]
  }

  predicate AllAtMost(w: seq<real>, t: real) {
    forall i :: 0 <= i < |w| ==> w[i] <= t
  }

  /** `a` is what is left of `b` after dropping some leading elements. */
  predicate IsSuffix(a: seq<real>, b: seq<real>) {
    |a| <= |b| && a == b[|b| - |a|..]
  }

  lemma SuffixTransitive(a: seq<real>, b: seq<real>, c: seq<real>)
    requires IsSuffix(a, b) && IsSuffix(b, c)
    ensures IsSuffix(a, c)
  {
    assert c[|c| - |b|..][|b| - |a|..] == c[|c| - |a|..];
  }

  // ---------------------------------------------------------------------
  // Pruning and the wait time
  // ---------------------------------------------------------------------

  /** `_cleanup_window`: removes the leading timestamps strictly older than
      the cutoff, and only those. A timestamp equal to the cutoff stays. */
  function Cleanup(w: seq<real>, cutoff: real): seq<real>
  {
    if |w| > 0 && w[0] < cutoff then Cleanup(w[1..], cutoff) else w
  }

  /** What pruning removes: exactly a prefix of timestamps strictly older
      than the cutoff, stopping at the first one that is not. */
  lemma {:induction false} CleanupDropsOnlyOld(w: seq<real>, cutoff: real)
    ensures var r := Cleanup(w, cutoff);
            && IsSuffix(r, w)
            && (forall i :: 0 <= i < |w| - |r| ==> w[i] < cutoff)
            && (|r| > 0 ==> r[0] >= cutoff)
  {
    if |w| > 0 && w[0] < cutoff {
      CleanupDropsOnlyOld(w[1..], cutoff);
      var r := Cleanup(w, cutoff);
      forall i | 0 <= i < |w| - |r|
        ensures w[i] < cutoff
      {
        if i > 0 {
          assert w[i] == w[1..][i - 1];
        }
      }
    }
  }

  /** On a sorted window, pruning keeps exactly the timestamps at or after the
      cutoff: position `i` survives iff `w[i] >= cutoff`. */
  lemma CleanupSorted(w: seq<real>, cutoff: real)
    requires Sorted(w)
    ensures forall i :: 0 <= i < |w| ==> (i >= |w| - |Cleanup(w, cutoff)| <==> w[i] >= cutoff)
  {
    var r := Cleanup(w, cutoff);
    var k := |w| - |r|;
    CleanupDropsOnlyOld(w, cutoff);
    forall i | k <= i < |w|
      ensures w[i] >= cutoff
    {
      assert w[k] == r[0];
    }
  }

  /** The window `w` is full for capacity `cap`. */
  predicate Saturated(w: seq<real>, cap: int) {
    |w| >= cap
  }

  /** Seconds until the oldest timestamp of a full window leaves it. */
  function Need(w: seq<real>, horizon: real, now: real): real
    requires |w| > 0
  {
    w[0] + horizon - now
  }

  function Max(a: real, b: real): real {
    if a >= b then a else b
  }

  /** `_get_wait_time` after pruning: 0 when no window is full; otherwise the
      largest `Need` among the full windows, the others being ignored. */
  function WaitTime(s: Limiter, caps: Caps, now: real): (wait: real)
    requires ValidCaps(caps)
    ensures (!Saturated(s.w60, caps.perMinute) && !Saturated(s.w10, caps.per10s)
             && !Saturated(s.w1, caps.per1s)) ==> wait == 0.0
    ensures Saturated(s.w60, caps.perMinute) ==> wait >= Need(s.w60, MinuteHorizon, now)
    ensures Saturated(s.w10, caps.per10s) ==> wait >= Need(s.w10, TenSecondHorizon, now)
    ensures Saturated(s.w1, caps.per1s) ==> wait >= Need(s.w1, SecondHorizon, now)
    ensures Saturated(s.w60, caps.perMinute) || Saturated(s.w10, caps.per10s)
            || Saturated(s.w1, caps.per1s) ==>
              (Saturated(s.w60, caps.perMinute) && wait == Need(s.w60, MinuteHorizon, now))
              || (Saturated(s.w10, caps.per10s) && wait == Need(s.w10, TenSecondHorizon, now))
              || (Saturated(s.w1, caps.per1s) && wait == Need(s.w1, SecondHorizon, now))
  {
    var a := if Saturated(s.w60, caps.perMinute) then [Need(s.w60, MinuteHorizon, now)] else [];
    var b := if Saturated(s.w10, caps.per10s) then [Need(s.w10, TenSecondHorizon, now)] else [];
    var c := if Saturated(s.w1, caps.per1s) then [Need(s.w1, SecondHorizon, now)] else [];
    var waits := a + b + c;
    assert forall x :: x in waits <==> x in a || x in b || x in c;
    assert Saturated(s.w60, caps.perMinute) ==> waits[0] == Need(s.w60, MinuteHorizon, now);
    assert Saturated(s.w10, caps.per10s) ==> waits[|a|] == Need(s.w10, TenSecondHorizon, now);
    assert Saturated(s.w1, caps.per1s) ==> waits[|waits| - 1] == Need(s.w1, SecondHorizon, now);
    MaxOrZero(waits)
  }

  /** Python's `max(xs) if xs else 0`. */
  function MaxOrZero(xs: seq<real>): (m: real)
    ensures |xs| == 0 ==> m == 0.0
    ensures forall i :: 0 <= i < |xs| ==> xs[i] <= m
    ensures |xs| > 0 ==> m in xs
  {
    if |xs| == 0 then 0.0
    else if |xs| == 1 then xs[0]
    else
      assert xs == [xs[0]] + xs[1..];
      Max(xs[0], MaxOrZero(xs[1..]))
  }

  /** The three windows pruned against the clock reading `now`. */
  function Prune(s: Limiter, now: real): Limiter {
    s.(w60 := Cleanup(s.w60, now - MinuteHorizon),
       w10 := Cleanup(s.w10, now - TenSecondHorizon),
       w1 := Cleanup(s.w1, now - SecondHorizon))
  }

  /** Pruning only drops leading entries of each window. */
  lemma PruneShortens(s: Limiter, now: real)
    ensures var p := Prune(s, now);
            IsSuffix(p.w60, s.w60) && IsSuffix(p.w10, s.w10) && IsSuffix(p.w1, s.w1)
  {
    CleanupDropsOnlyOld(s.w60, now - MinuteHorizon);
    CleanupDropsOnlyOld(s.w10, now - TenSecondHorizon);
    CleanupDropsOnlyOld(s.w1, now - SecondHorizon);
  }

  /** The bookkeeping of a grant: the same reading appended to all three
      windows, one more request, and the time spent since `start`. */
  function Record(s: Limiter, now: real, start: real): (r: Limiter)
    ensures r.w60 == s.w60 + [now] && r.w10 == s.w10 + [now] && r.w1 == s.w1 + [now]
    ensures r.totalRequests == s.totalRequests + 1
    ensures r.totalWaitTime == s.totalWaitTime + (now - start)
    ensures r.requestsBlocked == s.requestsBlocked
  {
    Limiter(s.w60 + [now], s.w10 + [now], s.w1 + [now],
            s.totalRequests + 1, s.totalWaitTime + (now - start), s.requestsBlocked)
  }

  // ---------------------------------------------------------------------
  // acquire
  // ---------------------------------------------------------------------

  /** The result of one iteration of the `acquire` loop. */
  datatype Step =
    | Granted(limiter: Limiter)
    | Expired(limiter: Limiter)
    | Sleep(limiter: Limiter, wait: real)

  /** One iteration of `acquire` at clock reading `now`: grant iff the wait
      is at most 0; otherwise fail when a timeout is set and the elapsed time
      plus the wait exceeds it, else count a blocked request and sleep. */
  function AcquireStep(s: Limiter, caps: Caps, start: real, timeout: Option<real>, now: real): (st: Step)
    requires ValidCaps(caps)
    ensures var p := Prune(s, now);
            var wait := WaitTime(p, caps, now);
            && (st.Granted? <==> wait <= 0.0)
            && (st.Granted? ==> st.limiter == Record(p, now, start))
            && (st.Expired? <==> wait > 0.0 && timeout.Some? && (now - start) + wait > timeout.value)
            && (!st.Granted? ==> st.limiter == p.(requestsBlocked := s.requestsBlocked + 1))
            && (st.Sleep? ==> st.wait == wait && st.wait > 0.0)
  {
    var p := Prune(s, now);
    var wait := WaitTime(p, caps, now);
    if wait <= 0.0 then Granted(Record(p, now, start))
    else if timeout.Some? && (now - start) + wait > timeout.value then
      Expired(p.(requestsBlocked := p.requestsBlocked + 1))
    else Sleep(p.(requestsBlocked := p.requestsBlocked + 1), wait)
  }

  datatype Outcome = Acquired(at: real) | TimedOut | Waiting

  /** `checks` is the number of loop iterations, i.e. clock readings used. */
  datatype AcquireResult = AcquireResult(limiter: Limiter, outcome: Outcome, checks: nat)

  /** `acquire(timeout)` started at `start`, whose successive loop iterations
      read the clock values in `clock` (the reading after each sleep is the
      next element). When the readings run out before a grant or a timeout
      the result is `Waiting`: the caller is still asleep. */
  function Acquire(s: Limiter, caps: Caps, start: real, timeout: Option<real>, clock: seq<real>): (r: AcquireResult)
    requires ValidCaps(caps)
    ensures r.checks <= |clock|
    ensures r.outcome.Waiting? ==> r.checks == |clock|
    ensures r.outcome.Acquired? ==> r.checks > 0 && r.outcome.at == clock[r.checks - 1]
    ensures r.outcome.TimedOut? ==> r.checks > 0 && timeout.Some?
    decreases |clock|
  {
    if |clock| == 0 then AcquireResult(s, Waiting, 0)
    else
      match AcquireStep(s, caps, start, timeout, clock[0])
      case Granted(s') => AcquireResult(s', Acquired(clock[0]), 1)
      case Expired(s') => AcquireResult(s', TimedOut, 1)
      case Sleep(s', _) =>
        var r := Acquire(s', caps, start, timeout, clock[1..]);
        AcquireResult(r.limiter, r.outcome, r.checks + 1)
  }

  /** What a granting `acquire` does: the grant time is appended to all three
      windows, `total_requests` grows by one, and every earlier check (each
      sleep) added one to `requests_blocked`. */
  lemma {:induction false} AcquireGrantBookkeeping(s: Limiter, caps: Caps, start: real, timeout: Option<real>, clock: seq<real>)
    requires ValidCaps(caps)
    requires Acquire(s, caps, start, timeout, clock).outcome.Acquired?
    ensures var r := Acquire(s, caps, start, timeout, clock);
            && r.limiter.totalRequests == s.totalRequests + 1
            && r.limiter.requestsBlocked == s.requestsBlocked + r.checks - 1
            && EndsWith(r.limiter.w60, r.outcome.at)
            && EndsWith(r.limiter.w10, r.outcome.at)
            && EndsWith(r.limiter.w1, r.outcome.at)
    decreases |clock|
  {
    var st := AcquireStep(s, caps, start, timeout, clock[0]);
    if st.Sleep? {
      AcquireGrantBookkeeping(st.limiter, caps, start, timeout, clock[1..]);
    }
  }

  predicate EndsWith(w: seq<real>, t: real) {
    |w| > 0 && w[|w| - 1] == t
  }

  /** An `acquire` that does not grant records no timestamp: the windows only
      lose old entries, `total_requests` and the accumulated wait stay, and
      each check adds one to `requests_blocked`. */
  lemma {:induction false} AcquireNoGrantBookkeeping(s: Limiter, caps: Caps, start: real, timeout: Option<real>, clock: seq<real>)
    requires ValidCaps(caps)
    requires !Acquire(s, caps, start, timeout, clock).outcome.Acquired?
    ensures var r := Acquire(s, caps, start, timeout, clock);
            && r.limiter.totalRequests == s.totalRequests
            && r.limiter.totalWaitTime == s.totalWaitTime
            && r.limiter.requestsBlocked == s.requestsBlocked + r.checks
            && IsSuffix(r.limiter.w60, s.w60) && IsSuffix(r.limiter.w10, s.w10)
            && IsSuffix(r.limiter.w1, s.w1)
    decreases |clock|
  {
    if |clock| > 0 {
      var st := AcquireStep(s, caps, start, timeout, clock[0]);
      PruneShortens(s, clock[0]);
      if st.Sleep? {
        var s' := st.limiter;
        AcquireNoGrantBookkeeping(s', caps, start, timeout, clock[1..]);
        var r := Acquire(s', caps, start, timeout, clock[1..]);
        SuffixTransitive(r.limiter.w60, s'.w60, s.w60);
        SuffixTransitive(r.limiter.w10, s'.w10, s.w10);
        SuffixTransitive(r.limiter.w1, s'.w1, s.w1);
      }
    }
  }

  /** `reset`: empties the windows and zeroes every counter. */
  function Reset(s: Limiter): (r: Limiter)
    ensures r.w60 == [] && r.w10 == [] && r.w1 == []
    ensures r.totalRequests == 0 && r.requestsBlocked == 0 && r.totalWaitTime == 0.0
  {
    Fresh()
  }

  datatype Stats = Stats(
    totalRequests: nat,
    requestsBlocked: nat,
    avgWaitTime: real,
    current60: nat,
    current10: nat,
    current1: nat)

  /** `get_stats`: the counters, the window sizes, and the average wait per
      grant, which is 0 while nothing has been granted. */
  function GetStats(s: Limiter): (st: Stats)
    ensures st.totalRequests == s.totalRequests && st.requestsBlocked == s.requestsBlocked
    ensures st.current60 == |s.w60| && st.current10 == |s.w10| && st.current1 == |s.w1|
    ensures s.totalRequests == 0 ==> st.avgWaitTime == 0.0
    ensures s.totalRequests > 0 ==> st.avgWaitTime * (s.totalRequests as real) == s.totalWaitTime
  {
    var avg := if s.totalRequests > 0 then s.totalWaitTime / (s.totalRequests as real) else 0.0;
    Stats(s.totalRequests, s.requestsBlocked, avg, |s.w60|, |s.w10|, |s.w1|)
  }

  /** After `reset`, the statistics report nothing at all. */
  lemma StatsAfterReset(s: Limiter)
    ensures GetStats(Reset(s)) == Stats(0, 0, 0.0, 0, 0, 0)
  {
  }

  // ---------------------------------------------------------------------
  // ExponentialBackoff
  // ---------------------------------------------------------------------

  datatype Backoff = Backoff(baseDelay: real, maxDelay: real, multiplier: real, jitter: bool, attempt: nat)

  /** `ExponentialBackoff()` with its defaults: 1 s base, 60 s cap, factor 2,
      jitter on, attempt 0. */
  function NewBackoff(): Backoff {
    Backoff(1.0, 60.0, 2.0, true, 0)
  }

  function Pow(b: real, n: nat): real {
    if n == 0 then 1.0 else b * Pow(b, n - 1)
  }

  function Min(a: real, b: real): real {
    if a <= b then a else b
  }

  /** The delay before jitter: `min(base * multiplier ** attempt, max_delay)`. */
  function RawDelay(b: Backoff): real {
    Min(Uncapped(b), b.maxDelay)
  }

  /** `base_delay * multiplier ** attempt`. */
  function Uncapped(b: Backoff): real {
    b.baseDelay * Pow(b.multiplier, b.attempt)
  }

  /** `get_delay`: the raw delay scaled by the jitter factor the source draws
      from `random.uniform(0.75, 1.25)`, here supplied by the caller. */
  function GetDelay(b: Backoff, factor: real): (d: real)
    requires 0.75 <= factor <= 1.25
    ensures !b.jitter ==> d == RawDelay(b)
    ensures b.jitter && RawDelay(b) >= 0.0 ==> RawDelay(b) * 0.75 <= d <= RawDelay(b) * 1.25
    ensures RawDelay(b) >= 0.0 ==> d <= 1.25 * b.maxDelay
  {
    var raw := RawDelay(b);
    JitterBounds(raw, b.maxDelay, factor);
    if b.jitter then raw * factor else raw
  }

  /** The jitter keeps a non-negative delay within 25% of itself, and a
      delay under the cap within 125% of the cap. */
  lemma JitterBounds(raw: real, cap: real, factor: real)
    requires 0.75 <= factor <= 1.25
    ensures raw >= 0.0 ==> raw * 0.75 <= raw * factor <= raw * 1.25
    ensures 0.0 <= raw <= cap ==> raw <= 1.25 * cap && raw * factor <= 1.25 * cap
  {
    if raw >= 0.0 {
      ScaleBounds(raw, factor, 0.75, 1.25);
      if raw <= cap {
        MulMonotone(1.25, raw, cap);
        assert raw * 1.25 == 1.25 * raw;
      }
    }
  }

  /** For a non-negative `x`, scaling by a factor in `[lo, hi]` lands in
      `[lo * x, hi * x]`. */
  lemma ScaleBounds(x: real, f: real, lo: real, hi: real)
    requires lo <= f <= hi
    ensures x >= 0.0 ==> x * lo <= x * f <= x * hi
  {
    if x >= 0.0 {
      MulMonotone(x, lo, f);
      MulMonotone(x, f, hi);
    }
  }

  lemma MulMonotone(a: real, x: real, y: real)
    requires a >= 0.0 && x <= y
    ensures a * x <= a * y
  {
    assert a * y - a * x == a * (y - x);
  }

  /** `wait`: sleeps for the current delay, then counts one more attempt;
      nothing else about the policy changes. */
  function Wait(b: Backoff, factor: real): (r: (real, Backoff))
    requires 0.75 <= factor <= 1.25
    ensures r.1.attempt == b.attempt + 1
    ensures ResetBackoff(r.1) == ResetBackoff(b)
    ensures !b.jitter ==> r.0 == RawDelay(b)
    ensures b.jitter && RawDelay(b) >= 0.0 ==> RawDelay(b) * 0.75 <= r.0 <= RawDelay(b) * 1.25
  {
    (GetDelay(b, factor), b.(attempt := b.attempt + 1))
  }

  /** `reset`: back to attempt 0. */
  function ResetBackoff(b: Backoff): (r: Backoff)
    ensures r.attempt == 0
    ensures r.baseDelay == b.baseDelay && r.maxDelay == b.maxDelay
    ensures r.multiplier == b.multiplier && r.jitter == b.jitter
  {
    b.(attempt := 0)
  }

  /** The raw delay never exceeds the cap. */
  lemma RawDelayCapped(b: Backoff)
    ensures RawDelay(b) <= b.maxDelay
  {
  }

  lemma {:induction false} PowAtLeastOne(m: real, n: nat)
    requires m >= 1.0
    ensures Pow(m, n) >= 1.0
  {
    if n > 0 {
      PowAtLeastOne(m, n - 1);
    }
  }

  /** One more attempt never lowers the un-capped delay. */
  lemma UncappedStep(b: Backoff)
    requires b.baseDelay >= 0.0 && b.multiplier >= 1.0
    ensures Uncapped(b) <= Uncapped(b.(attempt := b.attempt + 1))
  {
    var m := b.multiplier;
    PowAtLeastOne(m, b.attempt);
    var p := Pow(m, b.attempt);
    assert Pow(m, b.attempt + 1) == m * p;
    MulMonotone(p, 1.0, m);
    MulMonotone(b.baseDelay, p, m * p);
  }

  /** With a non-negative base and a multiplier of at least 1, a later attempt
      never waits less before jitter. */
  lemma {:induction false} RawDelayMonotone(b: Backoff, later: nat)
    requires b.baseDelay >= 0.0 && b.multiplier >= 1.0
    requires b.attempt <= later
    ensures RawDelay(b) <= RawDelay(b.(attempt := later))
    decreases later - b.attempt
  {
    if b.attempt < later {
      var next := b.(attempt := b.attempt + 1);
      UncappedStep(b);
      RawDelayMonotone(next, later);
      assert next.(attempt := later) == b.(attempt := later);
    }
  }

  /** Each `wait` moves to a raw delay at least as long as the one it slept
      on, for a non-negative base and a multiplier of at least 1. */
  lemma WaitNeverShortens(b: Backoff, factor: real)
    requires 0.75 <= factor <= 1.25
    requires b.baseDelay >= 0.0 && b.multiplier >= 1.0
    ensures RawDelay(b) <= RawDelay(Wait(b, factor).1)
  {
    RawDelayMonotone(b, b.attempt + 1);
    assert Wait(b, factor).1 == b.(attempt := b.attempt + 1);
  }

  /** A jittered delay never exceeds 1.25 times the cap. */
  lemma JitteredDelayBound(b: Backoff, factor: real)
    requires 0.75 <= factor <= 1.25
    requires b.baseDelay >= 0.0 && b.maxDelay >= 0.0 && b.multiplier >= 0.0
    ensures 0.0 <= GetDelay(b, factor) <= 1.25 * b.maxDelay
  {
    PowNonNegative(b.multiplier, b.attempt);
    assert b.baseDelay * Pow(b.multiplier, b.attempt) >= 0.0;
  }

  lemma {:induction false} PowNonNegative(m: real, n: nat)
    requires m >= 0.0
    ensures Pow(m, n) >= 0.0
  {
    if n > 0 {
      PowNonNegative(m, n - 1);
    }
  }
}

=== FILE: rate_limiter_safety.dfy ===
/** The guarantee the sliding-window limiter is built for: however the caller
    interleaves `acquire` calls, the grant times never put more than `cap`
    requests into any half-open window `(t - horizon, t]`, for each of the
    three horizons.

    The proof keeps a ghost history `G` of every grant time and the time
    `last` of the latest check, and shows that each window of the limiter is
    exactly the history pruned against `last - horizon`. The precondition
    throughout is that successive clock readings strictly increase. */
module RateLimiterSafety {
  import opened Wrappers
  import opened RateLimiter

  // ---------------------------------------------------------------------
  // Counting grants in a window
  // ---------------------------------------------------------------------

  /** How many elements of `s` lie in the half-open interval `(lo, hi]`. */
  function CountIn(s: seq<real>, lo: real, hi: real): (n: nat)
    ensures n <= |s|
  {
    if |s| == 0 then 0
    else CountIn(s[..|s| - 1], lo, hi) + (if lo < s[|s| - 1] <= hi then 1 else 0)
  }

  /** The number of grants in the window of length `horizon` ending at `t`. */
  function WindowCount(g: seq<real>, horizon: real, t: real): nat {
    CountIn(g, t - horizon, t)
  }

  /** No window of length `horizon` holds more than `cap` grants. */
  ghost predicate Safe(g: seq<real>, horizon: real, cap: int) {
    forall t :: WindowCount(g, horizon, t) <= cap
  }

  lemma {:induction false} CountInConcat(a: seq<real>, b: seq<real>, lo: real, hi: real)
    ensures CountIn(a + b, lo, hi) == CountIn(a, lo, hi) + CountIn(b, lo, hi)
    decreases |b|
  {
    if |b| > 0 {
      assert (a + b)[..|a + b| - 1] == a + b[..|b| - 1];
      assert (a + b)[|a + b| - 1] == b[|b| - 1];
      CountInConcat(a, b[..|b| - 1], lo, hi);
    } else {
      assert a + b == a;
    }
  }

  lemma {:induction false} CountInNone(s: seq<real>, lo: real, hi: real)
    requires forall i :: 0 <= i < |s| ==> !(lo < s[i] <= hi)
    ensures CountIn(s, lo, hi) == 0
  {
    if |s| > 0 {
      CountInNone(s[..|s| - 1], lo, hi);
    }
  }

  lemma {:induction false} CountInAll(s: seq<real>, lo: real, hi: real)
    requires forall i :: 0 <= i < |s| ==> lo < s[i] <= hi
    ensures CountIn(s, lo, hi) == |s|
  {
    if |s| > 0 {
      CountInAll(s[..|s| - 1], lo, hi);
    }
  }

  // ---------------------------------------------------------------------
  // Pruning the history
  // ---------------------------------------------------------------------

  /** Pruning against a cutoff and then against a later one is pruning
      against the later one. */
  lemma {:induction false} CleanupTwice(g: seq<real>, c1: real, c2: real)
    requires c1 <= c2
    ensures Cleanup(Cleanup(g, c1), c2) == Cleanup(g, c2)
  {
    if |g| > 0 && g[0] < c1 {
      CleanupTwice(g[1..], c1, c2);
    }
  }

  /** A timestamp at or after the cutoff survives pruning at the end. */
  lemma {:induction false} CleanupAppend(g: seq<real>, x: real, c: real)
    requires x >= c
    ensures Cleanup(g + [x], c) == Cleanup(g, c) + [x]
  {
    if |g| == 0 {
      assert Cleanup([x], c) == [x];
    } else if g[0] < c {
      assert (g + [x])[1..] == g[1..] + [x];
      CleanupAppend(g[1..], x, c);
    }
  }

  // ---------------------------------------------------------------------
  // One window
  // ---------------------------------------------------------------------

  lemma CountInAppend(g: seq<real>, x: real, lo: real, hi: real)
    ensures CountIn(g + [x], lo, hi) == CountIn(g, lo, hi) + (if lo < x <= hi then 1 else 0)
  {
    assert (g + [x])[..|g|] == g;
  }

  /** Pruning never adds to a count; and timestamps older than a cutoff at
      or before `lo` cannot be in `(lo, hi]`, so then the count is the same. */
  lemma CountInPruned(g: seq<real>, c: real, lo: real, hi: real)
    ensures CountIn(Cleanup(g, c), lo, hi) <= CountIn(g, lo, hi)
    ensures c <= lo ==> CountIn(g, lo, hi) == CountIn(Cleanup(g, c), lo, hi)
  {
    var w := Cleanup(g, c);
    CleanupDropsOnlyOld(g, c);
    var p := g[..|g| - |w|];
    assert g == p + w;
    CountInConcat(p, w, lo, hi);
    if c <= lo {
      CountInNone(p, lo, hi);
    }
  }

  /** A window whose oldest entry is outside `(lo, hi]` counts at most all
      but one of its entries. */
  lemma CountInDropFirst(w: seq<real>, lo: real, hi: real)
    requires |w| > 0 && w[0] <= lo
    ensures CountIn(w, lo, hi) <= |w| - 1
  {
    assert w == [w[0]] + w[1..];
    CountInConcat([w[0]], w[1..], lo, hi);
    CountInAppend([], w[0], lo, hi);
  }

  /** Every entry of a pruned sorted history lies in the window that ends at
      the last check, when the cutoff is after that window's start. */
  lemma PrunedWithinLast(g: seq<real>, c: real, lo: real, last: real)
    requires Sorted(g) && AllAtMost(g, last) && lo < c
    ensures CountIn(Cleanup(g, c), lo, last) == |Cleanup(g, c)|
  {
    var w := Cleanup(g, c);
    CleanupDropsOnlyOld(g, c);
    var p := g[..|g| - |w|];
    forall i | 0 <= i < |w|
      ensures lo < w[i] <= last
    {
      assert w[i] == g[|p| + i] && w[0] == g[|p|];
    }
    CountInAll(w, lo, last);
  }

  /** The heart of the argument, for one window: a grant at `now`, strictly
      after every earlier grant time and after the previous check `last`,
      keeps the window count bounded. Before the grant the pruned window
      `w` holds at most `cap` entries (they all lie in `(last - horizon,
      last]`); if it held `cap` the grant happened only because its oldest
      entry sits exactly on the cutoff, outside every window containing
      `now`. */
  lemma GrantKeepsSafe(g: seq<real>, horizon: real, cap: int, last: real, now: real)
    requires Sorted(g) && AllAtMost(g, last) && last < now && cap >= 1
    requires Safe(g, horizon, cap)
    requires var w := Cleanup(g, now - horizon);
             |w| >= cap ==> w[0] + horizon - now <= 0.0
    ensures Safe(g + [now], horizon, cap)
  {
    var c := now - horizon;
    var w := Cleanup(g, c);
    var lo := last - horizon;
    assert lo < c;
    assert CountIn(g, lo, last) <= cap by {
      assert WindowCount(g, horizon, last) <= cap;
    }
    PrunedAtMostCap(g, cap, c, lo, last);
    assert |w| >= cap ==> |w| > 0 && w[0] <= c;
    forall t
      ensures WindowCount(g + [now], horizon, t) <= cap
    {
      var lo', hi := t - horizon, t;
      assert CountIn(g, lo', hi) <= cap by {
        assert WindowCount(g, horizon, t) <= cap;
      }
      assert lo' < now <= hi ==> c <= lo';
      GrantWindow(g, cap, c, now, lo', hi);
      assert WindowCount(g + [now], horizon, t) == CountIn(g + [now], lo', hi);
    }
  }

  /** Before a grant, the history pruned at cutoff `c` holds at most `cap`
      entries: they all lie in the window `(lo, last]` ending at the last
      check, which starts before the cutoff. */
  lemma PrunedAtMostCap(g: seq<real>, cap: int, c: real, lo: real, last: real)
    requires Sorted(g) && AllAtMost(g, last) && lo < c
    requires CountIn(g, lo, last) <= cap
    ensures |Cleanup(g, c)| <= cap
  {
    CountInPruned(g, c, lo, last);
    PrunedWithinLast(g, c, lo, last);
  }

  /** The window `(lo, hi]` after a grant at `now`, given the window `w` the
      grant saw: at most `cap` entries, and when full its oldest entry on the
      cutoff `c`, which is at or before `lo` whenever `now` is in the window. */
  lemma GrantWindow(g: seq<real>, cap: int, c: real, now: real, lo: real, hi: real)
    requires CountIn(g, lo, hi) <= cap
    requires var w := Cleanup(g, c);
             && |w| <= cap
             && (|w| >= cap ==> |w| > 0 && w[0] <= c)
    requires lo < now <= hi ==> c <= lo
    ensures CountIn(g + [now], lo, hi) <= cap
  {
    var w := Cleanup(g, c);
    CountInAppend(g, now, lo, hi);
    if lo < now <= hi {
      CountInPruned(g, c, lo, hi);
      if |w| >= cap {
        CountInDropFirst(w, lo, hi);
      }
    }
  }

  // ---------------------------------------------------------------------
  // The limiter
  // ---------------------------------------------------------------------

  /** The history is sorted and no later than the last check. */
  predicate Ordered(g: seq<real>, last: real) {
    Sorted(g) && AllAtMost(g, last)
  }

  /** The limiter's windows are the grant history `g` pruned at the last
      check `last`. */
  predicate Tracks(s: Limiter, g: seq<real>, last: real) {
    && s.w60 == Cleanup(g, last - MinuteHorizon)
    && s.w10 == Cleanup(g, last - TenSecondHorizon)
    && s.w1 == Cleanup(g, last - SecondHorizon)
  }

  /** Every horizon is respected by the history. */
  ghost predicate SafeFor(g: seq<real>, caps: Caps) {
    && Safe(g, MinuteHorizon, caps.perMinute)
    && Safe(g, TenSecondHorizon, caps.per10s)
    && Safe(g, SecondHorizon, caps.per1s)
  }

  ghost predicate Inv(s: Limiter, caps: Caps, g: seq<real>, last: real) {
    Ordered(g, last) && Tracks(s, g, last) && SafeFor(g, caps)
  }

  /** A fresh limiter with no history satisfies the invariant at any time. */
  lemma FreshInv(caps: Caps, t: real)
    requires ValidCaps(caps)
    ensures Inv(Fresh(), caps, [], t)
  {
    forall u
      ensures WindowCount([], MinuteHorizon, u) == 0 && WindowCount([], TenSecondHorizon, u) == 0
              && WindowCount([], SecondHorizon, u) == 0
    {
    }
  }

  /** The history after one `acquire` iteration: the reading is added when
      the iteration grants. */
  function StepHistory(st: Step, g: seq<real>, now: real): seq<real> {
    if st.Granted? then g + [now] else g
  }

  /** Pruning and (on a grant) appending keep one window in step with the
      history: `w` was pruned at cutoff `c1`, the new check prunes at `c2`. */
  lemma WindowTracks(w: seq<real>, g: seq<real>, c1: real, c2: real, now: real)
    requires c1 <= c2 <= now && w == Cleanup(g, c1)
    ensures Cleanup(w, c2) == Cleanup(g, c2)
    ensures Cleanup(w, c2) + [now] == Cleanup(g + [now], c2)
  {
    CleanupTwice(g, c1, c2);
    CleanupAppend(g, now, c2);
  }

  /** Pruning at a later check keeps the windows in step with the history,
      and so does recording a grant at that check. */
  lemma PruneTracks(s: Limiter, g: seq<real>, last: real, now: real, start: real)
    requires Tracks(s, g, last) && last <= now
    ensures Tracks(Prune(s, now), g, now)
    ensures Tracks(Record(Prune(s, now), now, start), g + [now], now)
  {
    var c60, c10, c1 := now - MinuteHorizon, now - TenSecondHorizon, now - SecondHorizon;
    assert last - MinuteHorizon <= c60 && last - TenSecondHorizon <= c10 && last - SecondHorizon <= c1;
    WindowTracks(s.w60, g, last - MinuteHorizon, c60, now);
    WindowTracks(s.w10, g, last - TenSecondHorizon, c10, now);
    WindowTracks(s.w1, g, last - SecondHorizon, c1, now);
    var p := Prune(s, now);
    assert p.w60 == Cleanup(s.w60, c60) && p.w10 == Cleanup(s.w10, c10) && p.w1 == Cleanup(s.w1, c1);
    var q := Record(p, now, start);
    assert q.w60 == p.w60 + [now] && q.w10 == p.w10 + [now] && q.w1 == p.w1 + [now];
  }

  lemma GrantOrdered(g: seq<real>, last: real, now: real)
    requires Ordered(g, last) && last < now
    ensures Ordered(g + [now], now)
  {
  }

  /** A grant at a check whose pruned windows leave no wait keeps every
      horizon respected. */
  lemma GrantSafe(p: Limiter, caps: Caps, g: seq<real>, last: real, now: real)
    requires ValidCaps(caps) && Ordered(g, last) && last < now
    requires Tracks(p, g, now) && SafeFor(g, caps)
    requires WaitTime(p, caps, now) <= 0.0
    ensures SafeFor(g + [now], caps)
  {
    GrantKeepsSafe(g, MinuteHorizon, caps.perMinute, last, now);
    GrantKeepsSafe(g, TenSecondHorizon, caps.per10s, last, now);
    GrantKeepsSafe(g, SecondHorizon, caps.per1s, last, now);
  }

  /** One iteration of `acquire` at a reading later than the last check
      preserves the invariant, the history growing by the reading exactly
      when the iteration grants. */
  lemma StepPreservesInv(s: Limiter, caps: Caps, g: seq<real>, last: real,
                         start: real, timeout: Option<real>, now: real)
    requires ValidCaps(caps) && Inv(s, caps, g, last) && last < now
    ensures var st := AcquireStep(s, caps, start, timeout, now);
            Inv(st.limiter, caps, StepHistory(st, g, now), now)
  {
    var st := AcquireStep(s, caps, start, timeout, now);
    var p := Prune(s, now);
    PruneTracks(s, g, last, now, start);
    if st.Granted? {
      GrantOrdered(g, last, now);
      GrantSafe(p, caps, g, last, now);
    } else {
      assert Tracks(st.limiter, g, now);
    }
  }

  /** `Inv` respects equality of its arguments; stated separately so that the
      equalities are used before the invariant is unfolded. */
  lemma InvTransfer(s: Limiter, caps: Caps, g: seq<real>, last: real, s': Limiter, g': seq<real>, last': real)
    requires Inv(s, caps, g, last) && s == s' && g == g' && last == last'
    ensures Inv(s', caps, g', last')
  {
  }

  predicate StrictlyIncreasing(c: seq<real>) {
    forall i, j :: 0 <= i < j < |c| ==> c[i] < c[j]
  }

  /** The reading of the last check an `acquire` made, or `last` if it made
      none. */
  function LastCheck(last: real, clock: seq<real>, checks: nat): real
    requires checks <= |clock|
  {
    if checks == 0 then last else clock[checks - 1]
  }

  /** The history after an `acquire`: one more entry, the grant time, when it
      was granted. */
  function AcquireHistory(r: AcquireResult, g: seq<real>): seq<real> {
    if r.outcome.Acquired? then g + [r.outcome.at] else g
  }

  /** A whole `acquire` whose readings strictly increase and start after the
      last check preserves the invariant. */
  lemma {:induction false} AcquirePreservesInv(s: Limiter, caps: Caps, g: seq<real>, last: real,
                                               start: real, timeout: Option<real>, clock: seq<real>)
    requires ValidCaps(caps) && Inv(s, caps, g, last)
    requires StrictlyIncreasing(clock) && (|clock| > 0 ==> last < clock[0])
    ensures var r := Acquire(s, caps, start, timeout, clock);
            Inv(r.limiter, caps, AcquireHistory(r, g), LastCheck(last, clock, r.checks))
    decreases |clock|
  {
    if |clock| > 0 {
      var st := AcquireStep(s, caps, start, timeout, clock[0]);
      StepPreservesInv(s, caps, g, last, start, timeout, clock[0]);
      if st.Sleep? {
        var rest := clock[1..];
        assert StrictlyIncreasing(rest) by {
          forall i, j | 0 <= i < j < |rest|
            ensures rest[i] < rest[j]
          {
            assert rest[i] == clock[i + 1] && rest[j] == clock[j + 1];
          }
        }
        assert |rest| > 0 ==> clock[0] < rest[0] by {
          if |rest| > 0 {
            assert rest[0] == clock[1];
          }
        }
        AcquirePreservesInv(st.limiter, caps, g, clock[0], start, timeout, rest);
        SleepCombine(s, caps, g, last, start, timeout, clock);
      }
    }
  }

  /** After a sleeping iteration, what holds of the remaining iterations holds
      of the whole call. */
  lemma SleepCombine(s: Limiter, caps: Caps, g: seq<real>, last: real,
                     start: real, timeout: Option<real>, clock: seq<real>)
    requires ValidCaps(caps) && |clock| > 0
    requires AcquireStep(s, caps, start, timeout, clock[0]).Sleep?
    requires var r' := Acquire(AcquireStep(s, caps, start, timeout, clock[0]).limiter, caps, start, timeout, clock[1..]);
             Inv(r'.limiter, caps, AcquireHistory(r', g), LastCheck(clock[0], clock[1..], r'.checks))
    ensures var r := Acquire(s, caps, start, timeout, clock);
            Inv(r.limiter, caps, AcquireHistory(r, g), LastCheck(last, clock, r.checks))
  {
    var st := AcquireStep(s, caps, start, timeout, clock[0]);
    var r := Acquire(s, caps, start, timeout, clock);
    var r' := Acquire(st.limiter, caps, start, timeout, clock[1..]);
    assert r == AcquireResult(r'.limiter, r'.outcome, r'.checks + 1);
    InvTransfer(r'.limiter, caps, AcquireHistory(r', g), LastCheck(clock[0], clock[1..], r'.checks),
                r.limiter, AcquireHistory(r, g), LastCheck(last, clock, r.checks));
  }

  // ---------------------------------------------------------------------
  // A session of calls
  // ---------------------------------------------------------------------

  /** One `acquire(timeout)` call started at `start`, with the readings its
      loop would take. */
  datatype Call = Call(start: real, timeout: Option<real>, clock: seq<real>)

  /** All readings the calls would take, in order. */
  function Readings(calls: seq<Call>): seq<real> {
    if |calls| == 0 then [] else Readings(calls[..|calls| - 1]) + calls[|calls| - 1].clock
  }

  datatype SessionResult = SessionResult(limiter: Limiter, grants: seq<real>, last: real)

  /** The calls run one after another on one limiter; `grants` collects the
      grant times and `last` the reading of the latest check. */
  function Session(s: Limiter, caps: Caps, last: real, calls: seq<Call>): (r: SessionResult)
    requires ValidCaps(caps)
    ensures |r.grants| <= |calls|
  {
    if |calls| == 0 then SessionResult(s, [], last)
    else
      var prev := Session(s, caps, last, calls[..|calls| - 1]);
      var c := calls[|calls| - 1];
      var a := Acquire(prev.limiter, caps, c.start, c.timeout, c.clock);
      var grants := if a.outcome.Acquired? then prev.grants + [a.outcome.at] else prev.grants;
      SessionResult(a.limiter, grants, LastCheck(prev.last, c.clock, a.checks))
  }

  lemma {:induction false} SessionLastBounds(s: Limiter, caps: Caps, last: real, calls: seq<Call>)
    requires ValidCaps(caps)
    ensures var r := Session(s, caps, last, calls);
            (|Readings(calls)| == 0 ==> r.last == last)
            && (|Readings(calls)| > 0 ==> r.last in Readings(calls))
  {
    if |calls| > 0 {
      var init := calls[..|calls| - 1];
      var c := calls[|calls| - 1];
      SessionLastBounds(s, caps, last, init);
      assert Readings(calls) == Readings(init) + c.clock;
    }
  }

  /** The limiter's main promise: starting fresh, any sequence of `acquire`
      calls whose clock readings strictly increase grants requests such that
      no 60-second window holds more than `perMinute`, no 10-second window
      more than `per10s`, and no 1-second window more than `per1s` of them.
      The windows are half-open, `(t - horizon, t]`. */
  lemma {:induction false} SessionSafe(caps: Caps, t0: real, calls: seq<Call>)
    requires ValidCaps(caps)
    requires StrictlyIncreasing(Readings(calls))
    requires |Readings(calls)| > 0 ==> t0 < Readings(calls)[0]
    ensures var r := Session(Fresh(), caps, t0, calls);
            && Safe(r.grants, MinuteHorizon, caps.perMinute)
            && Safe(r.grants, TenSecondHorizon, caps.per10s)
            && Safe(r.grants, SecondHorizon, caps.per1s)
  {
    SessionInv(caps, t0, calls);
  }

  lemma {:induction false} SessionInv(caps: Caps, t0: real, calls: seq<Call>)
    requires ValidCaps(caps)
    requires StrictlyIncreasing(Readings(calls))
    requires |Readings(calls)| > 0 ==> t0 < Readings(calls)[0]
    ensures var r := Session(Fresh(), caps, t0, calls);
            Inv(r.limiter, caps, r.grants, r.last)
  {
    if |calls| == 0 {
      FreshInv(caps, t0);
    } else {
      var init := calls[..|calls| - 1];
      var c := calls[|calls| - 1];
      ReadingsSplit(calls, t0);
      SessionInv(caps, t0, init);
      var prev := Session(Fresh(), caps, t0, init);
      SessionLastBounds(Fresh(), caps, t0, init);
      AcquirePreservesInv(prev.limiter, caps, prev.grants, prev.last, c.start, c.timeout, c.clock);
      SessionCombine(caps, t0, calls);
    }
  }

  /** Strictly increasing readings split into those of the earlier calls and
      those of the last call, each strictly increasing, the latter all later
      than the former and than `t0`. */
  lemma ReadingsSplit(calls: seq<Call>, t0: real)
    requires |calls| > 0
    requires StrictlyIncreasing(Readings(calls))
    requires |Readings(calls)| > 0 ==> t0 < Readings(calls)[0]
    ensures var rs := Readings(calls[..|calls| - 1]);
            var cl := calls[|calls| - 1].clock;
            && StrictlyIncreasing(rs) && (|rs| > 0 ==> t0 < rs[0])
            && StrictlyIncreasing(cl)
            && (|cl| > 0 ==> t0 < cl[0] && forall k :: 0 <= k < |rs| ==> rs[k] < cl[0])
  {
    var rs := Readings(calls[..|calls| - 1]);
    var cl := calls[|calls| - 1].clock;
    var all := Readings(calls);
    assert all == rs + cl;
    forall i, j | 0 <= i < j < |rs|
      ensures rs[i] < rs[j]
    {
      assert rs[i] == all[i] && rs[j] == all[j];
    }
    forall i, j | 0 <= i < j < |cl|
      ensures cl[i] < cl[j]
    {
      assert cl[i] == all[|rs| + i] && cl[j] == all[|rs| + j];
    }
    if |cl| > 0 {
      assert cl[0] == all[|rs|];
      forall k | 0 <= k < |rs|
        ensures rs[k] < cl[0]
      {
        assert rs[k] == all[k];
      }
    }
  }

  /** The invariant after the last call of a session is the invariant
      `acquire` leaves behind. */
  lemma SessionCombine(caps: Caps, t0: real, calls: seq<Call>)
    requires ValidCaps(caps) && |calls| > 0
    requires var prev := Session(Fresh(), caps, t0, calls[..|calls| - 1]);
             var c := calls[|calls| - 1];
             var a := Acquire(prev.limiter, caps, c.start, c.timeout, c.clock);
             Inv(a.limiter, caps, AcquireHistory(a, prev.grants), LastCheck(prev.last, c.clock, a.checks))
    ensures var r := Session(Fresh(), caps, t0, calls);
            Inv(r.limiter, caps, r.grants, r.last)
  {
    var prev := Session(Fresh(), caps, t0, calls[..|calls| - 1]);
    var c := calls[|calls| - 1];
    var a := Acquire(prev.limiter, caps, c.start, c.timeout, c.clock);
    var r := Session(Fresh(), caps, t0, calls);
    assert r == SessionResult(a.limiter, AcquireHistory(a, prev.grants), LastCheck(prev.last, c.clock, a.checks));
    InvTransfer(a.limiter, caps, AcquireHistory(a, prev.grants), LastCheck(prev.last, c.clock, a.checks),
                r.limiter, r.grants, r.last);
  }

  // ---------------------------------------------------------------------
  // The boundary of a window
  // ---------------------------------------------------------------------

  /** The limiter after grants at the times `xs`, each requested at the time
      it was granted, with no wait. */
  function GrantedAt(xs: seq<real>): Limiter {
    Limiter(xs, xs, xs, |xs|, 0.0, 0)
  }

  lemma BoundaryFirst()
    ensures AcquireStep(Fresh(), DefaultCaps(), 0.0, None, 0.0) == Granted(GrantedAt([0.0]))
  {
  }

  lemma BoundarySecond()
    ensures AcquireStep(GrantedAt([0.0]), DefaultCaps(), 0.25, None, 0.25)
            == Granted(GrantedAt([0.0, 0.25]))
  {
    assert Prune(GrantedAt([0.0]), 0.25) == GrantedAt([0.0]);
  }

  lemma BoundaryThird()
    ensures AcquireStep(GrantedAt([0.0, 0.25]), DefaultCaps(), 0.5, None, 0.5)
            == Granted(GrantedAt([0.0, 0.25, 0.5]))
  {
    assert Prune(GrantedAt([0.0, 0.25]), 0.5) == GrantedAt([0.0, 0.25]);
  }

  lemma BoundaryFourth()
    ensures AcquireStep(GrantedAt([0.0, 0.25, 0.5]), DefaultCaps(), 1.0, None, 1.0)
            == Granted(GrantedAt([0.0, 0.25, 0.5, 1.0]))
  {
    var p := GrantedAt([0.0, 0.25, 0.5]);
    assert Cleanup(p.w1, 0.0) == p.w1;
    assert Prune(p, 1.0) == p;
    assert Need(p.w1, SecondHorizon, 1.0) == 0.0;
    assert WaitTime(p, DefaultCaps(), 1.0) == 0.0;
  }

  /** The windows are half-open. With the default capacities, requests at
      0, 0.25, 0.5 and 1 second are all granted at once, so the closed
      one-second interval `[0, 1]` holds four grants although the per-second
      cap is three: the entry exactly one second old still sits in the
      window, but its remaining wait is 0, which the limiter grants. Every
      half-open window `(t - 1, t]` still holds at most three. */
  lemma ClosedSecondHoldsFour()
    ensures var g := [0.0, 0.25, 0.5, 1.0];
            && AcquireStep(Fresh(), DefaultCaps(), 0.0, None, 0.0).Granted?
            && AcquireStep(GrantedAt(g[..1]), DefaultCaps(), 0.25, None, 0.25) == Granted(GrantedAt(g[..2]))
            && AcquireStep(GrantedAt(g[..2]), DefaultCaps(), 0.5, None, 0.5) == Granted(GrantedAt(g[..3]))
            && AcquireStep(GrantedAt(g[..3]), DefaultCaps(), 1.0, None, 1.0) == Granted(GrantedAt(g))
            && CountIn(g, -0.5, 1.0) == 4 > DefaultCaps().per1s
            && WindowCount(g, SecondHorizon, 1.0) == 3
  {
    var g := [0.0, 0.25, 0.5, 1.0];
    assert g[..1] == [0.0] && g[..2] == [0.0, 0.25] && g[..3] == [0.0, 0.25, 0.5];
    BoundaryFirst();
    BoundarySecond();
    BoundaryThird();
    BoundaryFourth();
    assert g[..3][..2][..1] == [0.0];
  }
}

=== FILE: reddit_client.dfy ===
/** The Reddit HTTP client: OAuth token upkeep, the retrying request loop
    with its status handling and counters, the subreddit classifier, and the
    listing pagination. Every response, authentication reply and clock
    reading is an input; the model decides only what the client does with
    them. */
module RedditClient {
  import opened Wrappers
  import opened JsonValue

  /** The in-band object `{'_http_status': code}` the request loop returns
      for a 404 or 403 so that the caller can tell those apart from a plain
      failure. */
  function Marker(code: int): Json {
    JObj(map["_http_status" := JNum(code)])
  }

  // ---------------------------------------------------------------------
  // Client state and the OAuth token
  // ---------------------------------------------------------------------

  const DefaultExpiresIn: int := 3600
  const ExpiryMargin: int := 60
  const DefaultRetryAfter: int := 60
  const DefaultMaxRetries: int := 3
  const DiversityChance: real := 0.2

  /** The token, its expiry instant (seconds), and the four public
      counters. */
  datatype Client = Client(
    token: Option<string>,
    expires: Option<real>,
    totalRequests: nat,
    failedRequests: nat,
    rateLimitHits: nat,
    diversityRequests: nat)

  function NewClient(): Client {
    Client(None, None, 0, 0, 0, 0)
  }

  /** The token endpoint's answer: a token with an optional lifetime read at
      clock `at`; a token whose `expires_in` is `null` or not a number, so
      that `expires_in - 60` raises after the token has been stored; an
      error status from `raise_for_status`; or any other failure (network
      error, missing `access_token`), which raises before anything is
      stored. */
  datatype AuthReply =
    | TokenIssued(accessToken: string, expiresIn: Option<int>, at: real)
    | TokenUnreadExpiry(accessToken: string)
    | AuthStatusError(status: int)
    | AuthFailed

  /** The client after an authentication, and whether it raised. */
  datatype AuthOut = AuthOut(client: Client, raised: bool)

  /** The token is retired sixty seconds before the lifetime the server
      granted, which defaults to an hour. */
  function Expiry(at: real, expiresIn: Option<int>): (e: real)
    ensures expiresIn.None? ==> e == at + 3540.0
    ensures expiresIn.Some? ==> e - at == (expiresIn.value - 60) as real
  {
    at + (expiresIn.GetOr(DefaultExpiresIn) - ExpiryMargin) as real
  }

  /** A token must be fetched when there is none, it is empty, no expiry is
      known, or the expiry has been reached. */
  predicate NeedsAuth(c: Client, now: real) {
    c.token.None? || c.token.value == "" || c.expires.None? || now >= c.expires.value
  }

  /** One authentication: on success the token and expiry are replaced; a
      token with an unreadable lifetime is stored before the exception
      propagates, so the old expiry stays beside the new token; any other
      failure propagates before anything changes. The counters are never
      touched. */
  function Authenticate(c: Client, reply: AuthReply): (r: AuthOut)
    ensures !r.raised <==> reply.TokenIssued?
    ensures SameCounters(r.client, c)
    ensures reply.TokenIssued? ==>
              r.client.token == Some(reply.accessToken)
              && r.client.expires == Some(Expiry(reply.at, reply.expiresIn))
    ensures reply.TokenUnreadExpiry? ==>
              r.client.token == Some(reply.accessToken) && r.client.expires == c.expires
    ensures reply.AuthStatusError? || reply.AuthFailed? ==> r.client == c
  {
    match reply
    case TokenIssued(t, e, at) => AuthOut(c.(token := Some(t), expires := Some(Expiry(at, e))), false)
    case TokenUnreadExpiry(t) => AuthOut(c.(token := Some(t)), true)
    case _ => AuthOut(c, true)
  }

  predicate SameCounters(a: Client, b: Client) {
    a.totalRequests == b.totalRequests && a.failedRequests == b.failedRequests
    && a.rateLimitHits == b.rateLimitHits && a.diversityRequests == b.diversityRequests
  }

  /** Refreshes the token only when it needs it; a failed refresh raises. */
  function EnsureTokenValid(c: Client, now: real, reply: AuthReply): (r: AuthOut)
    ensures !NeedsAuth(c, now) ==> r == AuthOut(c, false)
    ensures r.raised <==> NeedsAuth(c, now) && !reply.TokenIssued?
    ensures SameCounters(r.client, c)
    ensures NeedsAuth(c, now) && reply.TokenIssued? ==>
              r.client.token == Some(reply.accessToken)
              && r.client.expires == Some(Expiry(reply.at, reply.expiresIn))
  {
    if NeedsAuth(c, now) then Authenticate(c, reply) else AuthOut(c, false)
  }

  /** A freshly issued, non-empty token is usable at exactly the instants
      before its expiry: strictly less than `at + expires_in - 60`. */
  lemma TokenValidUntilExpiry(c: Client, t: string, e: Option<int>, at: real, now: real)
    requires t != ""
    ensures !Authenticate(c, TokenIssued(t, e, at)).raised
    ensures var c' := Authenticate(c, TokenIssued(t, e, at)).client;
      !NeedsAuth(c', now) <==> now < at + (e.GetOr(3600) - 60) as real
  {
  }

  /** A valid token survives `EnsureTokenValid` untouched, whatever the
      token endpoint would have said. */
  lemma ValidTokenNotRefreshed(c: Client, now: real, reply: AuthReply)
    requires c.token.Some? && c.token.value != "" && c.expires.Some?
    requires now < c.expires.value
    ensures EnsureTokenValid(c, now, reply) == AuthOut(c, false)
  {
  }

  /** A refresh that stores a token but cannot read its lifetime raises,
      yet leaves the new token in place beside the old expiry: until that
      expiry the next request uses the new token without another refresh. */
  lemma UnreadExpiryKeepsToken(c: Client, now: real, t: string, later: real, next: AuthReply)
    requires NeedsAuth(c, now) && t != ""
    requires c.expires.Some? && later < c.expires.value
    ensures var a := EnsureTokenValid(c, now, TokenUnreadExpiry(t));
            a.raised && a.client.token == Some(t)
            && EnsureTokenValid(a.client, later, next) == AuthOut(a.client, false)
  {
  }

  // ---------------------------------------------------------------------
  // One attempt of the request loop
  // ---------------------------------------------------------------------

  /** The `Retry-After` header of a 429: absent, an integer, or a value
      `int()` rejects (which raises inside the loop). */
  datatype RetryAfter = NoHeader | Seconds(n: int) | Malformed

  /** The body, when the response gets that far: JSON, or text on which
      `response.json()` raises. */
  datatype Body = JsonBody(value: Json) | NotJson

  datatype Reply = TransportError | Http(status: int, retryAfter: RetryAfter, body: Body)

  /** What the world does during one attempt: the reply to the request, and
      the token endpoint's reply should this attempt have to re-authenticate
      after a 401. */
  datatype Attempt = Attempt(reply: Reply, reauth: AuthReply)

  /** What the client does, in order, within one attempt. */
  datatype Event =
    | Acquire              // waits on the rate limiter
    | HumanDelay           // the random `min_request_delay`-`max_request_delay` pause
    | Send                 // issues the HTTP request
    | RetryAfterSleep(seconds: int)
    | Reauth
    | BackoffWait(attempt: nat)   // sleeps the backoff delay of this attempt number

  datatype StepOut =
    | Continue(client: Client, events: seq<Event>, backoff: nat)
    | Stop(client: Client, events: seq<Event>, payload: Option<Json>)

  /** An attempt's events start with the acquire, the pause and the send. */
  predicate Opens(ev: seq<Event>) {
    |ev| >= 3 && ev[0] == Acquire && ev[1] == HumanDelay && ev[2] == Send
  }

  /** The backoff attempt numbers slept on within `ev`, in order. */
  function WaitsIn(ev: seq<Event>): seq<nat> {
    if |ev| == 0 then []
    else WaitsIn(ev[..|ev| - 1]) + (if ev[|ev| - 1].BackoffWait? then [ev[|ev| - 1].attempt] else [])
  }

  /** A step either keeps the backoff counter and sleeps on no backoff, or
      sleeps once, on the current backoff attempt, and advances it. */
  predicate BacksOffAtMostOnce(r: StepOut, boff: nat) {
    if r.Continue? && r.backoff == boff + 1 then WaitsIn(r.events) == [boff]
    else WaitsIn(r.events) == [] && (r.Continue? ==> r.backoff == boff)
  }

  /** The events of an attempt so far, with nothing slept on a backoff yet. */
  predicate Opened(ev: seq<Event>) {
    Opens(ev) && WaitsIn(ev) == []
  }

  lemma {:induction false} NoBackoffNoWaits(ev: seq<Event>)
    requires forall k :: 0 <= k < |ev| ==> !ev[k].BackoffWait?
    ensures WaitsIn(ev) == []
  {
    if |ev| > 0 {
      NoBackoffNoWaits(ev[..|ev| - 1]);
    }
  }

  /** Appending an event that is not a backoff wait keeps an attempt open. */
  lemma OpenedExtend(ev: seq<Event>, e: Event)
    requires Opened(ev) && !e.BackoffWait?
    ensures Opened(ev + [e])
  {
    assert (ev + [e])[..|ev|] == ev;
  }

  /** Sleeps on backoff attempt `boff` and continues. */
  function BackOff(c: Client, ev: seq<Event>, boff: nat): (r: StepOut)
    requires Opened(ev)
    ensures r.Continue? && r.client == c && r.backoff == boff + 1
    ensures Opens(r.events) && BacksOffAtMostOnce(r, boff)
  {
    assert (ev + [BackoffWait(boff)])[..|ev|] == ev;
    Continue(c, ev + [BackoffWait(boff)], boff + 1)
  }

  /** The generic `except Exception` arm: counts a failure, then backs off
      and retries unless this was the last attempt. */
  function OnException(c: Client, i: nat, n: int, ev: seq<Event>, boff: nat): (r: StepOut)
    requires Opened(ev)
    ensures Opens(r.events) && BacksOffAtMostOnce(r, boff)
    ensures r.client == c.(failedRequests := c.failedRequests + 1)
    ensures r.Continue? <==> i < n - 1
    ensures r.Stop? ==> r.payload.None?
  {
    var c' := c.(failedRequests := c.failedRequests + 1);
    if i < n - 1 then BackOff(c', ev, boff) else Stop(c', ev, None)
  }

  /** The `except HTTPStatusError` arm: counts a failure; 404 and 403 come
      back as markers, 5xx backs off and retries (even on the last attempt,
      after which the loop ends), anything else gives up. */
  function OnStatusError(c: Client, status: int, ev: seq<Event>, boff: nat): (r: StepOut)
    requires Opened(ev)
    ensures Opens(r.events) && BacksOffAtMostOnce(r, boff)
    ensures r.client == c.(failedRequests := c.failedRequests + 1)
    ensures (status == 404 || status == 403) <==> r.Stop? && r.payload.Some?
    ensures r.Stop? && r.payload.Some? ==> r.payload.value == Marker(status)
    ensures r.Continue? <==> status >= 500
  {
    var c' := c.(failedRequests := c.failedRequests + 1);
    if status == 404 then Stop(c', ev, Some(Marker(404)))
    else if status == 403 then Stop(c', ev, Some(Marker(403)))
    else if status >= 500 then BackOff(c', ev, boff)
    else Stop(c', ev, None)
  }

  /** A 429: with a readable `Retry-After` (60 s when absent) it is a
      rate-limit hit, slept off and retried without a backoff; a header
      `int()` rejects raises into the generic arm instead. */
  function OnTooManyRequests(c: Client, i: nat, n: int, ra: RetryAfter, ev: seq<Event>, boff: nat): (r: StepOut)
    requires Opened(ev)
    ensures Opens(r.events) && BacksOffAtMostOnce(r, boff)
    ensures r.client.rateLimitHits == c.rateLimitHits + (if ra.Malformed? then 0 else 1)
    ensures SameRequests(r.client, c)
    ensures !ra.Malformed? ==>
              r == Continue(c.(rateLimitHits := c.rateLimitHits + 1),
                            ev + [RetryAfterSleep(if ra.Seconds? then ra.n else 60)], boff)
    ensures ra.Malformed? ==> r.client.failedRequests == c.failedRequests + 1 && (r.Stop? ==> r.payload.None?)
    ensures !ra.Malformed? ==> r.client.failedRequests == c.failedRequests
  {
    match ra
    case NoHeader =>
      OpenedExtend(ev, RetryAfterSleep(DefaultRetryAfter));
      Continue(c.(rateLimitHits := c.rateLimitHits + 1), ev + [RetryAfterSleep(DefaultRetryAfter)], boff)
    case Seconds(k) =>
      OpenedExtend(ev, RetryAfterSleep(k));
      Continue(c.(rateLimitHits := c.rateLimitHits + 1), ev + [RetryAfterSleep(k)], boff)
    case Malformed => OnException(c, i, n, ev, boff)
  }

  /** The counters other than the rate-limit hits and the failures agree. */
  predicate SameRequests(a: Client, b: Client) {
    a.totalRequests == b.totalRequests && a.diversityRequests == b.diversityRequests
  }

  /** A 401: the token is dropped and fetched again; success spends the
      attempt, an error status from the token endpoint goes through the
      status-error arm, and any other failure through the generic arm. */
  function OnUnauthorized(c: Client, i: nat, n: int, auth: AuthReply, ev: seq<Event>, boff: nat): (r: StepOut)
    requires Opened(ev)
    ensures Opens(r.events) && BacksOffAtMostOnce(r, boff)
    ensures SameRequests(r.client, c) && r.client.rateLimitHits == c.rateLimitHits
    ensures r.client.failedRequests == c.failedRequests + (if auth.TokenIssued? then 0 else 1)
    ensures auth.TokenIssued? ==>
              r.Continue? && r.backoff == boff && r.client.token == Some(auth.accessToken)
    ensures auth.TokenUnreadExpiry? ==>
              r.client.token == Some(auth.accessToken) && r.client.expires == c.expires
    ensures auth.AuthFailed? || auth.AuthStatusError? ==> r.client.token.None?
    ensures r.Stop? && r.payload.Some? ==>
              auth.AuthStatusError? && (auth.status == 404 || auth.status == 403)
              && r.payload.value == Marker(auth.status)
  {
    var a := Authenticate(c.(token := None), auth);
    OpenedExtend(ev, Reauth);
    var ev' := ev + [Reauth];
    if !a.raised then Continue(a.client, ev', boff)
    else if auth.AuthStatusError? then OnStatusError(a.client, auth.status, ev', boff)
    else OnException(a.client, i, n, ev', boff)
  }

  /** Any other status: a 302 gives up without counting a failure, an error
      status goes through the status-error arm, and otherwise the JSON body
      is the answer (a body that does not parse raises into the generic
      arm). */
  function OnResponse(c: Client, i: nat, n: int, status: int, body: Body, ev: seq<Event>, boff: nat, isError: int -> bool): (r: StepOut)
    requires Opened(ev)
    ensures Opens(r.events) && BacksOffAtMostOnce(r, boff)
    ensures SameRequests(r.client, c) && r.client.rateLimitHits == c.rateLimitHits
    ensures r.client.failedRequests <= c.failedRequests + 1
    ensures status == 302 ==> r == Stop(c, ev, None)
    ensures r.Stop? && r.payload.Some? ==>
              (status != 302 && !isError(status) && body.JsonBody? && r.payload.value == body.value)
              || (status != 302 && isError(status) && (status == 404 || status == 403)
                  && r.payload.value == Marker(status))
  {
    if status == 302 then Stop(c, ev, None)
    else if isError(status) then OnStatusError(c, status, ev, boff)
    else
      match body
      case JsonBody(v) => Stop(c, ev, Some(v))
      case NotJson => OnException(c, i, n, ev, boff)
  }

  /** The attempt drew a 429 whose `Retry-After` could be read. */
  predicate RateLimited(a: Attempt) {
    a.reply.Http? && a.reply.status == 429 && !a.reply.retryAfter.Malformed?
  }

  /** The attempt drew a non-error, non-redirect response with a JSON body. */
  predicate Succeeded(a: Attempt, isError: int -> bool) {
    a.reply.Http? && a.reply.status != 429 && a.reply.status != 401 && a.reply.status != 302
    && !isError(a.reply.status) && a.reply.body.JsonBody?
  }

  /** The attempt ended on an error status `code`, either its own or, after
      a 401, the token endpoint's. */
  predicate EndedOnStatus(a: Attempt, code: int, isError: int -> bool) {
    a.reply.Http?
    && ((a.reply.status == code && code != 429 && code != 401 && code != 302 && isError(code))
        || (a.reply.status == 401 && a.reauth == AuthStatusError(code)))
  }

  /** What a stopping attempt hands back: the JSON of a successful response,
      or the marker of a 404 or 403. */
  predicate Answers(a: Attempt, p: Json, isError: int -> bool) {
    (Succeeded(a, isError) && p == a.reply.body.value)
    || (p == Marker(404) && EndedOnStatus(a, 404, isError))
    || (p == Marker(403) && EndedOnStatus(a, 403, isError))
  }

  /** Attempt `i` of `n`. `isError` is the set of statuses on which
      `raise_for_status()` raises (it depends on the HTTP library's
      version). */
  function AttemptStep(c: Client, i: nat, n: int, a: Attempt, boff: nat, isError: int -> bool): (r: StepOut)
    ensures Opens(r.events) && BacksOffAtMostOnce(r, boff)
    ensures r.client.totalRequests == c.totalRequests + (if a.reply.Http? then 1 else 0)
    ensures r.client.diversityRequests == c.diversityRequests
    ensures r.client.rateLimitHits == c.rateLimitHits + (if RateLimited(a) then 1 else 0)
    ensures r.client.failedRequests <= c.failedRequests + 1
    ensures r.Stop? && r.payload.Some? ==> Answers(a, r.payload.value, isError)
  {
    var ev := [Acquire, HumanDelay, Send];
    NoBackoffNoWaits(ev);
    match a.reply
    case TransportError => OnException(c, i, n, ev, boff)
    case Http(status, retryAfter, body) =>
      var c1 := c.(totalRequests := c.totalRequests + 1);
      if status == 429 then OnTooManyRequests(c1, i, n, retryAfter, ev, boff)
      else if status == 401 then OnUnauthorized(c1, i, n, a.reauth, ev, boff)
      else OnResponse(c1, i, n, status, body, ev, boff, isError)
  }

  /** How one attempt reacts to each kind of reply: a 429 with a readable
      `Retry-After` is a rate-limit hit, slept off (60 s by default) and
      retried without a backoff; a 302 gives up without counting a failure;
      a 404 or 403 error ends the loop with its marker; a server error is
      counted and retried after a backoff; a transport failure is counted
      and retried unless it was the last attempt; a 401 that re-authenticates
      spends the attempt and nothing else. */
  lemma AttemptReactions(c: Client, i: nat, n: int, a: Attempt, boff: nat, isError: int -> bool)
    ensures var r := AttemptStep(c, i, n, a, boff, isError);
      RateLimited(a) ==>
        (r.Continue? && r.backoff == boff && r.client.failedRequests == c.failedRequests
         && r.events == [Acquire, HumanDelay, Send,
              RetryAfterSleep(if a.reply.retryAfter.Seconds? then a.reply.retryAfter.n else 60)])
    ensures var r := AttemptStep(c, i, n, a, boff, isError);
      a.reply.Http? && a.reply.status == 302 ==>
        r == Stop(c.(totalRequests := c.totalRequests + 1), [Acquire, HumanDelay, Send], None)
    ensures var r := AttemptStep(c, i, n, a, boff, isError);
      EndedOnStatus(a, 404, isError) || EndedOnStatus(a, 403, isError) ==>
        (r.Stop? && r.payload == Some(Marker(if EndedOnStatus(a, 404, isError) then 404 else 403))
         && r.client.failedRequests == c.failedRequests + 1)
    ensures var r := AttemptStep(c, i, n, a, boff, isError);
      a.reply.Http? && a.reply.status >= 500 && isError(a.reply.status) ==>
        (r.Continue? && r.backoff == boff + 1 && r.client.failedRequests == c.failedRequests + 1)
    ensures var r := AttemptStep(c, i, n, a, boff, isError);
      a.reply.TransportError? ==>
        (r.client.failedRequests == c.failedRequests + 1 && (r.Continue? <==> i < n - 1)
         && (r.Stop? ==> r.payload.None?))
    ensures var r := AttemptStep(c, i, n, a, boff, isError);
      a.reply.Http? && a.reply.status == 401 && a.reauth.TokenIssued? ==>
        (r.Continue? && r.client.token == Some(a.reauth.accessToken)
         && r.client.failedRequests == c.failedRequests && r.backoff == boff)
  {
  }

  // ---------------------------------------------------------------------
  // The request loop
  // ---------------------------------------------------------------------

  /** `blocks[k]` lists the events of attempt `k`; `backoff` is the
      backoff's attempt counter when the loop ends. */
  datatype LoopOut = LoopOut(client: Client, blocks: seq<seq<Event>>, payload: Option<Json>, backoff: nat)

  /** `for attempt in range(i, n)`, driven by the replies in `atts`. */
  function Loop(c: Client, i: nat, n: int, atts: seq<Attempt>, boff: nat, isError: int -> bool): (r: LoopOut)
    requires |atts| >= n && i <= |atts|
    ensures i >= n ==> |r.blocks| == 0
    ensures i < n ==> 1 <= |r.blocks| <= n - i
    ensures i + |r.blocks| <= |atts|
    ensures r.payload.Some? ==> |r.blocks| > 0
    ensures forall k :: 0 <= k < |r.blocks| ==> Opens(r.blocks[k])
    ensures r.backoff >= boff
    ensures r.client.failedRequests <= c.failedRequests + |r.blocks|
    ensures r.client.diversityRequests == c.diversityRequests
    decreases n - i, 1
  {
    if i >= n then LoopOut(c, [], None, boff)
    else LoopOn(c, i, n, atts, boff, isError, AttemptStep(c, i, n, atts[i], boff, isError))
  }

  /** The rest of the loop once attempt `i` has reacted with `s`: a stop ends
      the loop with `s`'s payload, anything else goes on to attempt `i + 1`. */
  function LoopOn(c: Client, i: nat, n: int, atts: seq<Attempt>, boff: nat, isError: int -> bool, s: StepOut): (r: LoopOut)
    requires |atts| >= n && i < n
    requires Opens(s.events) && (s.Continue? ==> s.backoff >= boff)
    requires s.client.failedRequests <= c.failedRequests + 1
    requires s.client.diversityRequests == c.diversityRequests
    ensures 1 <= |r.blocks| <= n - i
    ensures i + |r.blocks| <= |atts|
    ensures forall k :: 0 <= k < |r.blocks| ==> Opens(r.blocks[k])
    ensures r.backoff >= boff
    ensures r.client.failedRequests <= c.failedRequests + |r.blocks|
    ensures r.client.diversityRequests == c.diversityRequests
    decreases n - i, 0
  {
    if s.Stop? then LoopOut(s.client, [s.events], s.payload, boff)
    else
      var rest := Loop(s.client, i + 1, n, atts, s.backoff, isError);
      LoopCons(c, i, n, atts, boff, isError, s, rest);
      LoopOut(rest.client, [s.events] + rest.blocks, rest.payload, rest.backoff)
  }

  /** The loop's contract for a first attempt that goes on, from the
      contract of the rest of the loop. */
  lemma LoopCons(c: Client, i: nat, n: int, atts: seq<Attempt>, boff: nat, isError: int -> bool,
                 s: StepOut, rest: LoopOut)
    requires |atts| >= n && i < n && i + 1 + |rest.blocks| <= |atts|
    requires s.Continue? && Opens(s.events) && s.backoff >= boff
    requires s.client.failedRequests <= c.failedRequests + 1
    requires s.client.diversityRequests == c.diversityRequests
    requires i + 1 >= n ==> |rest.blocks| == 0
    requires i + 1 < n ==> 1 <= |rest.blocks| <= n - i - 1
    requires forall k :: 0 <= k < |rest.blocks| ==> Opens(rest.blocks[k])
    requires rest.backoff >= s.backoff
    requires rest.client.failedRequests <= s.client.failedRequests + |rest.blocks|
    requires rest.client.diversityRequests == s.client.diversityRequests
    ensures var r := LoopOut(rest.client, [s.events] + rest.blocks, rest.payload, rest.backoff);
            1 <= |r.blocks| <= n - i && i + |r.blocks| <= |atts|
            && (forall k :: 0 <= k < |r.blocks| ==> Opens(r.blocks[k]))
            && r.backoff >= boff
            && r.client.failedRequests <= c.failedRequests + |r.blocks|
            && r.client.diversityRequests == c.diversityRequests
  {
    var blocks := [s.events] + rest.blocks;
    assert forall k :: 0 < k < |blocks| ==> blocks[k] == rest.blocks[k - 1];
  }

  /** One turn of the loop: attempt `i` reacts, then the loop stops or
      goes on from attempt `i + 1`. */
  lemma LoopUnfolds(c: Client, i: nat, n: int, atts: seq<Attempt>, boff: nat, isError: int -> bool)
    requires |atts| >= n && i < n
    ensures var s := AttemptStep(c, i, n, atts[i], boff, isError);
      Loop(c, i, n, atts, boff, isError)
        == if s.Stop? then LoopOut(s.client, [s.events], s.payload, boff)
           else var rest := Loop(s.client, i + 1, n, atts, s.backoff, isError);
                LoopOut(rest.client, [s.events] + rest.blocks, rest.payload, rest.backoff)
  {
  }

  /** A payload the loop returns is the answer of its last attempt: the
      body of a successful response, or the marker of a 404 or 403. */
  lemma {:induction false} LoopAnswers(c: Client, i: nat, n: int, atts: seq<Attempt>, boff: nat, isError: int -> bool)
    requires |atts| >= n && i <= |atts|
    ensures var r := Loop(c, i, n, atts, boff, isError);
      r.payload.Some? ==> |r.blocks| > 0 && Answers(atts[i + |r.blocks| - 1], r.payload.value, isError)
    decreases n - i
  {
    if i < n {
      var s := AttemptStep(c, i, n, atts[i], boff, isError);
      LoopUnfolds(c, i, n, atts, boff, isError);
      if s.Continue? {
        LoopAnswers(s.client, i + 1, n, atts, s.backoff, isError);
      }
    }
  }

  /** The backoff attempt numbers the loop sleeps on, in order. */
  function BackoffWaits(blocks: seq<seq<Event>>): seq<nat> {
    if |blocks| == 0 then []
    else WaitsIn(blocks[0]) + BackoffWaits(blocks[1..])
  }

  /** `ws` counts up by one from `b`. */
  predicate Consecutive(ws: seq<nat>, b: nat) {
    forall j :: 0 <= j < |ws| ==> ws[j] == b + j
  }

  lemma ConsecutiveCons(ws: seq<nat>, b: nat)
    requires Consecutive(ws, b + 1)
    ensures Consecutive([b] + ws, b)
  {
  }

  /** The backoff sleeps on attempt numbers counting up from where it
      started, one per retry that backs off, and its counter ends past the
      last of them. */
  lemma {:induction false} LoopWaits(c: Client, i: nat, n: int, atts: seq<Attempt>, boff: nat, isError: int -> bool)
    requires |atts| >= n && i <= |atts|
    ensures var r := Loop(c, i, n, atts, boff, isError);
      Consecutive(BackoffWaits(r.blocks), boff) && r.backoff == boff + |BackoffWaits(r.blocks)|
    decreases n - i
  {
    if i < n {
      var s := AttemptStep(c, i, n, atts[i], boff, isError);
      LoopUnfolds(c, i, n, atts, boff, isError);
      if s.Stop? {
        assert BackoffWaits([s.events]) == WaitsIn(s.events) + BackoffWaits([]);
      } else {
        var rest := Loop(s.client, i + 1, n, atts, s.backoff, isError);
        LoopWaits(s.client, i + 1, n, atts, s.backoff, isError);
        var blocks := [s.events] + rest.blocks;
        assert blocks[1..] == rest.blocks;
        var ws := BackoffWaits(rest.blocks);
        assert BackoffWaits(blocks) == WaitsIn(s.events) + ws;
        if s.backoff == boff + 1 {
          ConsecutiveCons(ws, boff);
        }
      }
    }
  }

  /** The attempts among `atts[lo..hi]` that were rate-limit hits. */
  function CountRateLimited(atts: seq<Attempt>, lo: nat, hi: nat): nat
    requires lo <= hi <= |atts|
    decreases hi - lo
  {
    if lo == hi then 0
    else (if RateLimited(atts[lo]) then 1 else 0) + CountRateLimited(atts, lo + 1, hi)
  }

  /** The attempts among `atts[lo..hi]` that received an HTTP response. */
  function CountResponses(atts: seq<Attempt>, lo: nat, hi: nat): nat
    requires lo <= hi <= |atts|
    decreases hi - lo
  {
    if lo == hi then 0
    else (if atts[lo].reply.Http? then 1 else 0) + CountResponses(atts, lo + 1, hi)
  }

  lemma CountsStep(atts: seq<Attempt>, i: nat, hi: nat)
    requires i < hi <= |atts|
    ensures CountResponses(atts, i, hi) == (if atts[i].reply.Http? then 1 else 0) + CountResponses(atts, i + 1, hi)
    ensures CountRateLimited(atts, i, hi) == (if RateLimited(atts[i]) then 1 else 0) + CountRateLimited(atts, i + 1, hi)
    ensures i + 1 == hi ==> CountResponses(atts, i + 1, hi) == 0 && CountRateLimited(atts, i + 1, hi) == 0
  {
  }

  /** The client counts of a loop that ended with `r`, started from `c` at
      attempt `i`: the responses and the readable 429s among the attempts
      it made. */
  predicate CountsMatch(c: Client, i: nat, atts: seq<Attempt>, r: LoopOut)
    requires i + |r.blocks| <= |atts|
  {
    && r.client.totalRequests == c.totalRequests + CountResponses(atts, i, i + |r.blocks|)
    && r.client.rateLimitHits == c.rateLimitHits + CountRateLimited(atts, i, i + |r.blocks|)
  }

  /** The client counts, as requests and rate-limit hits, exactly the
      responses and the readable 429s among the attempts the loop made. */
  lemma {:induction false} LoopCounts(c: Client, i: nat, n: int, atts: seq<Attempt>, boff: nat, isError: int -> bool)
    requires |atts| >= n && i <= |atts|
    ensures CountsMatch(c, i, atts, Loop(c, i, n, atts, boff, isError))
    decreases n - i
  {
    if i >= n {
      assert Loop(c, i, n, atts, boff, isError) == LoopOut(c, [], None, boff);
    } else {
      var s := AttemptStep(c, i, n, atts[i], boff, isError);
      if s.Stop? {
        StopCounts(c, i, n, atts, boff, isError);
      } else {
        LoopCounts(s.client, i + 1, n, atts, s.backoff, isError);
        ContinueCounts(c, i, n, atts, boff, isError);
      }
    }
  }

  lemma StopCounts(c: Client, i: nat, n: int, atts: seq<Attempt>, boff: nat, isError: int -> bool)
    requires |atts| >= n && i < n
    requires AttemptStep(c, i, n, atts[i], boff, isError).Stop?
    ensures CountsMatch(c, i, atts, Loop(c, i, n, atts, boff, isError))
  {
    LoopUnfolds(c, i, n, atts, boff, isError);
    CountsStep(atts, i, i + 1);
  }

  lemma ContinueCounts(c: Client, i: nat, n: int, atts: seq<Attempt>, boff: nat, isError: int -> bool)
    requires |atts| >= n && i < n
    requires AttemptStep(c, i, n, atts[i], boff, isError).Continue?
    requires var s := AttemptStep(c, i, n, atts[i], boff, isError);
      CountsMatch(s.client, i + 1, atts, Loop(s.client, i + 1, n, atts, s.backoff, isError))
    ensures CountsMatch(c, i, atts, Loop(c, i, n, atts, boff, isError))
  {
    var s := AttemptStep(c, i, n, atts[i], boff, isError);
    var rest := Loop(s.client, i + 1, n, atts, s.backoff, isError);
    LoopUnfolds(c, i, n, atts, boff, isError);
    CountsStep(atts, i, i + 1 + |rest.blocks|);
  }

  /** Replies that always continue (a 429 with a readable header) use every
      attempt and end with `None`: exhausting the retries returns nothing. */
  lemma {:induction false} AllRateLimitedExhausts(c: Client, i: nat, n: int, atts: seq<Attempt>, boff: nat, isError: int -> bool)
    requires |atts| >= n && i <= |atts|
    requires forall k :: i <= k < n ==> RateLimited(atts[k])
    ensures var r := Loop(c, i, n, atts, boff, isError);
      r.payload.None? && |r.blocks| == (if i < n then n - i else 0)
      && r.client.rateLimitHits == c.rateLimitHits + |r.blocks|
    decreases n - i
  {
    if i < n {
      var s := AttemptStep(c, i, n, atts[i], boff, isError);
      AttemptReactions(c, i, n, atts[i], boff, isError);
      LoopUnfolds(c, i, n, atts, boff, isError);
      AllRateLimitedExhausts(s.client, i + 1, n, atts, s.backoff, isError);
    }
  }

  // ---------------------------------------------------------------------
  // _make_request
  // ---------------------------------------------------------------------

  /** The result of a request: it raised (only the up-front token refresh
      can escape), or it returned a payload or `None`. */
  datatype Outcome = Raised | Returned(payload: Option<Json>)

  datatype RequestOut = RequestOut(client: Client, outcome: Outcome, blocks: seq<seq<Event>>)

  /** One call of the request routine: refresh the token if needed, then run
      the retry loop with a fresh backoff. */
  datatype Call = Call(now: real, auth: AuthReply, attempts: seq<Attempt>)

  function MakeRequest(c: Client, maxRetries: int, call: Call, isError: int -> bool): (r: RequestOut)
    requires |call.attempts| >= maxRetries
    ensures r.outcome.Raised? <==> EnsureTokenValid(c, call.now, call.auth).raised
    ensures r.outcome.Raised? ==> r.client == EnsureTokenValid(c, call.now, call.auth).client && r.blocks == []
    ensures r.outcome.Raised? ==> SameCounters(r.client, c)
    ensures |r.blocks| <= if maxRetries < 0 then 0 else maxRetries
  {
    var a := EnsureTokenValid(c, call.now, call.auth);
    if a.raised then RequestOut(a.client, Raised, [])
    else
      var l := Loop(a.client, 0, maxRetries, call.attempts, 0, isError);
      RequestOut(l.client, Returned(l.payload), l.blocks)
  }

  /** The request routine's promises: each attempt is opened by exactly one
      acquire; the backoff delays grow from attempt 0; a returned payload is
      a 404/403 marker or the body of the last attempt, which succeeded; and
      `total_requests` counts the responses received. */
  lemma MakeRequestProperties(c: Client, maxRetries: int, call: Call, isError: int -> bool)
    requires |call.attempts| >= maxRetries
    requires !EnsureTokenValid(c, call.now, call.auth).raised
    ensures var r := MakeRequest(c, maxRetries, call, isError);
      && (forall k :: 0 <= k < |r.blocks| ==> Opens(r.blocks[k]))
      && Consecutive(BackoffWaits(r.blocks), 0)
      && |r.blocks| <= |call.attempts|
      && r.client.totalRequests == c.totalRequests + CountResponses(call.attempts, 0, |r.blocks|)
      && r.client.rateLimitHits == c.rateLimitHits + CountRateLimited(call.attempts, 0, |r.blocks|)
      && (r.outcome.payload.Some? ==>
            (|r.blocks| > 0 && Answers(call.attempts[|r.blocks| - 1], r.outcome.payload.value, isError)))
  {
    var c1 := EnsureTokenValid(c, call.now, call.auth).client;
    LoopWaits(c1, 0, maxRetries, call.attempts, 0, isError);
    LoopCounts(c1, 0, maxRetries, call.attempts, 0, isError);
    LoopAnswers(c1, 0, maxRetries, call.attempts, 0, isError);
  }

  // ---------------------------------------------------------------------
  // get_subreddit_info
  // ---------------------------------------------------------------------

  datatype Status = Active | Private | Quarantined | NotFound | Deleted | Error

  /** The status strings the database stores. */
  function StatusName(s: Status): (name: string)
    ensures |name| > 0
  {
    match s
    case Active => "active"
    case Private => "private"
    case Quarantined => "quarantined"
    case NotFound => "notfound"
    case Deleted => "deleted"
    case Error => "error"
  }

  lemma StatusNameInjective(a: Status, b: Status)
    requires StatusName(a) == StatusName(b)
    ensures a == b
  {
  }

  /** The marker status carried by a payload, if it is an object with an
      `_http_status` field equal to 404 or 403. */
  predicate HasMarker(data: Json, code: int) {
    data.JObj? && "_http_status" in data.fields && data.fields["_http_status"] == JNum(code)
  }

  /** A payload that carries a subreddit: an object whose `data` field is
      an object. */
  predicate SubredditObject(data: Json) {
    data.JObj? && "data" in data.fields && data.fields["data"].JObj?
  }

  /** The status of a subreddit object: quarantine wins over a private
      type, and anything else is active. */
  function StatusOf(sd: map<string, Json>): (s: Status)
    ensures s in {Active, Private, Quarantined}
  {
    if "quarantine" in sd && Truthy(sd["quarantine"]) then Quarantined
    else if "subreddit_type" in sd && sd["subreddit_type"] == JStr("private") then Private
    else Active
  }

  /** The classification of an `about.json` payload. Any payload of the
      wrong shape makes Python raise inside the `try`, which is also
      `error`. */
  function Classify(data: Option<Json>): (r: (Option<Json>, Status))
    ensures r.0.Some? <==> r.1 in {Active, Private, Quarantined}
    ensures r.1 == Error <==>
              !(data.Some? && (HasMarker(data.value, 404) || HasMarker(data.value, 403) || SubredditObject(data.value)))
    ensures data.Some? && SubredditObject(data.value) && !HasMarker(data.value, 404) && !HasMarker(data.value, 403) ==>
              r == (Some(data.value.fields["data"]), StatusOf(data.value.fields["data"].fields))
    ensures r.1 == NotFound <==> data.Some? && HasMarker(data.value, 404)
    ensures r.1 == Deleted <==> data.Some? && HasMarker(data.value, 403)
    ensures r.0.Some? ==>
              (data.Some? && data.value.JObj? && "data" in data.value.fields
               && r.0.value == data.value.fields["data"] && r.0.value.JObj?)
    ensures r.1 == Quarantined ==>
              ("quarantine" in r.0.value.fields && Truthy(r.0.value.fields["quarantine"]))
    ensures r.1 == Private ==>
              ("subreddit_type" in r.0.value.fields && r.0.value.fields["subreddit_type"] == JStr("private"))
  {
    match data
    case None => (None, Error)
    case Some(JObj(f)) =>
      if HasMarker(JObj(f), 404) then (None, NotFound)
      else if HasMarker(JObj(f), 403) then (None, Deleted)
      else if "data" in f then
        match f["data"]
        case JObj(sd) =>
          if "quarantine" in sd && Truthy(sd["quarantine"]) then (Some(f["data"]), Quarantined)
          else if "subreddit_type" in sd && sd["subreddit_type"] == JStr("private") then (Some(f["data"]), Private)
          else (Some(f["data"]), Active)
        case _ => (None, Error)
      else (None, Error)
    case Some(_) => (None, Error)
  }

  /** The request loop's markers are exactly what the classifier turns into
      `notfound` and `deleted`. */
  lemma MarkersClassified()
    ensures Classify(Some(Marker(404))) == (None, NotFound)
    ensures Classify(Some(Marker(403))) == (None, Deleted)
  {
    assert HasMarker(Marker(404), 404);
    assert !HasMarker(Marker(403), 404);
    assert HasMarker(Marker(403), 403);
  }

  /** A subreddit object that is neither quarantined nor private is active,
      with the object as its metadata. */
  lemma PublicIsActive(sd: map<string, Json>, extra: map<string, Json>)
    requires "_http_status" !in extra
    requires "quarantine" !in sd || !Truthy(sd["quarantine"])
    requires "subreddit_type" !in sd || sd["subreddit_type"] != JStr("private")
    ensures Classify(Some(JObj(extra[("data") := JObj(sd)]))) == (Some(JObj(sd)), Active)
  {
    var f := extra["data" := JObj(sd)];
    assert !HasMarker(JObj(f), 404) && !HasMarker(JObj(f), 403);
  }

  /** The optional "diversity" request fires with probability 0.2 when
      enabled; `coin` is the uniform draw. */
  predicate DiversityFires(enabled: bool, coin: real) {
    enabled && coin <= DiversityChance
  }

  datatype InfoOut = InfoOut(client: Client, metadata: Option<Json>, status: Status)

  /** The client after the optional diversity request: that request's
      bookkeeping, with one more diversity request counted when it did not
      raise. */
  function AfterDiversity(c: Client, diversity: Option<Call>, isError: int -> bool): (r: Client)
    requires diversity.Some? ==> |diversity.value.attempts| >= 1
    ensures diversity.None? ==> r == c
    ensures r.diversityRequests == c.diversityRequests
              + (if diversity.Some? && MakeRequest(c, 1, diversity.value, isError).outcome.Returned? then 1 else 0)
  {
    if diversity.None? then c
    else
      var d := MakeRequest(c, 1, diversity.value, isError);
      if d.outcome.Returned? then d.client.(diversityRequests := d.client.diversityRequests + 1)
      else d.client
  }

  /** `get_subreddit_info`: the optional single-attempt diversity request,
      whose result is ignored and which is counted only when it did not
      raise, then the real request with three attempts, then the
      classifier. */
  function GetSubredditInfo(c: Client, diversity: Option<Call>, call: Call, isError: int -> bool): (r: InfoOut)
    requires diversity.Some? ==> |diversity.value.attempts| >= 1
    requires |call.attempts| >= DefaultMaxRetries
    ensures r.metadata.Some? <==> r.status in {Active, Private, Quarantined}
    ensures diversity.None? && EnsureTokenValid(c, call.now, call.auth).raised ==>
              r.status == Error && r.client == EnsureTokenValid(c, call.now, call.auth).client
              && SameCounters(r.client, c)
    ensures r.client.diversityRequests == c.diversityRequests
              + (if diversity.Some? && MakeRequest(c, 1, diversity.value, isError).outcome.Returned? then 1 else 0)
    ensures var m := MakeRequest(AfterDiversity(c, diversity, isError), DefaultMaxRetries, call, isError);
            r.client == m.client
            && (m.outcome.Raised? ==> r.metadata.None? && r.status == Error)
            && (m.outcome.Returned? ==> (r.metadata, r.status) == Classify(m.outcome.payload))
  {
    var c1 := AfterDiversity(c, diversity, isError);
    var m := MakeRequest(c1, DefaultMaxRetries, call, isError);
    match m.outcome
    case Raised => InfoOut(m.client, None, Error)
    case Returned(p) =>
      var (meta, st) := Classify(p);
      InfoOut(m.client, meta, st)
  }

  /** When the subreddit request ends on a 404 error, the subreddit is
      classified `notfound`, with no metadata. */
  lemma NotFoundOnFirst404(c: Client, call: Call, isError: int -> bool)
    requires |call.attempts| >= DefaultMaxRetries
    requires !EnsureTokenValid(c, call.now, call.auth).raised
    requires call.attempts[0].reply.Http? && call.attempts[0].reply.status == 404 && isError(404)
    ensures GetSubredditInfo(c, None, call, isError) == InfoOut(
              EnsureTokenValid(c, call.now, call.auth).client.(
                totalRequests := c.totalRequests + 1, failedRequests := c.failedRequests + 1),
              None, NotFound)
  {
    MarkersClassified();
  }

  // ---------------------------------------------------------------------
  // get_thread_ids
  // ---------------------------------------------------------------------

  const PageCap: int := 100

  /** A listing child of kind `t3`: a JSON object whose `kind` is `"t3"`. */
  predicate IsPost(child: Json) {
    child.JObj? && "kind" in child.fields && child.fields["kind"] == JStr("t3")
  }

  /** A child on which the loop body raises: `post.get` on something other
      than an object, or `post['data'].get` on a post whose `data` is
      missing or is not an object. */
  predicate ChildRaises(child: Json) {
    !child.JObj? || (IsPost(child) && !("data" in child.fields && child.fields["data"].JObj?))
  }

  /** The id a child contributes: the truthy `data.id` of a post. */
  function PostId(child: Json): (id: Option<Json>)
    ensures id.Some? ==> IsPost(child) && !ChildRaises(child) && Truthy(id.value)
    ensures (IsPost(child) && !ChildRaises(child) && "id" in child.fields["data"].fields
             && Truthy(child.fields["data"].fields["id"])) ==> id == Some(child.fields["data"].fields["id"])
  {
    if IsPost(child) && "data" in child.fields && child.fields["data"].JObj?
       && "id" in child.fields["data"].fields && Truthy(child.fields["data"].fields["id"])
    then Some(child.fields["data"].fields["id"])
    else None
  }

  /** The post ids of a page's children, in page order. */
  function PostIds(children: seq<Json>): (ids: seq<Json>)
    ensures |ids| <= |children|
  {
    if |children| == 0 then []
    else
      (match PostId(children[0]) case Some(id) => [id] case None => [])
      + PostIds(children[1..])
  }

  /** Every collected id is the truthy id of some post child. */
  lemma {:induction false} PostIdsFromPosts(children: seq<Json>, k: nat)
    requires k < |PostIds(children)|
    ensures Truthy(PostIds(children)[k])
    ensures exists j :: 0 <= j < |children| && IsPost(children[j]) && PostId(children[j]) == Some(PostIds(children)[k])
  {
    var head := match PostId(children[0]) case Some(id) => [id] case None => [];
    var rest := PostIds(children[1..]);
    assert PostIds(children) == head + rest;
    if k < |head| {
      assert PostId(children[0]) == Some(PostIds(children)[k]);
    } else {
      assert PostIds(children)[k] == rest[k - |head|];
      PostIdsFromPosts(children[1..], k - |head|);
      var j :| 0 <= j < |children[1..]| && IsPost(children[1..][j])
        && PostId(children[1..][j]) == Some(rest[k - |head|]);
      assert children[j + 1] == children[1..][j];
      assert IsPost(children[j + 1]) && PostId(children[j + 1]) == Some(PostIds(children)[k]);
    }
  }

  /** Every post child with a truthy id is collected. */
  lemma {:induction false} PostsCollected(children: seq<Json>, j: nat)
    requires j < |children| && PostId(children[j]).Some?
    ensures PostId(children[j]).value in PostIds(children)
  {
    if j > 0 {
      PostsCollected(children[1..], j - 1);
      assert children[1..][j - 1] == children[j];
    }
  }

  /** What the loop body makes of one response: it breaks before taking any
      id, an exception escapes, or it reads a non-empty list of children
      none of which raises, and the `after` cursor (`null` when absent). */
  datatype Page =
    | Stops
    | Fails
    | Listing(children: seq<Json>, postIds: seq<Json>, after: Json)

  /** Python's `sub in s` on strings. */
  predicate HasSubstring(s: string, sub: string)
    decreases |s|
  {
    sub <= s || (|s| > 0 && HasSubstring(s[1..], sub))
  }

  /** One response through `if not data or 'data' not in data: break`,
      `data['data'].get('children', [])`, `if not children: break` and the
      loop over the children. A raised request fails the page; so does `in`
      on a number or `True`, indexing a string or a list that passed the
      `in` test, `.get` on a `data` that is not an object, and iterating
      children that are not a list or hold a raising child. */
  function ReadPage(o: Outcome): (p: Page)
    ensures o.Raised? ==> p.Fails?
    ensures o.Returned? && (o.payload.None? || !Truthy(o.payload.value)) ==> p.Stops?
    ensures o.Returned? && o.payload.Some? && o.payload.value.JObj? && "data" !in o.payload.value.fields ==> p.Stops?
    ensures p.Listing? ==> |p.children| > 0 && forall i :: 0 <= i < |p.children| ==> !ChildRaises(p.children[i])
    ensures p.Listing? ==> p.postIds == PostIds(p.children)
  {
    match o
    case Raised => Fails
    case Returned(None) => Stops
    case Returned(Some(d)) =>
      if !Truthy(d) then Stops
      else
        match d
        case JObj(f) => if "data" !in f then Stops else ReadListing(f["data"])
        case JArr(items) => if JStr("data") in items then Fails else Stops
        case JStr(s) => if HasSubstring(s, "data") then Fails else Stops
        case _ => Fails
  }

  /** `data['data']` of a response that has one. */
  function ReadListing(d: Json): (p: Page)
    ensures p.Listing? ==> |p.children| > 0 && forall i :: 0 <= i < |p.children| ==> !ChildRaises(p.children[i])
    ensures p.Listing? ==> p.postIds == PostIds(p.children)
  {
    match d
    case JObj(g) =>
      var children := if "children" in g then g["children"] else JArr([]);
      if !Truthy(children) then Stops
      else
        (match children
         case JArr(items) =>
           if exists i :: 0 <= i < |items| && ChildRaises(items[i]) then Fails
           else Listing(items, PostIds(items), if "after" in g then g["after"] else JNull)
         case _ => Fails)
    case _ => Fails
  }

  /** A listing object with a non-empty `children` list is read as those
      children and its cursor exactly when no child raises, and fails
      otherwise. */
  lemma ListingRead(top: map<string, Json>, g: map<string, Json>, items: seq<Json>)
    requires |items| > 0
    ensures var o := Returned(Some(JObj(top["data" := JObj(g["children" := JArr(items)])])));
            var after := if "after" in g then g["after"] else JNull;
            ReadPage(o) == if exists i :: 0 <= i < |items| && ChildRaises(items[i]) then Fails else Listing(items, PostIds(items), after)
  {
    var data := JObj(g["children" := JArr(items)]);
    var payload := JObj(top["data" := data]);
    assert Truthy(payload) by {
      assert "data" in top["data" := data];
    }
    assert ReadPage(Returned(Some(payload))) == ReadListing(data);
    assert Truthy(JArr(items));
  }

  /** The request loop's 404 and 403 markers end the pagination quietly. */
  lemma MarkerStops(code: int)
    ensures ReadPage(Returned(Some(Marker(code)))) == Stops
  {
    assert "_http_status" in Marker(code).fields;
  }

  /** The pagination result: the ids returned, or an exception that escaped
      and returned nothing; in both cases the page sizes requested. A
      returned run also says whether the given responses ran out before the
      loop ended (the source's loop has no bound of its own while pages keep
      arriving with an `after` cursor). */
  datatype Paged =
    | Collected(ids: seq<Json>, requested: seq<int>, exhausted: bool)
    | Escaped(requested: seq<int>)

  function Min(a: int, b: int): int {
    if a < b then a else b
  }

  /** A request of `size` in front of the rest of the run. */
  function Prepend(size: int, rest: Paged): Paged {
    match rest
    case Collected(ids, requested, exhausted) => Collected(ids, [size] + requested, exhausted)
    case Escaped(requested) => Escaped([size] + requested)
  }

  /** `get_thread_ids(limit)`: the responses are `pages[0]`, `pages[1]`, ...
      as the request routine returned them. */
  function ThreadIds(limit: int, responses: seq<Outcome>): Paged {
    Fetch(limit, ReadPages(responses), 0, [])
  }

  /** Each response as the loop body reads it. */
  function ReadPages(responses: seq<Outcome>): (pages: seq<Page>)
    ensures |pages| == |responses|
    ensures forall i :: 0 <= i < |responses| ==> pages[i] == ReadPage(responses[i])
  {
    seq(|responses|, i requires 0 <= i < |responses| => ReadPage(responses[i]))
  }

  /** `while len(ids) < limit` from page `k` on, with `ids` collected so far:
      ask for `min(100, limit - len(ids))`, stop where the page stops or
      after a falsy `after`, and let a failing page escape. */
  function Fetch(limit: int, pages: seq<Page>, k: nat, ids: seq<Json>): (r: Paged)
    requires k <= |pages|
    ensures r.Collected? ==> ids <= r.ids
    ensures r.Escaped? ==> |r.requested| > 0
    ensures |r.requested| <= |pages| - k
    decreases |pages| - k
  {
    if |ids| >= limit then Collected(ids, [], false)
    else if k == |pages| then Collected(ids, [], true)
    else
      var size := Min(PageCap, limit - |ids|);
      match pages[k]
      case Fails => Escaped([size])
      case Stops => Collected(ids, [size], false)
      case Listing(_, postIds, after) =>
        var ids' := ids + postIds;
        if !Truthy(after) then Collected(ids', [size], false)
        else Prepend(size, Fetch(limit, pages, k + 1, ids'))
  }

  /** The post ids a page contributes, if it is read as a listing. */
  function PageIds(p: Page): seq<Json> {
    if p.Listing? then p.postIds else []
  }

  /** The post ids of `pages[lo..hi]`, in order. */
  function IdsOfPages(pages: seq<Page>, lo: nat, hi: nat): seq<Json>
    requires lo <= hi <= |pages|
    decreases hi - lo
  {
    if lo == hi then [] else PageIds(pages[lo]) + IdsOfPages(pages, lo + 1, hi)
  }

  /** Each request, from page `k` on with `have` ids already collected, was
      made while fewer than `limit` ids were collected and asked for the
      shortfall capped at 100. */
  predicate SizedToShortfall(limit: int, pages: seq<Page>, k: nat, have: int, requested: seq<int>)
    decreases |requested|
  {
    |requested| == 0
    || (k < |pages| && have < limit && requested[0] == Min(PageCap, limit - have)
        && SizedToShortfall(limit, pages, k + 1, have + |PageIds(pages[k])|, requested[1..]))
  }

  /** The loop continues past page `k`: the page is read as a listing with a
      truthy cursor, and the limit is not reached. */
  predicate FetchGoesOn(limit: int, pages: seq<Page>, k: nat, ids: seq<Json>) {
    |ids| < limit && k < |pages| && pages[k].Listing? && Truthy(pages[k].after)
  }

  /** Page `i` is read and fails. */
  predicate FailsAt(pages: seq<Page>, i: int) {
    0 <= i < |pages| && pages[i].Fails?
  }

  /** What the pagination promises for a run from page `k` with `ids` in
      hand that ended with `r`: the requests are sized to the shortfall; a
      returned run holds the post ids of the pages read, in order; and a
      page read fails exactly when it is the last one read and the run
      escaped. */
  predicate PagedFrom(limit: int, pages: seq<Page>, k: nat, ids: seq<Json>, r: Paged) {
    && k + |r.requested| <= |pages|
    && SizedToShortfall(limit, pages, k, |ids|, r.requested)
    && (r.Collected? ==> r.ids == ids + IdsOfPages(pages, k, k + |r.requested|))
    && (r.Escaped? ==> |r.requested| > 0)
    && forall i :: k <= i < k + |r.requested| ==>
         (FailsAt(pages, i) <==> r.Escaped? && i == k + |r.requested| - 1)
  }

  /** The pages contract where the loop stops at page `k`. */
  lemma FetchPagesStops(limit: int, pages: seq<Page>, k: nat, ids: seq<Json>)
    requires k <= |pages| && !FetchGoesOn(limit, pages, k, ids)
    ensures PagedFrom(limit, pages, k, ids, Fetch(limit, pages, k, ids))
  {
    if |ids| >= limit || k == |pages| {
      assert IdsOfPages(pages, k, k) == [];
      assert ids + [] == ids;
    } else {
      var here := PageIds(pages[k]);
      assert IdsOfPages(pages, k, k + 1) == here + IdsOfPages(pages, k + 1, k + 1);
      assert IdsOfPages(pages, k + 1, k + 1) == [];
      assert here + [] == here;
    }
  }

  /** One more page read as a listing in front of a run keeps the promise. */
  lemma PagedFromCons(limit: int, pages: seq<Page>, k: nat, ids: seq<Json>, rest: Paged)
    requires k < |pages| && |ids| < limit && pages[k].Listing?
    requires PagedFrom(limit, pages, k + 1, ids + PageIds(pages[k]), rest)
    ensures PagedFrom(limit, pages, k, ids, Prepend(Min(PageCap, limit - |ids|), rest))
  {
    match rest
    case Collected(all, requested, exhausted) =>
      ConsCollected(limit, pages, k, ids, all, requested, exhausted);
    case Escaped(requested) =>
      ConsEscaped(limit, pages, k, ids, requested);
  }

  lemma ConsCollected(limit: int, pages: seq<Page>, k: nat, ids: seq<Json>,
                      all: seq<Json>, requested: seq<int>, exhausted: bool)
    requires k < |pages| && |ids| < limit && !FailsAt(pages, k)
    requires PagedFrom(limit, pages, k + 1, ids + PageIds(pages[k]), Collected(all, requested, exhausted))
    ensures PagedFrom(limit, pages, k, ids, Collected(all, [Min(PageCap, limit - |ids|)] + requested, exhausted))
  {
    var r := Collected(all, [Min(PageCap, limit - |ids|)] + requested, exhausted);
    var m := |requested|;
    assert |r.requested| == 1 + m && k + 1 + m <= |pages|;
    assert SizedToShortfall(limit, pages, k, |ids|, r.requested) by {
      ConsSized(limit, pages, k, ids, requested);
    }
    assert r.ids == ids + IdsOfPages(pages, k, k + 1 + m) by {
      ConsIds(pages, k, ids, all, m);
    }
    assert forall i :: k <= i < k + 1 + m ==> !FailsAt(pages, i) by {
      ConsFails(pages, k, m, false);
    }
    CollectedPaged(limit, pages, k, ids, r);
  }

  /** The pages contract for a run that returned: no page it read failed. */
  lemma CollectedPaged(limit: int, pages: seq<Page>, k: nat, ids: seq<Json>, r: Paged)
    requires r.Collected? && k + |r.requested| <= |pages|
    requires SizedToShortfall(limit, pages, k, |ids|, r.requested)
    requires r.ids == ids + IdsOfPages(pages, k, k + |r.requested|)
    requires forall i :: k <= i < k + |r.requested| ==> !FailsAt(pages, i)
    ensures PagedFrom(limit, pages, k, ids, r)
  {
  }

  lemma ConsEscaped(limit: int, pages: seq<Page>, k: nat, ids: seq<Json>, requested: seq<int>)
    requires k < |pages| && |ids| < limit && !FailsAt(pages, k)
    requires PagedFrom(limit, pages, k + 1, ids + PageIds(pages[k]), Escaped(requested))
    ensures PagedFrom(limit, pages, k, ids, Escaped([Min(PageCap, limit - |ids|)] + requested))
  {
    ConsSized(limit, pages, k, ids, requested);
    ConsFails(pages, k, |requested|, true);
  }

  lemma ConsSized(limit: int, pages: seq<Page>, k: nat, ids: seq<Json>, requested: seq<int>)
    requires k < |pages| && |ids| < limit
    requires SizedToShortfall(limit, pages, k + 1, |ids + PageIds(pages[k])|, requested)
    ensures SizedToShortfall(limit, pages, k, |ids|, [Min(PageCap, limit - |ids|)] + requested)
  {
    assert |ids + PageIds(pages[k])| == |ids| + |PageIds(pages[k])|;
    assert ([Min(PageCap, limit - |ids|)] + requested)[1..] == requested;
  }

  lemma ConsIds(pages: seq<Page>, k: nat, ids: seq<Json>, all: seq<Json>, m: nat)
    requires k + 1 + m <= |pages|
    requires all == (ids + PageIds(pages[k])) + IdsOfPages(pages, k + 1, k + 1 + m)
    ensures all == ids + IdsOfPages(pages, k, k + 1 + m)
  {
    var here := PageIds(pages[k]);
    var later := IdsOfPages(pages, k + 1, k + 1 + m);
    assert IdsOfPages(pages, k, k + 1 + m) == here + later;
    Regroup(ids, here, later);
  }

  lemma Regroup<T>(a: seq<T>, b: seq<T>, c: seq<T>)
    ensures (a + b) + c == a + (b + c)
  {
  }

  lemma ConsFails(pages: seq<Page>, k: nat, m: nat, escaped: bool)
    requires k + 1 + m <= |pages| && !FailsAt(pages, k)
    requires escaped ==> m > 0
    requires forall i :: k + 1 <= i < k + 1 + m ==> (FailsAt(pages, i) <==> escaped && i == k + 1 + m - 1)
    ensures forall i :: k <= i < k + 1 + m ==> (FailsAt(pages, i) <==> escaped && i == k + 1 + m - 1)
  {
  }

  /** Each page asks for exactly the shortfall, capped at 100, and only
      while the limit is not yet reached; a returned run holds the post ids
      of the pages read, in order, after the ones already held; a run
      escapes exactly when the last page it read fails. */
  lemma {:induction false} FetchPages(limit: int, pages: seq<Page>, k: nat, ids: seq<Json>)
    requires k <= |pages|
    ensures PagedFrom(limit, pages, k, ids, Fetch(limit, pages, k, ids))
    decreases |pages| - k
  {
    if !FetchGoesOn(limit, pages, k, ids) {
      FetchPagesStops(limit, pages, k, ids);
    } else {
      var here := PageIds(pages[k]);
      FetchPages(limit, pages, k + 1, ids + here);
      var rest := Fetch(limit, pages, k + 1, ids + here);
      PagedFromCons(limit, pages, k, ids, rest);
      assert Fetch(limit, pages, k, ids) == Prepend(Min(PageCap, limit - |ids|), rest);
    }
  }

  /** `get_thread_ids` asks each time for the shortfall capped at 100; it
      returns the post ids of the pages it read, in order, unless the last
      page it read failed, in which case the exception escapes and nothing
      is returned; no earlier page failed. */
  lemma ThreadIdsPages(limit: int, responses: seq<Outcome>)
    ensures var r := ThreadIds(limit, responses);
      var pages := ReadPages(responses);
      |r.requested| <= |responses| && SizedToShortfall(limit, pages, 0, 0, r.requested)
      && (r.Collected? ==> r.ids == IdsOfPages(pages, 0, |r.requested|))
      && (r.Escaped? ==> |r.requested| > 0)
      && forall i :: 0 <= i < |r.requested| ==>
           (ReadPage(responses[i]).Fails? <==> r.Escaped? && i == |r.requested| - 1)
  {
    var pages := ReadPages(responses);
    FetchPages(limit, pages, 0, []);
    forall i | 0 <= i < |responses|
      ensures FailsAt(pages, i) <==> ReadPage(responses[i]).Fails?
    {
    }
  }

  /** A failed token refresh on the first request escapes with nothing
      collected. */
  lemma RefreshFailureEscapes(limit: int, rest: seq<Outcome>)
    requires limit > 0
    ensures ThreadIds(limit, [Raised] + rest) == Escaped([Min(PageCap, limit)])
  {
    assert ReadPages([Raised] + rest)[0] == Fails;
  }

  /** A run that returned on its own (not for want of responses) stopped on
      a page that breaks, on a falsy cursor, or because it had the ids it
      wanted. */
  lemma {:induction false} FetchStops(limit: int, pages: seq<Page>, k: nat, ids: seq<Json>)
    requires k <= |pages| && |ids| < limit
    ensures var r := Fetch(limit, pages, k, ids);
      r.Collected? && !r.exhausted && |r.requested| > 0 ==>
        (var last := pages[k + |r.requested| - 1];
         last.Stops? || (last.Listing? && (!Truthy(last.after) || |r.ids| >= limit)))
    decreases |pages| - k
  {
    if k < |pages| && pages[k].Listing? {
      var Listing(_, postIds, after) := pages[k];
      var ids' := ids + postIds;
      if Truthy(after) && |ids'| < limit {
        FetchStops(limit, pages, k + 1, ids');
      }
    }
  }

  // ---------------------------------------------------------------------
  // get_stats
  // ---------------------------------------------------------------------

  datatype ClientStats = ClientStats(totalRequests: nat, failedRequests: nat, rateLimitHits: nat,
                                     diversityRequests: nat, successRate: real)

  /** The four counters, and the share of requests that did not fail (0
      before the first request). */
  function GetStats(c: Client): (s: ClientStats)
    ensures s.totalRequests == c.totalRequests && s.failedRequests == c.failedRequests
    ensures s.rateLimitHits == c.rateLimitHits && s.diversityRequests == c.diversityRequests
    ensures c.totalRequests == 0 ==> s.successRate == 0.0
    ensures c.totalRequests > 0 ==>
              s.successRate * (c.totalRequests as real) == (c.totalRequests - c.failedRequests) as real
  {
    var rate := if c.totalRequests > 0
                then (c.totalRequests - c.failedRequests) as real / c.totalRequests as real
                else 0.0;
    ClientStats(c.totalRequests, c.failedRequests, c.rateLimitHits, c.diversityRequests, rate)
  }
}

=== FILE: scanner.dfy ===
/** The orchestrator's decisions in refresh mode: how one subreddit's
    classification turns into store writes and counter changes, when the
    run stops itself, and the "popular, random, popular, random" order the
    refresh list is visited in. Sleeping, logging and progress output are
    left out; the classification, the client's rate-limit count and the
    arrival of a shutdown signal are inputs. */
module Scanner {
  import opened Wrappers
  import opened Text
  import opened JsonValue
  import opened Store
  import RC = RedditClient

  // ---------------------------------------------------------------------
  // Error tracking
  // ---------------------------------------------------------------------

  /** The recent-success list holds only `True`s, so its length is all it
      records; it keeps the last ten. */
  const RecentSuccessWindow: nat := 10

  /** `_track_success`: append, then drop the oldest beyond the window. */
  function TrackSuccess(recent: nat): (r: nat)
    ensures recent < RecentSuccessWindow ==> r == recent + 1
    ensures recent >= RecentSuccessWindow ==> r == recent
  {
    if recent + 1 > RecentSuccessWindow then recent + 1 - 1 else recent + 1
  }

  function TrackSuccesses(recent: nat, n: nat): nat {
    if n == 0 then recent else TrackSuccess(TrackSuccesses(recent, n - 1))
  }

  /** From an empty list, `n` successes leave `min(n, 10)` entries. */
  lemma {:induction false} TrackSuccessesWindow(n: nat)
    ensures TrackSuccesses(0, n) == if n < RecentSuccessWindow then n else RecentSuccessWindow
  {
    if n > 0 {
      TrackSuccessesWindow(n - 1);
    }
  }

  /** The two auto-termination thresholds. */
  datatype Limits = Limits(max403: int, max429: int)

  const DefaultLimits: Limits := Limits(10, 3)

  /** The run-wide counters of the scanner. */
  datatype Counters = Counters(consecutive403: int, processed: nat, failed: nat)

  /** `_check_error_thresholds`, after it copies the client's rate-limit
      count: stop on too many 403s in a row or too many 429s in all. */
  predicate Trips(consecutive403: int, rateLimitHits: nat, lim: Limits) {
    consecutive403 >= lim.max403 || rateLimitHits >= lim.max429
  }

  // ---------------------------------------------------------------------
  // process_subreddit
  // ---------------------------------------------------------------------

  /** What `get_subreddit_info` handed back: its pair, or an exception. The
      metadata, when present, is the subreddit object. */
  datatype Fetched = Raised(message: string) | Info(metadata: Option<map<string, Json>>, status: RC.Status)

  /** The clock reading and HTML unescaping the store writes use. */
  datatype Ctx = Ctx(now: int, unescape: string -> string)

  datatype ItemOut = ItemOut(db: Db, counters: Counters, ok: bool)

  /** `DELETE FROM subreddits WHERE name = ?`, with the name as given. */
  function Delete(db: Db, name: string): (r: Db)
    ensures r.Keys == db.Keys - {name}
    ensures forall k :: k in r ==> r[k] == db[k]
  {
    db - {name}
  }

  /** `UPDATE subreddits SET retry_count = ? WHERE name = ?`, with the name
      as given. */
  function SetRetryCount(db: Db, name: string, n: int): (r: Db)
    ensures r.Keys == db.Keys
    ensures forall k :: k in db && k != name ==> r[k] == db[k]
    ensures name in db ==> r[name] == db[name].(retryCount := n)
  {
    if name in db then db[name := db[name].(retryCount := n)] else db
  }

  /** `metadata and metadata.get('subreddit_type') == 'user'`. */
  predicate UserProfile(md: Option<map<string, Json>>) {
    md.Some? && |md.value| > 0 && "subreddit_type" in md.value && md.value["subreddit_type"] == JStr("user")
  }

  /** `status == 'active' and metadata`. */
  predicate ActiveWithMetadata(f: Fetched) {
    f.Info? && f.status == RC.Active && f.metadata.Some? && |f.metadata.value| > 0
  }

  /** `metadata.get('subscribers', 0) or 0`. */
  function ShownSubscribers(md: map<string, Json>): Json {
    var v := Get(md, "subscribers", JNum(0));
    if Truthy(v) then v else JNum(0)
  }

  /** The exception `f"{subscribers:>12,}"` raises: a `,` format is
      defined for numbers (booleans included) only. */
  function FormatError(v: Json): Option<string> {
    match v
    case JStr(_) => Some("Cannot specify ',' with 's'.")
    case JArr(_) => Some("unsupported format string passed to list.__format__")
    case JObj(_) => Some("unsupported format string passed to dict.__format__")
    case _ => None
  }

  /** The `except` branch: status `error` with the exception's message,
      one more failure, `False`. */
  function Failed(db: Db, c: Counters, name: string, message: string): (r: ItemOut)
    ensures !r.ok && r.counters == c.(failed := c.failed + 1)
  {
    ItemOut(UpdateSubreddit(db, name, "error", Some(message), None), c.(failed := c.failed + 1), false)
  }

  /** The active branch after the first write: metadata, `active` with
      the collected flag, a zero retry count, one more processed; then the
      log line, which can still raise. */
  function OnActive(db: Db, c: Counters, name: string, md: map<string, Json>, ctx: Ctx): (r: ItemOut)
    ensures r.counters.processed == c.processed + 1
    ensures r.counters.consecutive403 == 0
    ensures r.ok <==> FormatError(ShownSubscribers(md)).None?
    ensures r.counters.failed == c.failed + (if r.ok then 0 else 1)
  {
    var db1 := UpdateSubredditMetadata(db, name, md, ctx.now, ctx.unescape).0;
    var db2 := UpdateSubreddit(db1, name, "active", None, Some(true));
    var db3 := SetRetryCount(db2, name, 0);
    var c1 := c.(consecutive403 := 0, processed := c.processed + 1);
    match FormatError(ShownSubscribers(md))
    case Some(m) => Failed(db3, c1, name, m)
    case None => ItemOut(db3, c1, true)
  }

  /** A 403: one more in a row and one more retry; the third removes the
      row and clears the run of 403s, otherwise the count is stored and the
      row keeps status `processing`. */
  function OnForbidden(db: Db, c: Counters, name: string): (r: ItemOut)
    ensures r.ok && r.counters.processed == c.processed && r.counters.failed == c.failed
  {
    var retry := (if name in db then db[name].retryCount else 0) + 1;
    if retry >= 3 then ItemOut(Delete(db, name), c.(consecutive403 := 0), true)
    else ItemOut(SetRetryCount(db, name, retry), c.(consecutive403 := c.consecutive403 + 1), true)
  }

  /** Any other classification: the status is recorded with its message and
      the collected flag, and the retry count is cleared. */
  function OnOtherStatus(db: Db, c: Counters, name: string, status: RC.Status): (r: ItemOut)
    ensures r.ok && r.counters == c.(consecutive403 := 0)
  {
    var s := RC.StatusName(status);
    var db1 := UpdateSubredditStatus(db, name, s, None);
    var db2 := UpdateSubreddit(db1, name, s, Some("Status: " + s), Some(true));
    ItemOut(SetRetryCount(db2, name, 0), c.(consecutive403 := 0), true)
  }

  /** `process_subreddit`. The row is first marked `processing`; the rows of
      other subreddits are never touched, the row itself is at most
      deleted, at most one of `processed` and `failed` goes up, and the
      result is `False` exactly when something raised. */
  function ProcessSubreddit(db: Db, c: Counters, name: string, fetched: Fetched, ctx: Ctx): (r: ItemOut)
    ensures r.db.Keys <= db.Keys && db.Keys - {name, Key(name)} <= r.db.Keys
    ensures forall k :: k in db && k != name && k != Key(name) ==> r.db[k] == db[k]
    ensures r.ok <==> !fetched.Raised? && !(ActiveWithMetadata(fetched) && !UserProfile(fetched.metadata)
                                           && FormatError(ShownSubscribers(fetched.metadata.value)).Some?)
    ensures r.counters.failed == c.failed + (if r.ok then 0 else 1)
    ensures r.counters.processed == c.processed + (if ActiveWithMetadata(fetched) && !UserProfile(fetched.metadata) then 1 else 0)
  {
    var db0 := UpdateSubreddit(db, name, "processing", None, None);
    match fetched
    case Raised(m) => Failed(db0, c, name, m)
    case Info(md, status) =>
      if UserProfile(md) then ItemOut(Delete(db0, name), c, true)
      else if ActiveWithMetadata(fetched) then OnActive(db0, c, name, md.value, ctx)
      else if status == RC.NotFound then ItemOut(Delete(db0, name), c.(consecutive403 := 0), true)
      else if status == RC.Deleted then OnForbidden(db0, c, name)
      else OnOtherStatus(db0, c, name, status)
  }

  /** A name as the store keeps it: already lower case, so the writes that
      lower-case it and the statements that use it verbatim hit the same
      row. */
  predicate Stored(db: Db, name: string) {
    name in db && IsLowerCase(name)
  }

  lemma StoredKey(name: string)
    requires IsLowerCase(name)
    ensures Key(name) == name
  {
    LowerOfLowerCase(name);
  }

  /** A user profile is deleted; the counters are untouched and the result
      is `True`. */
  lemma ProcessUserProfile(db: Db, c: Counters, name: string, md: map<string, Json>, status: RC.Status, ctx: Ctx)
    requires Stored(db, name) && UserProfile(Some(md))
    ensures var r := ProcessSubreddit(db, c, name, Info(Some(md), status), ctx);
            name !in r.db && r.counters == c && r.ok
  {
    StoredKey(name);
  }

  /** Active with metadata and a printable subscriber count: the row is
      active, collected, without a message, with a zero retry count; the
      run of 403s is cleared and one more subreddit is processed. */
  lemma ProcessActive(db: Db, c: Counters, name: string, md: map<string, Json>, ctx: Ctx)
    requires Stored(db, name) && |md| > 0 && !UserProfile(Some(md))
    requires FormatError(ShownSubscribers(md)).None?
    ensures var r := ProcessSubreddit(db, c, name, Info(Some(md), RC.Active), ctx);
            name in r.db && r.db[name].status == "active" && r.db[name].collected
            && r.db[name].retryCount == 0 && r.db[name].errorMessage == None
            && r.counters == c.(consecutive403 := 0, processed := c.processed + 1) && r.ok
  {
    StoredKey(name);
  }

  /** `notfound` deletes the row whatever its retry count and clears the
      run of 403s. */
  lemma ProcessNotFound(db: Db, c: Counters, name: string, ctx: Ctx)
    requires Stored(db, name)
    ensures var r := ProcessSubreddit(db, c, name, Info(None, RC.NotFound), ctx);
            name !in r.db && r.counters == c.(consecutive403 := 0) && r.ok
  {
    StoredKey(name);
  }

  /** `deleted` adds one to the run of 403s and to the retry count. When the
      count reaches three the row goes and the run is cleared; otherwise
      the count is stored and the row stays `processing`, which the
      refresh query never selects again. */
  lemma ProcessForbidden(db: Db, c: Counters, name: string, ctx: Ctx)
    requires Stored(db, name)
    ensures var r := ProcessSubreddit(db, c, name, Info(None, RC.Deleted), ctx);
            var retry := db[name].retryCount + 1;
            r.ok
            && (retry >= 3 ==> name !in r.db && r.counters == c.(consecutive403 := 0))
            && (retry < 3 ==> name in r.db && r.db[name].retryCount == retry
                              && r.db[name].status == "processing"
                              && r.counters == c.(consecutive403 := c.consecutive403 + 1)
                              && !Due(r.db[name], 0, false))
  {
    StoredKey(name);
  }

  /** Any other classification is recorded as the status, with the message
      `Status: <status>`, the collected flag set, a zero retry count and
      the run of 403s cleared. */
  lemma ProcessOtherStatus(db: Db, c: Counters, name: string, md: Option<map<string, Json>>, status: RC.Status, ctx: Ctx)
    requires Stored(db, name) && !UserProfile(md)
    requires !ActiveWithMetadata(Info(md, status)) && status != RC.NotFound && status != RC.Deleted
    ensures var r := ProcessSubreddit(db, c, name, Info(md, status), ctx);
            var s := RC.StatusName(status);
            name in r.db && r.db[name].status == s && r.db[name].errorMessage == Some("Status: " + s)
            && r.db[name].collected && r.db[name].retryCount == 0
            && (r.db[name].accessible <==> status == RC.Active)
            && r.counters == c.(consecutive403 := 0) && r.ok
  {
    StoredKey(name);
  }

  /** An exception from `get_subreddit_info` leaves the row as it was
      before the call except for status `error` and the exception's message
      (the `processing` mark in between is overwritten); no other row
      changes, one failure is counted and the result is `False`. */
  lemma ProcessRaised(db: Db, c: Counters, name: string, message: string, ctx: Ctx)
    requires Stored(db, name)
    ensures var r := ProcessSubreddit(db, c, name, Raised(message), ctx);
            OnlyRowChanged(db, r.db, name)
            && r.db[name] == db[name].(status := "error", errorMessage := Some(message))
            && r.counters == c.(failed := c.failed + 1) && !r.ok
  {
    StoredKey(name);
  }

  // ---------------------------------------------------------------------
  // The refresh loop of run()
  // ---------------------------------------------------------------------

  /** One visit of the loop: what `get_subreddit_info` returned, and the
      client's rate-limit count afterwards. */
  datatype Item = Item(fetched: Fetched, hitsAfter: nat)

  datatype Scan = Scan(db: Db, counters: Counters, hits: nat)

  /** Where the loop ended: the state, how many subreddits were handed to
      `process_subreddit`, and whether a threshold stopped it. */
  datatype LoopEnd = LoopEnd(scan: Scan, done: nat, tripped: bool)

  /** The `for` loop of `run()` from position `idx`. `signal` is the first
      position whose top-of-loop check sees a shutdown request. The
      thresholds are checked before and after every subreddit. */
  function RefreshLoop(s: Scan, names: seq<string>, items: nat -> Item, idx: nat, signal: nat, lim: Limits, ctx: Ctx): (r: LoopEnd)
    requires idx <= |names|
    ensures idx <= r.done <= |names|
    ensures r.done == idx || r.done <= signal
    ensures r.done < |names| && r.done < signal ==> r.tripped
    ensures r.tripped ==> Trips(r.scan.counters.consecutive403, r.scan.hits, lim)
    ensures r.scan.counters.processed <= s.counters.processed + (r.done - idx)
    ensures r.scan.counters.failed <= s.counters.failed + (r.done - idx)
    decreases |names| - idx
  {
    if idx == |names| || idx >= signal then LoopEnd(s, idx, false)
    else if Trips(s.counters.consecutive403, s.hits, lim) then LoopEnd(s, idx, true)
    else
      var out := ProcessSubreddit(s.db, s.counters, names[idx], items(idx).fetched, ctx);
      var next := Scan(out.db, out.counters, items(idx).hitsAfter);
      if Trips(next.counters.consecutive403, next.hits, lim) then LoopEnd(next, idx + 1, true)
      else RefreshLoop(next, names, items, idx + 1, signal, lim, ctx)
  }

  /** Once a threshold has tripped, the loop hands nothing more to
      `process_subreddit`. */
  lemma TrippedProcessesNothing(s: Scan, names: seq<string>, items: nat -> Item, idx: nat, signal: nat, lim: Limits, ctx: Ctx)
    requires idx <= |names|
    requires Trips(s.counters.consecutive403, s.hits, lim)
    ensures RefreshLoop(s, names, items, idx, signal, lim, ctx).done == idx
    ensures RefreshLoop(s, names, items, idx, signal, lim, ctx).scan == s
  {
  }

  /** One turn of the loop, for proofs that follow it step by step. */
  lemma LoopStep(s: Scan, names: seq<string>, items: nat -> Item, idx: nat, signal: nat, lim: Limits, ctx: Ctx)
    returns (next: Scan)
    requires idx < |names| && idx < signal && !Trips(s.counters.consecutive403, s.hits, lim)
    ensures var out := ProcessSubreddit(s.db, s.counters, names[idx], items(idx).fetched, ctx);
            next == Scan(out.db, out.counters, items(idx).hitsAfter)
    ensures RefreshLoop(s, names, items, idx, signal, lim, ctx)
            == if Trips(next.counters.consecutive403, next.hits, lim) then LoopEnd(next, idx + 1, true)
               else RefreshLoop(next, names, items, idx + 1, signal, lim, ctx)
  {
    var out := ProcessSubreddit(s.db, s.counters, names[idx], items(idx).fetched, ctx);
    next := Scan(out.db, out.counters, items(idx).hitsAfter);
  }

  /** The conditions of a run of 403s from position `idx` on: every
      subreddit still to visit answers `deleted` with the 429 count
      unchanged and below its limit, and each is a distinct stored name on
      its first retry. */
  predicate ForbiddenRun(s: Scan, names: seq<string>, items: nat -> Item, idx: nat, lim: Limits) {
    idx <= |names|
    && s.counters.consecutive403 >= 0 && s.hits < lim.max429
    && (forall k :: idx <= k < |names| ==> items(k) == Item(Info(None, RC.Deleted), s.hits))
    && (forall k :: idx <= k < |names| ==> Stored(s.db, names[k]) && s.db[names[k]].retryCount == 0)
    && (forall j, k :: idx <= j < k < |names| ==> names[j] != names[k])
  }

  /** A run of 403s: under `ForbiddenRun` the run of 403s grows by one per
      subreddit, so the loop stops after at most `max403 -
      consecutive403` of them. */
  lemma {:induction false} ForbiddenRunStops(s: Scan, names: seq<string>, items: nat -> Item, idx: nat, signal: nat, lim: Limits, ctx: Ctx)
    requires ForbiddenRun(s, names, items, idx, lim)
    ensures var r := RefreshLoop(s, names, items, idx, signal, lim, ctx);
            r.done - idx <= if lim.max403 > s.counters.consecutive403 then lim.max403 - s.counters.consecutive403 else 0
    decreases |names| - idx, 1
  {
    if idx < |names| && idx < signal && !Trips(s.counters.consecutive403, s.hits, lim) {
      ForbiddenRunContinues(s, names, items, idx, signal, lim, ctx);
    } else {
      LoopStops(s, names, items, idx, signal, lim, ctx);
    }
  }

  /** The inductive step of `ForbiddenRunStops`: a subreddit is visited. */
  lemma {:induction false} ForbiddenRunContinues(s: Scan, names: seq<string>, items: nat -> Item, idx: nat, signal: nat, lim: Limits, ctx: Ctx)
    requires ForbiddenRun(s, names, items, idx, lim)
    requires idx < |names| && idx < signal && !Trips(s.counters.consecutive403, s.hits, lim)
    ensures var r := RefreshLoop(s, names, items, idx, signal, lim, ctx);
            r.done - idx <= lim.max403 - s.counters.consecutive403
    decreases |names| - idx, 0
  {
    var next := ForbiddenStep(s, names, items, idx, signal, lim, ctx);
    if !Trips(next.counters.consecutive403, next.hits, lim) {
      ForbiddenRunStops(next, names, items, idx + 1, signal, lim, ctx);
    }
  }

  /** One `deleted` answer within a run of 403s: the run grows by one, and
      the rest of the list is still such a run. */
  lemma ForbiddenStep(s: Scan, names: seq<string>, items: nat -> Item, idx: nat, signal: nat, lim: Limits, ctx: Ctx)
    returns (next: Scan)
    requires ForbiddenRun(s, names, items, idx, lim)
    requires idx < |names| && idx < signal && !Trips(s.counters.consecutive403, s.hits, lim)
    ensures next.counters.consecutive403 == s.counters.consecutive403 + 1 && next.hits == s.hits
    ensures ForbiddenRun(next, names, items, idx + 1, lim)
    ensures RefreshLoop(s, names, items, idx, signal, lim, ctx).done
            == if Trips(next.counters.consecutive403, next.hits, lim) then idx + 1
               else RefreshLoop(next, names, items, idx + 1, signal, lim, ctx).done
  {
    var name := names[idx];
    ProcessForbidden(s.db, s.counters, name, ctx);
    next := LoopStep(s, names, items, idx, signal, lim, ctx);
    StoredKey(name);
    FreshRowsKept(s.db, next.db, names, idx, name);
  }

  /** At the end of the list, at a shutdown request or with a threshold
      already reached, the loop hands nothing more to `process_subreddit`. */
  lemma LoopStops(s: Scan, names: seq<string>, items: nat -> Item, idx: nat, signal: nat, lim: Limits, ctx: Ctx)
    requires idx <= |names|
    requires idx == |names| || idx >= signal || Trips(s.counters.consecutive403, s.hits, lim)
    ensures RefreshLoop(s, names, items, idx, signal, lim, ctx).done == idx
  {
  }

  /** Rows other than the one just handled are as they were. */
  lemma FreshRowsKept(db: Db, out: Db, names: seq<string>, idx: nat, name: string)
    requires forall k :: k in db && k != name ==> k in out && out[k] == db[k]
    requires forall k :: idx < k < |names| ==> Stored(db, names[k]) && db[names[k]].retryCount == 0 && names[k] != name
    ensures forall k :: idx < k < |names| ==> Stored(out, names[k]) && out[names[k]].retryCount == 0
  {
  }

  // ---------------------------------------------------------------------
  // _interleave_with_random
  // ---------------------------------------------------------------------

  /** `x` is the first element of `xs` not already in `used`. */
  predicate EarliestUnused(xs: seq<string>, used: seq<string>, x: string) {
    exists j :: 0 <= j < |xs| && xs[j] == x && x !in used && forall i :: 0 <= i < j ==> xs[i] in used
  }

  /** Every even position of `r` holds the earliest element of `xs` not
      used before it. */
  predicate EvenPicks(xs: seq<string>, r: seq<string>) {
    forall p :: 0 <= p < |r| && p % 2 == 0 ==> EarliestUnused(xs, r[..p], r[p])
  }

  /** The state the interleaving loop keeps: `remaining` is what is not yet
      placed, nothing is placed twice, and everything before the ordered
      cursor is placed. */
  ghost predicate Progress(xs: seq<string>, r: seq<string>, remaining: set<string>, idx: nat) {
    idx <= |xs|
    && (forall x :: x in remaining <==> x in xs && x !in r)
    && Distinct(r) && (forall x :: x in r ==> x in xs)
    && (forall i :: 0 <= i < idx ==> xs[i] in r)
    && EvenPicks(xs, r)
  }

  /** `_interleave_with_random`. Lists of at most two come back as they
      are. Otherwise every distinct element appears exactly once, and each
      even position holds the earliest input element not yet used; the
      odd positions are the random picks (any unused element). */
  method Interleave(xs: seq<string>) returns (r: seq<string>)
    ensures |xs| <= 2 ==> r == xs
    ensures |xs| > 2 ==> Distinct(r) && forall x :: x in r <==> x in xs
    ensures |xs| > 2 ==> EvenPicks(xs, r)
  {
    if |xs| <= 2 {
      return xs;
    }
    r := [];
    var remaining := set x | x in xs;
    var idx := 0;
    while remaining != {}
      invariant Progress(xs, r, remaining, idx) && |r| % 2 == 0
      decreases |remaining|
    {
      r, remaining, idx := PickOrdered(xs, r, remaining, idx);
      if remaining == {} {
        break;
      }
      r, remaining := PickRandom(xs, r, remaining, idx);
    }
  }

  /** The popular pick: the element under the ordered cursor when it is
      still unused, otherwise the next unused one after skipping. */
  method PickOrdered(xs: seq<string>, r: seq<string>, remaining: set<string>, idx: nat)
    returns (r': seq<string>, remaining': set<string>, idx': nat)
    requires Progress(xs, r, remaining, idx) && |r| % 2 == 0 && remaining != {}
    ensures Progress(xs, r', remaining', idx') && |r'| == |r| + 1 && |remaining'| < |remaining|
  {
    var j := SkipUsed(xs, r, remaining, idx);
    r' := r + [xs[j]];
    remaining' := remaining - {xs[j]};
    assert r'[..|r|] == r;
    assert EarliestUnused(xs, r'[..|r|], r'[|r|]);
    assert forall p :: 0 <= p < |r| ==> r'[..p] == r[..p] && r'[p] == r[p];
    idx' := j + 1;
  }

  /** The `while` that moves the ordered cursor past elements already
      placed. */
  method SkipUsed(xs: seq<string>, r: seq<string>, remaining: set<string>, idx: nat) returns (j: nat)
    requires Progress(xs, r, remaining, idx) && remaining != {}
    ensures idx <= j < |xs| && xs[j] in remaining
    ensures forall i :: 0 <= i < j ==> xs[i] in r
  {
    j := idx;
    var x0 :| x0 in remaining;
    var j0 :| 0 <= j0 < |xs| && xs[j0] == x0;
    while xs[j] !in remaining
      invariant idx <= j <= j0 && forall i :: 0 <= i < j ==> xs[i] in r
      decreases j0 - j
    {
      j := j + 1;
    }
  }

  /** The random pick: any element not yet used. */
  method PickRandom(xs: seq<string>, r: seq<string>, remaining: set<string>, idx: nat)
    returns (r': seq<string>, remaining': set<string>)
    requires Progress(xs, r, remaining, idx) && |r| % 2 == 1 && remaining != {}
    ensures Progress(xs, r', remaining', idx) && |r'| == |r| + 1 && r'[..|r|] == r && |remaining'| == |remaining| - 1
  {
    var pick :| pick in remaining;
    r' := r + [pick];
    remaining' := remaining - {pick};
    EvenPicksKept(xs, r, pick);
  }

  /** Appending keeps the picks already made at even positions. */
  lemma EvenPicksKept(xs: seq<string>, r: seq<string>, x: string)
    requires EvenPicks(xs, r) && |r| % 2 == 1
    ensures EvenPicks(xs, r + [x])
  {
    var r' := r + [x];
    forall p | 0 <= p < |r'| && p % 2 == 0
      ensures EarliestUnused(xs, r'[..p], r'[p])
    {
      assert r'[..p] == r[..p] && r'[p] == r[p];
    }
  }

  /** The ordered picks come in input order: the element at an earlier
      even position first occurs earlier in the input. */
  lemma OrderedPicksInOrder(xs: seq<string>, r: seq<string>, p: nat, q: nat, jp: nat, jq: nat)
    requires Distinct(r) && p < q < |r|
    requires jp < |xs| && xs[jp] == r[p] && forall i :: 0 <= i < jp ==> xs[i] in r[..p]
    requires jq < |xs| && xs[jq] == r[q] && forall i :: 0 <= i < jq ==> xs[i] in r[..q]
    ensures jp < jq
  {
  }

  /** The first element of the interleaved list is the first input element. */
  lemma InterleaveStartsWithFirst(xs: seq<string>, r: seq<string>)
    requires |r| > 0 && EarliestUnused(xs, r[..0], r[0])
    ensures r[0] == xs[0]
  {
  }

  /** For a duplicate-free input, the interleaved list is a permutation. */
  lemma InterleavePermutes(xs: seq<string>, r: seq<string>)
    requires Distinct(xs) && Distinct(r) && forall x :: x in r <==> x in xs
    ensures multiset(r) == multiset(xs)
  {
    DistinctMultiset(xs);
    DistinctMultiset(r);
  }

  lemma {:induction false} DistinctMultiset(s: seq<string>)
    requires Distinct(s)
    ensures forall x :: multiset(s)[x] == if x in s then 1 else 0
  {
    if |s| > 0 {
      DistinctMultiset(s[1..]);
      assert s == [s[0]] + s[1..];
      assert s[0] !in s[1..];
    }
  }

  // ---------------------------------------------------------------------
  // run()
  // ---------------------------------------------------------------------

  /** `run()` in refresh mode: fix inconsistent rows, select the due
      subreddits, interleave them, and walk the list. Every subreddit
      handed to `process_subreddit` was due, none twice, and no more than
      the limit allows. */
  method Run(db: Db, c: Counters, hits: nat, now: int, limit: Option<int>, adultOnly: bool,
             items: nat -> Item, signal: nat, lim: Limits, ctx: Ctx)
    returns (visited: seq<string>, r: LoopEnd)
    ensures var fixed := FixInconsistentStates(db).db;
            (forall i :: 0 <= i < |visited| ==> visited[i] in DueNames(fixed, StaleCutoff(now, 30), adultOnly))
            && Distinct(visited)
            && |visited| <= RowCap(limit, |DueNames(fixed, StaleCutoff(now, 30), adultOnly)|)
    ensures |visited| <= signal || |visited| == 0
  {
    var fixed := FixInconsistentStates(db).db;
    var due := SubredditsForUpdate(fixed, now, 30, limit, adultOnly);
    var order := Interleave(due);
    r := RefreshLoop(Scan(fixed, c, hits), order, items, 0, signal, lim, ctx);
    visited := order[..r.done];
    VisitedWereDue(due, order, r.done, DueNames(fixed, StaleCutoff(now, 30), adultOnly));
  }

  /** A prefix of the interleaved list of distinct due names holds only due
      names, none twice, and no more of them than were selected. */
  lemma VisitedWereDue(due: seq<string>, order: seq<string>, n: nat, dueSet: set<string>)
    requires Distinct(due) && forall i :: 0 <= i < |due| ==> due[i] in dueSet
    requires |due| <= 2 ==> order == due
    requires |due| > 2 ==> Distinct(order) && forall x :: x in order <==> x in due
    requires n <= |order|
    ensures forall i :: 0 <= i < n ==> order[..n][i] in dueSet
    ensures Distinct(order[..n]) && n <= |due|
  {
    if |due| > 2 {
      DistinctSize(due, order);
    }
    forall i | 0 <= i < n
      ensures order[..n][i] in dueSet
    {
      assert order[..n][i] == order[i] && order[i] in due;
    }
  }

  /** Distinct lists with the same elements have the same length. */
  lemma DistinctSize(a: seq<string>, b: seq<string>)
    requires Distinct(a) && Distinct(b) && forall x :: x in a <==> x in b
    ensures |a| == |b|
  {
    DistinctMultiset(a);
    DistinctMultiset(b);
    assert multiset(a) == multiset(b) by {
      forall x
        ensures multiset(a)[x] == multiset(b)[x]
      {
      }
    }
    assert |a| == |multiset(a)| && |b| == |multiset(b)|;
  }
}

=== FILE: sequences.dfy ===
/** Order-preserving selections and a stable sort over sequences, stated
    for any key or rank function so that the CSV handling can use them
    with its own. */
module Sequences {

  // ---------------------------------------------------------------------
  // Subsequences
  // ---------------------------------------------------------------------

  /** `a` is `b` with some elements left out, the rest in their order. */
  predicate SubseqOf<T(==)>(a: seq<T>, b: seq<T>)
    decreases |b|
  {
    a == [] || (b != [] && ((a[0] == b[0] && SubseqOf(a[1..], b[1..])) || SubseqOf(a, b[1..])))
  }

  lemma {:induction false} SubseqTransitive<T>(a: seq<T>, b: seq<T>, c: seq<T>)
    requires SubseqOf(a, b) && SubseqOf(b, c)
    ensures SubseqOf(a, c)
    decreases |c|
  {
    if a != [] {
      assert b != [] && c != [];
      if SubseqOf(b, c[1..]) {
        SubseqTransitive(a, b, c[1..]);
      } else {
        if a[0] == b[0] && SubseqOf(a[1..], b[1..]) {
          SubseqTransitive(a[1..], b[1..], c[1..]);
        } else {
          SubseqTransitive(a, b[1..], c[1..]);
        }
      }
    }
  }

  lemma {:induction false} SubseqMembers<T>(a: seq<T>, b: seq<T>)
    requires SubseqOf(a, b)
    ensures forall x :: x in a ==> x in b
    decreases |b|
  {
    if a != [] {
      assert a == [a[0]] + a[1..] && b == [b[0]] + b[1..];
      if a[0] == b[0] && SubseqOf(a[1..], b[1..]) {
        SubseqMembers(a[1..], b[1..]);
      } else {
        SubseqMembers(a, b[1..]);
      }
    }
  }

  // ---------------------------------------------------------------------
  // Keeping the first element of each key
  // ---------------------------------------------------------------------

  predicate DistinctBy<T, K(==)>(xs: seq<T>, key: T -> K) {
    forall i, j :: 0 <= i < j < |xs| ==> key(xs[i]) != key(xs[j])
  }

  function KeysBy<T, K>(xs: seq<T>, key: T -> K): set<K> {
    set i | 0 <= i < |xs| :: key(xs[i])
  }

  /** The first element of each key, keys in `seen` counting as taken: no
      key twice, none from `seen`, every other key of `xs` represented,
      and the file order kept. */
  function FirstBy<T(==), K(==)>(xs: seq<T>, key: T -> K, seen: set<K>): (r: seq<T>)
    ensures SubseqOf(r, xs) && DistinctBy(r, key)
    ensures forall i :: 0 <= i < |r| ==> key(r[i]) !in seen
    ensures forall i :: 0 <= i < |xs| ==> key(xs[i]) in seen || key(xs[i]) in KeysBy(r, key)
  {
    if xs == [] then []
    else if key(xs[0]) in seen then
      var r := FirstBy(xs[1..], key, seen);
      assert forall i :: 0 < i < |xs| ==> xs[i] == xs[1..][i - 1];
      r
    else
      var tail := FirstBy(xs[1..], key, seen + {key(xs[0])});
      var r := [xs[0]] + tail;
      assert r[1..] == tail && r[0] == xs[0];
      assert key(r[0]) in KeysBy(r, key);
      assert forall i :: 0 <= i < |tail| ==> r[i + 1] == tail[i];
      assert forall i :: 0 < i < |xs| ==> xs[i] == xs[1..][i - 1];
      r
  }

  /** The elements whose key is not in `drop`, in order. */
  function KeepUnlisted<T(==), K(==)>(xs: seq<T>, key: T -> K, drop: set<K>): (r: seq<T>)
    ensures SubseqOf(r, xs)
    ensures forall i :: 0 <= i < |r| ==> key(r[i]) !in drop
    ensures forall i :: 0 <= i < |xs| && key(xs[i]) !in drop ==> xs[i] in r
  {
    if xs == [] then []
    else
      var tail := KeepUnlisted(xs[1..], key, drop);
      assert forall i :: 0 < i < |xs| ==> xs[i] == xs[1..][i - 1];
      if key(xs[0]) in drop then tail
      else
        var r := [xs[0]] + tail;
        assert r[1..] == tail;
        r
  }

  lemma {:induction false} SubseqDistinctBy<T, K>(a: seq<T>, b: seq<T>, key: T -> K)
    requires SubseqOf(a, b) && DistinctBy(b, key)
    ensures DistinctBy(a, key)
    decreases |b|
  {
    if a != [] {
      assert forall i :: 0 < i < |b| ==> b[i] == b[1..][i - 1];
      if a[0] == b[0] && SubseqOf(a[1..], b[1..]) {
        SubseqDistinctBy(a[1..], b[1..], key);
        SubseqMembers(a[1..], b[1..]);
        forall i, j | 0 <= i < j < |a|
          ensures key(a[i]) != key(a[j])
        {
          assert a[j] == a[1..][j - 1];
          if i > 0 {
            assert a[i] == a[1..][i - 1];
          } else {
            assert a[j] in b[1..];
            var m :| 0 <= m < |b[1..]| && b[1..][m] == a[j];
            assert b[m + 1] == a[j];
          }
        }
      } else {
        SubseqDistinctBy(a, b[1..], key);
      }
    }
  }

  /** A subsequence of a subsequence keeps the distinct keys of the middle
      list and every property all elements of the outer list share. */
  lemma SubseqKeeps<T, K>(a: seq<T>, b: seq<T>, c: seq<T>, key: T -> K, ok: T -> bool)
    requires SubseqOf(a, b) && SubseqOf(b, c) && DistinctBy(b, key)
    requires forall i :: 0 <= i < |c| ==> ok(c[i])
    ensures DistinctBy(a, key) && forall i :: 0 <= i < |a| ==> ok(a[i])
  {
    SubseqDistinctBy(a, b, key);
    SubseqTransitive(a, b, c);
    SubseqMembers(a, c);
    forall i | 0 <= i < |a|
      ensures ok(a[i])
    {
      assert a[i] in a;
      var j :| 0 <= j < |c| && c[j] == a[i];
    }
  }

  /** `xs[j]` is the first element of `xs` with its key. */
  predicate FirstOfKey<T, K(==)>(xs: seq<T>, key: T -> K, j: int)
    requires 0 <= j < |xs|
  {
    forall k :: 0 <= k < j ==> key(xs[k]) != key(xs[j])
  }

  /** Every element of `ys` is the first element of its key in `xs`. */
  predicate AllFirstOfKey<T(==), K(==)>(ys: seq<T>, xs: seq<T>, key: T -> K) {
    forall i :: 0 <= i < |ys| ==> exists j :: 0 <= j < |xs| && xs[j] == ys[i] && FirstOfKey(xs, key, j)
  }

  /** Every element kept is the first of its key in `xs`: a later element
      of a key is never kept in place of an earlier one. */
  lemma {:induction false} FirstByKeepsFirst<T, K>(xs: seq<T>, key: T -> K, seen: set<K>, i: nat)
    requires i < |FirstBy(xs, key, seen)|
    ensures exists j :: 0 <= j < |xs| && xs[j] == FirstBy(xs, key, seen)[i] && FirstOfKey(xs, key, j)
  {
    var r := FirstBy(xs, key, seen);
    if key(xs[0]) !in seen && i == 0 {
      assert xs[0] == r[0] && FirstOfKey(xs, key, 0);
    } else {
      var seen' := if key(xs[0]) in seen then seen else seen + {key(xs[0])};
      var tail := FirstBy(xs[1..], key, seen');
      var i' := if key(xs[0]) in seen then i else i - 1;
      assert r[i] == tail[i'];
      FirstByKeepsFirst(xs[1..], key, seen', i');
      var j' :| 0 <= j' < |xs[1..]| && xs[1..][j'] == tail[i'] && FirstOfKey(xs[1..], key, j');
      assert key(tail[i']) !in seen';
      assert xs[j' + 1] == r[i];
      forall k | 0 <= k < j' + 1
        ensures key(xs[k]) != key(xs[j' + 1])
      {
        if k > 0 {
          assert xs[k] == xs[1..][k - 1];
        }
      }
      assert FirstOfKey(xs, key, j' + 1);
    }
  }

  /** After both steps, every element left is still the first of its key
      in `xs`. */
  lemma KeptAreFirst<T, K>(xs: seq<T>, key: T -> K, drop: set<K>)
    ensures AllFirstOfKey(KeepUnlisted(FirstBy(xs, key, {}), key, drop), xs, key)
  {
    var unique := FirstBy(xs, key, {});
    var kept := KeepUnlisted(unique, key, drop);
    SubseqMembers(kept, unique);
    forall i | 0 <= i < |kept|
      ensures exists j :: 0 <= j < |xs| && xs[j] == kept[i] && FirstOfKey(xs, key, j)
    {
      assert kept[i] in unique;
      var m :| 0 <= m < |unique| && unique[m] == kept[i];
      FirstByKeepsFirst(xs, key, {}, m);
    }
  }

  /** A duplicate-free list with nothing to drop comes back unchanged. */
  lemma {:induction false} FirstByDistinct<T, K>(xs: seq<T>, key: T -> K, seen: set<K>)
    requires DistinctBy(xs, key) && forall i :: 0 <= i < |xs| ==> key(xs[i]) !in seen
    ensures FirstBy(xs, key, seen) == xs
  {
    if xs != [] {
      assert forall i :: 0 < i < |xs| ==> xs[i] == xs[1..][i - 1];
      FirstByDistinct(xs[1..], key, seen + {key(xs[0])});
    }
  }

  lemma {:induction false} KeepUnlistedNone<T, K>(xs: seq<T>, key: T -> K, drop: set<K>)
    requires forall i :: 0 <= i < |xs| ==> key(xs[i]) !in drop
    ensures KeepUnlisted(xs, key, drop) == xs
  {
    if xs != [] {
      assert forall i :: 0 < i < |xs| ==> xs[i] == xs[1..][i - 1];
      KeepUnlistedNone(xs[1..], key, drop);
    }
  }

  /** Every key of `xs` outside `drop` survives both steps. */
  lemma KeysSurvive<T, K>(xs: seq<T>, key: T -> K, drop: set<K>, x: T)
    requires x in xs && key(x) !in drop
    ensures key(x) in KeysBy(KeepUnlisted(FirstBy(xs, key, {}), key, drop), key)
  {
    var unique := FirstBy(xs, key, {});
    var kept := KeepUnlisted(unique, key, drop);
    var i :| 0 <= i < |xs| && xs[i] == x;
    assert key(xs[i]) in KeysBy(unique, key);
    var m :| 0 <= m < |unique| && key(unique[m]) == key(x);
    var n :| 0 <= n < |kept| && kept[n] == unique[m];
  }

  /** A list with distinct keys, none in `drop`, passes both steps
      unchanged. */
  lemma KeysAlreadyClean<T, K>(xs: seq<T>, key: T -> K, drop: set<K>)
    requires DistinctBy(xs, key) && forall i :: 0 <= i < |xs| ==> key(xs[i]) !in drop
    ensures KeepUnlisted(FirstBy(xs, key, {}), key, drop) == xs
  {
    FirstByDistinct(xs, key, {});
    KeepUnlistedNone(xs, key, drop);
  }

  /** Distinct keys carry over to a list with the same keys position by
      position. */
  lemma SameKeysDistinct<T, K>(a: seq<T>, b: seq<T>, key: T -> K)
    requires |a| == |b| && DistinctBy(b, key)
    requires forall i :: 0 <= i < |a| ==> key(a[i]) == key(b[i])
    ensures DistinctBy(a, key)
  {
  }

  // ---------------------------------------------------------------------
  // Transforming and filtering
  // ---------------------------------------------------------------------

  /** Each element transformed by `f`, keeping the results that pass
      `keep`, in order. */
  function MapKeep<T(==)>(xs: seq<T>, f: T -> T, keep: T -> bool): (r: seq<T>)
    ensures |r| <= |xs|
    ensures forall j :: 0 <= j < |r| ==> keep(r[j]) && exists i :: 0 <= i < |xs| && f(xs[i]) == r[j]
    ensures forall i :: 0 <= i < |xs| && keep(f(xs[i])) ==> f(xs[i]) in r
  {
    if xs == [] then []
    else
      var rest := MapKeep(xs[1..], f, keep);
      assert forall i :: 0 < i < |xs| ==> xs[i] == xs[1..][i - 1];
      if keep(f(xs[0])) then [f(xs[0])] + rest else rest
  }

  /** Elements that `f` leaves alone and that all pass `keep` come through
      unchanged. */
  lemma {:induction false} MapKeepFixed<T>(xs: seq<T>, f: T -> T, keep: T -> bool)
    requires forall i :: 0 <= i < |xs| ==> f(xs[i]) == xs[i] && keep(xs[i])
    ensures MapKeep(xs, f, keep) == xs
  {
    if xs != [] {
      assert forall i :: 0 < i < |xs| ==> xs[i] == xs[1..][i - 1];
      MapKeepFixed(xs[1..], f, keep);
    }
  }

  // ---------------------------------------------------------------------
  // A stable sort, largest rank first
  // ---------------------------------------------------------------------

  /** Each element ranks at least as high as the next. */
  predicate DescendingBy<T>(xs: seq<T>, rank: T -> int) {
    |xs| <= 1 || (rank(xs[0]) >= rank(xs[1]) && DescendingBy(xs[1..], rank))
  }

  /** Descending order between every pair, not just neighbours. */
  lemma {:induction false} DescendingPairs<T>(xs: seq<T>, rank: T -> int, i: nat, j: nat)
    requires DescendingBy(xs, rank) && i <= j < |xs|
    ensures rank(xs[i]) >= rank(xs[j])
    decreases j
  {
    if i < j {
      DescendingPairs(xs, rank, i, j - 1);
      DescendingNeighbours(xs, rank, j - 1);
    }
  }

  lemma {:induction false} DescendingNeighbours<T>(xs: seq<T>, rank: T -> int, i: nat)
    requires DescendingBy(xs, rank) && i + 1 < |xs|
    ensures rank(xs[i]) >= rank(xs[i + 1])
  {
    if i > 0 {
      DescendingNeighbours(xs[1..], rank, i - 1);
      assert xs[1..][i - 1] == xs[i] && xs[1..][i] == xs[i + 1];
    }
  }

  /** The elements of rank `k`, in order. */
  function OfRank<T>(xs: seq<T>, rank: T -> int, k: int): seq<T> {
    if xs == [] then [] else (if rank(xs[0]) == k then [xs[0]] else []) + OfRank(xs[1..], rank, k)
  }

  /** Put `x` before the first element that does not outrank it, so that
      it precedes the elements of its own rank. */
  function InsertBy<T>(x: T, xs: seq<T>, rank: T -> int): (r: seq<T>)
    ensures |r| == |xs| + 1 && multiset(r) == multiset(xs) + multiset{x}
    ensures r[0] == x || (xs != [] && r[0] == xs[0])
  {
    if xs == [] || rank(xs[0]) <= rank(x) then [x] + xs
    else
      assert xs == [xs[0]] + xs[1..];
      [xs[0]] + InsertBy(x, xs[1..], rank)
  }

  /** Insertion sort from the back, which keeps equal ranks in input order. */
  function SortBy<T>(xs: seq<T>, rank: T -> int): (r: seq<T>)
    ensures multiset(r) == multiset(xs) && |r| == |xs|
  {
    if xs == [] then []
    else
      assert xs == [xs[0]] + xs[1..];
      InsertBy(xs[0], SortBy(xs[1..], rank), rank)
  }

  lemma {:induction false} InsertDescending<T>(x: T, xs: seq<T>, rank: T -> int)
    requires DescendingBy(xs, rank)
    ensures DescendingBy(InsertBy(x, xs, rank), rank)
  {
    var r := InsertBy(x, xs, rank);
    if xs == [] || rank(xs[0]) <= rank(x) {
      assert r[1..] == xs;
    } else {
      InsertDescending(x, xs[1..], rank);
      assert r[1..] == InsertBy(x, xs[1..], rank);
    }
  }

  lemma {:induction false} InsertOfRank<T>(x: T, xs: seq<T>, rank: T -> int, k: int)
    requires DescendingBy(xs, rank)
    ensures OfRank(InsertBy(x, xs, rank), rank, k) == (if rank(x) == k then [x] else []) + OfRank(xs, rank, k)
  {
    var r := InsertBy(x, xs, rank);
    if xs == [] || rank(xs[0]) <= rank(x) {
      assert r[1..] == xs;
    } else {
      InsertOfRank(x, xs[1..], rank, k);
      assert r[1..] == InsertBy(x, xs[1..], rank);
    }
  }

  /** The sort puts higher ranks first, permutes its input, and is stable:
      the elements of each rank keep their input order. */
  lemma {:induction false} SortByStable<T>(xs: seq<T>, rank: T -> int)
    ensures DescendingBy(SortBy(xs, rank), rank)
    ensures forall k :: OfRank(SortBy(xs, rank), rank, k) == OfRank(xs, rank, k)
  {
    if xs != [] {
      SortByStable(xs[1..], rank);
      InsertDescending(xs[0], SortBy(xs[1..], rank), rank);
      forall k {
        InsertOfRank(xs[0], SortBy(xs[1..], rank), rank, k);
      }
    }
  }
}

=== FILE: store.dfy ===
/** The SQLite store of subreddits, as a finite map from the lower-cased
    name (the primary key) to the row. Every statement the crawler issues
    becomes a pure function from one map to the next; an `UPDATE` whose
    `WHERE name = ?` matches nothing leaves the map alone, as SQL does. */
module Store {
  import opened Wrappers
  import opened Text
  import opened JsonValue
  import M = Migrations

  // ---------------------------------------------------------------------
  // Rows
  // ---------------------------------------------------------------------

  /** The metadata columns of `subreddits` that the crawler writes but never
      branches on. */
  datatype Column =
    | Title | Description | ActiveUsers | Over18 | SubredditType | CreatedUtc
    | IconUrl | PrimaryColor | AdvertiserCategory | SubmissionType
    | AllowImages | AllowVideos | AllowGalleries | AllowVideogifs | AllowPolls
    | LinkFlairEnabled | SpoilersEnabled | WhitelistStatus | Language

  /** One row of `subreddits`. The columns the crawler branches on have
      fields of their own; the remaining metadata columns live in `columns`,
      a missing key standing for NULL. */
  datatype Row = Row(
    status: string,
    collected: bool,
    accessible: bool,
    retryCount: int,
    errorMessage: Option<string>,
    lastUpdated: Option<int>,
    subscribers: Option<int>,
    columns: map<Column, Json>)

  type Db = map<string, Row>

  /** The column defaults of the schema other than those of the typed
      fields: the media flags, the quality flags and the language. */
  const SchemaDefaults: map<Column, Json> :=
    map[AllowImages := JNum(1), AllowVideos := JNum(1),
        AllowGalleries := JNum(0), AllowVideogifs := JNum(0),
        AllowPolls := JNum(0), LinkFlairEnabled := JNum(0),
        SpoilersEnabled := JNum(0), Language := JStr("en")]

  /** The row `INSERT (name, status, metadata_collected) VALUES (?,
      'pending', 0)` creates: every other column takes its default. */
  function PendingRow(): Row {
    Row("pending", false, true, 0, None, None, None, SchemaDefaults)
  }

  /** Every row lookup goes through `name.lower()`. */
  function Key(name: string): string {
    Lower(name)
  }

  // ---------------------------------------------------------------------
  // add_subreddit
  // ---------------------------------------------------------------------

  /** `INSERT OR IGNORE`: a pending, uncollected row appears under the
      lower-cased name unless one is there already; the flag says whether a
      row was created. */
  function AddSubreddit(db: Db, name: string): (r: (Db, bool))
    ensures r.1 <==> Key(name) !in db
    ensures r.0.Keys == db.Keys + {Key(name)}
    ensures forall k :: k in db ==> r.0[k] == db[k]
    ensures r.1 ==> r.0[Key(name)].status == "pending" && !r.0[Key(name)].collected
  {
    if Key(name) in db then (db, false) else (db[Key(name) := PendingRow()], true)
  }

  /** Adding the same name again creates nothing and changes nothing; so
      does adding it in another letter case. */
  lemma AddSubredditIdempotent(db: Db, name: string, again: string)
    requires Lower(again) == Lower(name)
    ensures AddSubreddit(AddSubreddit(db, name).0, again) == (AddSubreddit(db, name).0, false)
  {
  }

  // ---------------------------------------------------------------------
  // update_subreddit and update_subreddit_status
  // ---------------------------------------------------------------------

  /** The rows other than `key` are those of `db`, and no row appears or
      disappears. */
  predicate OnlyRowChanged(db: Db, r: Db, key: string) {
    r.Keys == db.Keys && forall k :: k in db && k != key ==> r[k] == db[k]
  }

  /** The two rows agree on everything but status, message, accessibility
      and the collected flag. */
  predicate SameData(a: Row, b: Row) {
    a.retryCount == b.retryCount && a.lastUpdated == b.lastUpdated
    && a.subscribers == b.subscribers && a.columns == b.columns
  }

  /** `update_subreddit`: status and message are always written (`None`
      clears the message), the collected flag only when one is given. */
  function UpdateSubreddit(db: Db, name: string, status: string, message: Option<string>, collected: Option<bool>): (r: Db)
    ensures OnlyRowChanged(db, r, Key(name))
    ensures Key(name) in db ==>
              var (was, now) := (db[Key(name)], r[Key(name)]);
              now.status == status && now.errorMessage == message
              && now.collected == (if collected.Some? then collected.value else was.collected)
              && now.accessible == was.accessible && SameData(was, now)
  {
    if Key(name) !in db then db
    else
      var was := db[Key(name)];
      db[Key(name) := was.(status := status, errorMessage := message,
                           collected := collected.GetOr(was.collected))]
  }

  /** The statuses under which a subreddit counts as reachable. */
  predicate AccessibleStatus(status: string) {
    status == "active" || status == "pending"
  }

  /** `update_subreddit_status`: status, accessibility derived from it, and
      the message. */
  function UpdateSubredditStatus(db: Db, name: string, status: string, message: Option<string>): (r: Db)
    ensures OnlyRowChanged(db, r, Key(name))
    ensures Key(name) in db ==>
              var (was, now) := (db[Key(name)], r[Key(name)]);
              now.status == status && now.errorMessage == message
              && (now.accessible <==> status in {"active", "pending"})
              && now.collected == was.collected && SameData(was, now)
  {
    if Key(name) !in db then db
    else
      var was := db[Key(name)];
      db[Key(name) := was.(status := status, accessible := AccessibleStatus(status), errorMessage := message)]
  }

  // ---------------------------------------------------------------------
  // update_subreddit_metadata
  // ---------------------------------------------------------------------

  /** `metadata.get(key, default)`. */
  function Get(md: map<string, Json>, key: string, default: Json): Json {
    if key in md then md[key] else default
  }

  /** Where each column's value comes from in the API object, and the
      default `update_subreddit_metadata` passes to `.get` for it. */
  function ApiKey(c: Column): (string, Json) {
    match c
    case Title => ("title", JNull)
    case Description => ("public_description", JNull)
    case ActiveUsers => ("active_user_count", JNull)
    case Over18 => ("over18", JBool(false))
    case SubredditType => ("subreddit_type", JNull)
    case CreatedUtc => ("created_utc", JNull)
    case IconUrl => ("community_icon", JNull)
    case PrimaryColor => ("primary_color", JNull)
    case AdvertiserCategory => ("advertiser_category", JNull)
    case SubmissionType => ("submission_type", JNull)
    case AllowImages => ("allow_images", JBool(true))
    case AllowVideos => ("allow_videos", JBool(true))
    case AllowGalleries => ("allow_galleries", JBool(false))
    case AllowVideogifs => ("allow_videogifs", JBool(false))
    case AllowPolls => ("allow_polls", JBool(false))
    case LinkFlairEnabled => ("link_flair_enabled", JBool(false))
    case SpoilersEnabled => ("spoilers_enabled", JBool(false))
    case WhitelistStatus => ("wls", JNull)
    case Language => ("lang", JStr("en"))
  }

  /** The SQLite driver binds `None`, booleans, 64-bit integers and
      strings; anything else makes the statement raise. */
  predicate Bindable(j: Json) {
    match j
    case JNum(n) => -0x8000_0000_0000_0000 <= n < 0x8000_0000_0000_0000
    case JArr(_) => false
    case JObj(_) => false
    case _ => true
  }

  /** Python's `'&' in j`: a substring test on a string, an element test on
      a list, a key test on a dict; on anything else it raises (`None`). */
  function AmpersandIn(j: Json): Option<bool> {
    match j
    case JStr(s) => Some('&' in s)
    case JArr(items) => Some(JStr("&") in items)
    case JObj(fields) => Some("&" in fields)
    case _ => None
  }

  /** `_decode_html_entities`: a falsy value passes through. Otherwise
      `html.unescape` first tests `'&' in j`: a value without `&` comes
      back unchanged, whatever its type; a string with `&` goes through the
      character-reference substitution `unescape`; a list or dict holding
      `"&"`, and a truthy number or boolean, make it raise. */
  function Decode(j: Json, unescape: string -> string): (r: Option<Json>)
    ensures !Truthy(j) ==> r == Some(j)
    ensures j.JStr? ==> r.Some? && r.value.JStr?
    ensures j.JStr? && '&' !in j.s ==> r == Some(j)
    ensures r.Some? && r.value != j ==> j.JStr? && '&' in j.s
    ensures Truthy(j) && (j.JArr? || j.JObj?) ==> (r.None? <==> AmpersandIn(j) == Some(true))
    ensures Truthy(j) && (j.JNum? || j.JBool?) ==> r.None?
  {
    if !Truthy(j) then Some(j)
    else match AmpersandIn(j)
      case None => None
      case Some(false) => Some(j)
      case Some(true) => if j.JStr? then Some(JStr(unescape(j.s))) else None
  }

  /** The value bound for column `c`; the description and the icon go
      through `_decode_html_entities`, which may raise. */
  function ColumnValue(md: map<string, Json>, c: Column, unescape: string -> string): (r: Option<Json>)
    ensures c != Description && c != IconUrl ==> r == Some(Get(md, ApiKey(c).0, ApiKey(c).1))
  {
    var raw := Get(md, ApiKey(c).0, ApiKey(c).1);
    if c == Description || c == IconUrl then Decode(raw, unescape) else Some(raw)
  }

  /** `subscribers` as the row's integer field; SQLite keeps a boolean as
      0 or 1. */
  function SubscriberCount(j: Json): Option<int> {
    match j
    case JNum(n) => Some(n)
    case JBool(b) => Some(if b then 1 else 0)
    case _ => None
  }

  /** The statement can run: both decodes succeed and every bound value,
      the subscriber count included, is bindable. */
  predicate MetadataStorable(md: map<string, Json>, unescape: string -> string) {
    Bindable(Get(md, "subscribers", JNull))
    && forall c: Column :: ColumnValue(md, c, unescape).Some? && Bindable(ColumnValue(md, c, unescape).value)
  }

  /** The second `update_subreddit_metadata` (the first is shadowed). On
      success the row becomes active and accessible, loses its error
      message, and is stamped with `now`, while the collected flag and the
      retry counter are untouched; a statement that raises is rolled back
      and reported as `False`. */
  function UpdateSubredditMetadata(db: Db, name: string, md: map<string, Json>, now: int, unescape: string -> string): (r: (Db, bool))
    ensures r.1 <==> MetadataStorable(md, unescape)
    ensures !r.1 ==> r.0 == db
    ensures OnlyRowChanged(db, r.0, Key(name))
    ensures r.1 && Key(name) in db ==>
              var (was, row) := (db[Key(name)], r.0[Key(name)]);
              row.status == "active" && row.accessible && row.errorMessage == None
              && row.lastUpdated == Some(now)
              && row.collected == was.collected && row.retryCount == was.retryCount
              && row.subscribers == SubscriberCount(Get(md, "subscribers", JNull))
              && forall c: Column :: c in row.columns && Some(row.columns[c]) == ColumnValue(md, c, unescape)
  {
    if !MetadataStorable(md, unescape) then (db, false)
    else if Key(name) !in db then (db, true)
    else
      var was := db[Key(name)];
      var cols := map c: Column | true :: ColumnValue(md, c, unescape).value;
      var row := was.(status := "active", accessible := true, errorMessage := None,
                      lastUpdated := Some(now),
                      subscribers := SubscriberCount(Get(md, "subscribers", JNull)),
                      columns := cols);
      (db[Key(name) := row], true)
  }

  /** A key missing from the API object gets the documented default: the
      media flags images and videos on, the other flags off, not adult,
      English, and NULL for the rest. */
  lemma MetadataDefaults(db: Db, name: string, now: int, unescape: string -> string, row: Row)
    requires Key(name) in db && row == UpdateSubredditMetadata(db, name, map[], now, unescape).0[Key(name)]
    ensures AllowImages in row.columns && row.columns[AllowImages] == JBool(true)
    ensures AllowVideos in row.columns && row.columns[AllowVideos] == JBool(true)
    ensures AllowPolls in row.columns && row.columns[AllowPolls] == JBool(false)
    ensures Over18 in row.columns && row.columns[Over18] == JBool(false)
    ensures Language in row.columns && row.columns[Language] == JStr("en")
    ensures Title in row.columns && row.columns[Title] == JNull
    ensures Description in row.columns && row.columns[Description] == JNull
    ensures row.subscribers == None && row.status == "active"
  {
    EmptyMetadataRow(db, name, now, unescape, row);
    DefaultColumnValues(row.columns);
  }

  /** The defaults of the columns the documentation names. */
  lemma DefaultColumnValues(cols: map<Column, Json>)
    requires forall c: Column :: c in cols && cols[c] == ApiKey(c).1
    ensures cols[AllowImages] == JBool(true) && cols[AllowVideos] == JBool(true)
    ensures cols[AllowPolls] == JBool(false) && cols[Over18] == JBool(false)
    ensures cols[Language] == JStr("en") && cols[Title] == JNull && cols[Description] == JNull
  {
  }

  /** Storing an empty object fills every column with its default. */
  lemma EmptyMetadataRow(db: Db, name: string, now: int, unescape: string -> string, row: Row)
    requires Key(name) in db && row == UpdateSubredditMetadata(db, name, map[], now, unescape).0[Key(name)]
    ensures forall c: Column :: c in row.columns && row.columns[c] == ApiKey(c).1
    ensures row.subscribers == None && row.status == "active"
  {
    EmptyMetadataStorable(unescape);
    assert UpdateSubredditMetadata(db, name, map[], now, unescape).1;
  }

  /** With no keys at all every column takes its default, and all the
      defaults can be bound. */
  lemma EmptyMetadataStorable(unescape: string -> string)
    ensures forall c: Column :: ColumnValue(map[], c, unescape) == Some(ApiKey(c).1)
    ensures MetadataStorable(map[], unescape)
  {
    forall c: Column
      ensures ColumnValue(map[], c, unescape) == Some(ApiKey(c).1)
    {
    }
  }

  // ---------------------------------------------------------------------
  // fix_inconsistent_states
  // ---------------------------------------------------------------------

  predicate PendingWithMetadata(row: Row) {
    row.status == "pending" && row.collected
  }

  predicate CompletedWithoutMetadata(row: Row) {
    row.status == "completed" && !row.collected
  }

  function PendingWithMetadataNames(db: Db): set<string> {
    set k | k in db && PendingWithMetadata(db[k])
  }

  function CompletedWithoutMetadataNames(db: Db): set<string> {
    set k | k in db && CompletedWithoutMetadata(db[k])
  }

  function FixPending(row: Row): Row {
    if PendingWithMetadata(row) then row.(collected := false) else row
  }

  function FixCompleted(row: Row): Row {
    if CompletedWithoutMetadata(row) then row.(status := "pending") else row
  }

  datatype Fixed = Fixed(db: Db, pendingWithMetadata: nat, completedWithoutMetadata: nat)

  /** `fix_inconsistent_states`: the two `UPDATE`s in order. Afterwards no
      row is in either inconsistent state, rows that were consistent are
      unchanged, and each count is the number of rows the statement
      touched. */
  function FixInconsistentStates(db: Db): (r: Fixed)
    ensures r.db.Keys == db.Keys
    ensures forall k :: k in r.db ==> !PendingWithMetadata(r.db[k]) && !CompletedWithoutMetadata(r.db[k])
    ensures forall k :: k in db && !PendingWithMetadata(db[k]) && !CompletedWithoutMetadata(db[k]) ==> r.db[k] == db[k]
    ensures forall k :: k in db && PendingWithMetadata(db[k]) ==> r.db[k] == db[k].(collected := false)
    ensures forall k :: k in db && CompletedWithoutMetadata(db[k]) ==> r.db[k] == db[k].(status := "pending")
    ensures r.pendingWithMetadata == |PendingWithMetadataNames(db)|
    ensures r.completedWithoutMetadata == |CompletedWithoutMetadataNames(db)|
  {
    var first := map k | k in db :: FixPending(db[k]);
    assert CompletedWithoutMetadataNames(first) == CompletedWithoutMetadataNames(db);
    var second := map k | k in first :: FixCompleted(first[k]);
    Fixed(second, |PendingWithMetadataNames(db)|, |CompletedWithoutMetadataNames(first)|)
  }

  /** Running the fixer straight after itself finds nothing to fix. */
  lemma FixInconsistentStatesIdempotent(db: Db)
    ensures var once := FixInconsistentStates(db).db;
            FixInconsistentStates(once) == Fixed(once, 0, 0)
  {
    var once := FixInconsistentStates(db).db;
    assert PendingWithMetadataNames(once) == {};
    assert CompletedWithoutMetadataNames(once) == {};
    var twice := FixInconsistentStates(once).db;
    assert twice == once;
  }

  // ---------------------------------------------------------------------
  // The refresh query: get_subreddits_for_update and count_stale_subreddits
  // ---------------------------------------------------------------------

  const SecondsPerDay: int := 24 * 60 * 60

  /** `int(time.time()) - stale_days * 86400`. */
  function StaleCutoff(now: int, staleDays: int): int {
    now - staleDays * SecondsPerDay
  }

  /** `over_18 = 1`: SQLite stores `True` as the integer 1. */
  predicate Adult(row: Row) {
    Over18 in row.columns && (row.columns[Over18] == JNum(1) || row.columns[Over18] == JBool(true))
  }

  predicate CollectedActive(row: Row) {
    row.collected && row.status == "active"
  }

  /** The `WHERE` clause of the refresh query. */
  predicate Due(row: Row, cutoff: int, adultOnly: bool) {
    CollectedActive(row)
    && (row.lastUpdated.None? || row.lastUpdated.value < cutoff)
    && (adultOnly ==> Adult(row))
  }

  function DueNames(db: Db, cutoff: int, adultOnly: bool): set<string> {
    set k | k in db && Due(db[k], cutoff, adultOnly)
  }

  /** The first sort key: never-updated rows (0) before updated ones (1). */
  function Phase(row: Row): int {
    if row.lastUpdated.None? then 0 else 1
  }

  /** The second sort key: minus the subscriber count (NULL as 0) for a
      never-updated row, the update time otherwise. */
  function Age(row: Row): int {
    if row.lastUpdated.None? then -row.subscribers.GetOr(0) else row.lastUpdated.value
  }

  /** The third sort key, `subscribers DESC NULLS LAST`. */
  predicate MoreSubscribers(a: Row, b: Row) {
    a.subscribers.Some? && (b.subscribers.None? || a.subscribers.value > b.subscribers.value)
  }

  /** The `ORDER BY` clause: `a` sorts strictly before `b`. Rows equal on
      all three keys are left in an order SQL does not define. */
  predicate Before(a: Row, b: Row) {
    Phase(a) < Phase(b)
    || (Phase(a) == Phase(b) && (Age(a) < Age(b) || (Age(a) == Age(b) && MoreSubscribers(a, b))))
  }

  lemma BeforeIrreflexive(a: Row)
    ensures !Before(a, a)
  {
  }

  lemma BeforeTransitive(a: Row, b: Row, c: Row)
    requires Before(a, b) && Before(b, c)
    ensures Before(a, c)
  {
  }

  /** Nothing in `s` sorts strictly before `m`. */
  predicate IsMinimal(db: Db, s: set<string>, m: string)
    requires s <= db.Keys
  {
    m in s && forall y :: y in s ==> !Before(db[y], db[m])
  }

  /** Every finite non-empty set of names has a minimal one. */
  lemma {:induction false} MinimalExists(db: Db, s: set<string>)
    requires s != {} && s <= db.Keys
    ensures exists m :: IsMinimal(db, s, m)
    decreases |s|
  {
    var a :| a in s;
    if s == {a} {
      BeforeIrreflexive(db[a]);
      assert IsMinimal(db, s, a);
    } else {
      MinimalExists(db, s - {a});
      var m :| IsMinimal(db, s - {a}, m);
      if Before(db[a], db[m]) {
        forall y | y in s
          ensures !Before(db[y], db[a])
        {
          if y == a {
            BeforeIrreflexive(db[a]);
          } else if Before(db[y], db[a]) {
            BeforeTransitive(db[y], db[a], db[m]);
          }
        }
        assert IsMinimal(db, s, a);
      } else {
        assert IsMinimal(db, s, m);
      }
    }
  }

  /** No later name sorts strictly before an earlier one. */
  predicate Ordered(db: Db, names: seq<string>) {
    forall i, j :: 0 <= i < j < |names| && names[i] in db && names[j] in db ==>
      !Before(db[names[j]], db[names[i]])
  }

  predicate Distinct(names: seq<string>) {
    forall i, j :: 0 <= i < j < |names| ==> names[i] != names[j]
  }

  /** `if limit:` passes a `LIMIT` only for a non-zero limit, and SQLite
      reads a negative `LIMIT` as no limit at all. */
  function RowCap(limit: Option<int>, available: nat): nat {
    if limit.Some? && limit.value > 0 && limit.value < available then limit.value else available
  }

  predicate Unlimited(limit: Option<int>) {
    limit.None? || limit.value <= 0
  }

  /** `get_subreddits_for_update`: the due rows, in `ORDER BY` order, cut at
      the limit. The result holds no name twice, only due names, in order;
      it is as long as the limit allows; and no due name left out sorts
      before one taken. Ties are broken by an arbitrary choice. */
  method SubredditsForUpdate(db: Db, now: int, staleDays: int, limit: Option<int>, adultOnly: bool)
    returns (names: seq<string>)
    ensures forall i :: 0 <= i < |names| ==> names[i] in DueNames(db, StaleCutoff(now, staleDays), adultOnly)
    ensures Distinct(names) && Ordered(db, names)
    ensures |names| == RowCap(limit, |DueNames(db, StaleCutoff(now, staleDays), adultOnly)|)
    ensures Unlimited(limit) ==> forall k :: k in DueNames(db, StaleCutoff(now, staleDays), adultOnly) ==> k in names
    ensures forall k, i :: k in DueNames(db, StaleCutoff(now, staleDays), adultOnly) && k !in names && 0 <= i < |names| ==>
              !Before(db[k], db[names[i]])
  {
    var due := DueNames(db, StaleCutoff(now, staleDays), adultOnly);
    var cap := RowCap(limit, |due|);
    var rest := due;
    names := [];
    while |names| < cap
      invariant rest <= due && |names| + |rest| == |due| && |names| <= cap
      invariant forall i :: 0 <= i < |names| ==> names[i] in due && names[i] !in rest
      invariant forall k :: k in due ==> k in rest || k in names
      invariant Distinct(names) && Ordered(db, names)
      invariant forall k, i :: k in rest && 0 <= i < |names| ==> !Before(db[k], db[names[i]])
      decreases cap - |names|
    {
      MinimalExists(db, rest);
      var m :| IsMinimal(db, rest, m);
      names := names + [m];
      rest := rest - {m};
    }
  }

  /** In source terms: never-updated rows come first, by subscribers
      descending with NULL as 0; then the stale rows, oldest update first,
      equal times by subscribers descending with NULL last. */
  lemma RefreshOrder(db: Db, names: seq<string>, i: int, j: int)
    requires forall k :: 0 <= k < |names| ==> names[k] in db
    requires Ordered(db, names) && 0 <= i < j < |names|
    ensures var (a, b) := (db[names[i]], db[names[j]]);
            (b.lastUpdated.None? ==> a.lastUpdated.None?)
            && (a.lastUpdated.None? && b.lastUpdated.None? ==> a.subscribers.GetOr(0) >= b.subscribers.GetOr(0))
            && (a.lastUpdated.Some? && b.lastUpdated.Some? ==>
                  a.lastUpdated.value <= b.lastUpdated.value
                  && (a.lastUpdated.value == b.lastUpdated.value && b.subscribers.Some? ==>
                        a.subscribers.Some? && a.subscribers.value >= b.subscribers.value))
  {
    assert !Before(db[names[j]], db[names[i]]);
  }

  datatype StaleCounts = StaleCounts(neverUpdated: nat, stale: nat, total: nat)

  predicate NeverUpdated(row: Row) {
    CollectedActive(row) && row.lastUpdated.None?
  }

  /** `count_stale_subreddits`: the never-updated and the stale collected
      active rows, and their sum, which is the size of the refresh list
      with no adult filter and no limit. */
  function CountStaleSubreddits(db: Db, now: int, staleDays: int): (r: StaleCounts)
    ensures r.total == r.neverUpdated + r.stale
    ensures r.total == |DueNames(db, StaleCutoff(now, staleDays), false)|
  {
    var cutoff := StaleCutoff(now, staleDays);
    var never := set k | k in db && NeverUpdated(db[k]);
    var stale := set k | k in db && CollectedActive(db[k]) && db[k].lastUpdated.Some? && db[k].lastUpdated.value < cutoff;
    DueSplits(db, cutoff, never, stale);
    StaleCounts(|never|, |stale|, |never| + |stale|)
  }

  /** The due rows are the disjoint union of the never-updated and the
      stale ones. */
  lemma DueSplits(db: Db, cutoff: int, never: set<string>, stale: set<string>)
    requires never == set k | k in db && NeverUpdated(db[k])
    requires stale == set k | k in db && CollectedActive(db[k]) && db[k].lastUpdated.Some? && db[k].lastUpdated.value < cutoff
    ensures |DueNames(db, cutoff, false)| == |never| + |stale|
  {
    assert DueNames(db, cutoff, false) == never + stale;
    assert never * stale == {};
  }

  // ---------------------------------------------------------------------
  // get_processing_stats
  // ---------------------------------------------------------------------

  /** The counts `get_processing_stats` returns: rows per status, all
      rows, rows with metadata, and rows still to collect (uncollected, in
      error, or pending). */
  datatype ProcessingStats = ProcessingStats(byStatus: map<string, nat>, total: nat, collected: nat, pending: nat)

  function CollectedNames(db: Db): set<string> {
    set k | k in db && db[k].collected
  }

  function StillToCollectNames(db: Db): set<string> {
    set k | k in db && StillToCollect(db[k])
  }

  function SettledNames(db: Db): set<string> {
    set k | k in db && !StillToCollect(db[k])
  }

  predicate StillToCollect(row: Row) {
    !row.collected || row.status == "error" || row.status == "pending"
  }

  function GetProcessingStats(db: Db): (r: ProcessingStats)
    ensures r.total == |db|
    ensures forall s :: s in r.byStatus <==> exists k :: k in db && db[k].status == s
    ensures forall s :: s in r.byStatus ==> r.byStatus[s] == |set k | k in db && db[k].status == s|
    ensures r.collected == |CollectedNames(db)|
    ensures r.pending == |StillToCollectNames(db)|
  {
    var statuses := set k | k in db :: db[k].status;
    ProcessingStats(
      map s | s in statuses :: |set k | k in db && db[k].status == s|,
      |db|, |CollectedNames(db)|, |StillToCollectNames(db)|)
  }

  /** Every row is either still to collect or collected and settled, so the
      pending count and the settled rows add up to the total, and neither
      count exceeds it. */
  lemma PendingComplement(db: Db)
    ensures var st := GetProcessingStats(db);
            st.pending + |SettledNames(db)| == st.total
            && st.collected <= st.total && st.pending <= st.total
  {
    var st := GetProcessingStats(db);
    var pend := StillToCollectNames(db);
    var settled := SettledNames(db);
    assert pend + settled == db.Keys;
    assert pend * settled == {};
    assert |db.Keys| == |db|;
    SubsetSize(CollectedNames(db), db.Keys);
  }

  /** A subset is no larger than its superset. */
  lemma SubsetSize<T>(a: set<T>, b: set<T>)
    requires a <= b
    ensures |a| <= |b|
  {
    assert b == a + (b - a);
    assert a * (b - a) == {};
  }

  // ---------------------------------------------------------------------
  // cleanup_user_profiles
  // ---------------------------------------------------------------------

  predicate UserType(row: Row) {
    SubredditType in row.columns && row.columns[SubredditType] == JStr("user")
  }

  /** SQLite's `name LIKE 'u_%'`: `_` matches any one character and `LIKE`
      ignores ASCII case, so this is any name of two or more characters
      starting with `u` or `U`. */
  predicate LikeUnderscorePattern(name: string) {
    |name| >= 2 && (name[0] == 'u' || name[0] == 'U')
  }

  /** A name beginning with the literal two characters `u_`, the prefix
      Reddit gives user-profile pseudo-subreddits. */
  predicate UserPrefix(name: string) {
    |name| >= 2 && name[0] == 'u' && name[1] == '_'
  }

  /** The rows `cleanup_user_profiles` deletes, as written. */
  function ProfileRowsAsWritten(db: Db): set<string> {
    set k | k in db && (UserType(db[k]) || LikeUnderscorePattern(k))
  }

  /** `cleanup_user_profiles` as written: counts the matching rows, then
      deletes them. */
  function CleanupUserProfilesAsWritten(db: Db): (r: (Db, nat))
    ensures r.0.Keys == db.Keys - ProfileRowsAsWritten(db)
    ensures forall k :: k in r.0 ==> r.0[k] == db[k]
    ensures r.1 == |db| - |r.0|
  {
    var gone := ProfileRowsAsWritten(db);
    var kept := map k | k in db && k !in gone :: db[k];
    assert kept.Keys == db.Keys - gone;
    assert |kept| == |db| - |gone| by {
      assert db.Keys == kept.Keys + gone && kept.Keys !! gone;
    }
    (kept, |gone|)
  }

  /** The wildcard deletes ordinary subreddits: any name of two or more
      characters starting with `u` or `U`, such as `ukpolitics` or
      `UnitedKingdom`, goes, though its row is not of type `user` and the
      name has no `u_` prefix; the corrected cleanup keeps it. */
  lemma CleanupDeletesOrdinarySubreddit(db: Db, name: string)
    requires name in db && !UserType(db[name]) && |name| >= 2 && (name[0] == 'u' || name[0] == 'U') && name[1] != '_'
    ensures name !in CleanupUserProfilesAsWritten(db).0
    ensures name in CleanupUserProfiles(db).0 && CleanupUserProfiles(db).0[name] == db[name]
  {
    assert name in ProfileRowsAsWritten(db);
  }

  /** The concrete case: a freshly added `ukpolitics` row. */
  lemma CleanupDeletesUkpolitics()
    ensures "ukpolitics" !in CleanupUserProfilesAsWritten(map["ukpolitics" := PendingRow()]).0
    ensures "ukpolitics" in CleanupUserProfiles(map["ukpolitics" := PendingRow()]).0
  {
    var db := map["ukpolitics" := PendingRow()];
    assert !UserType(db["ukpolitics"]);
    CleanupDeletesOrdinarySubreddit(db, "ukpolitics");
  }

  /** The user-profile rows as the docstring describes them: of type `user`
      or named with the literal `u_` prefix. */
  function ProfileRows(db: Db): set<string> {
    set k | k in db && (UserType(db[k]) || UserPrefix(k))
  }

  /** `cleanup_user_profiles` with the underscore escaped (`LIKE 'u\_%'
      ESCAPE '\'`, or a plain prefix test): exactly the profile rows go,
      every other row stays as it was, and the count is the number
      removed. */
  function CleanupUserProfiles(db: Db): (r: (Db, nat))
    ensures forall k :: k in r.0 <==> k in db && !UserType(db[k]) && !UserPrefix(k)
    ensures forall k :: k in r.0 ==> r.0[k] == db[k]
    ensures r.1 == |db| - |r.0|
  {
    var gone := ProfileRows(db);
    var kept := map k | k in db && k !in gone :: db[k];
    assert kept.Keys == db.Keys - gone;
    assert |kept| == |db| - |gone| by {
      assert db.Keys == kept.Keys + gone && kept.Keys !! gone;
    }
    (kept, |gone|)
  }

  /** The corrected cleanup removes no more than the one as written. */
  lemma CleanupWithinAsWritten(db: Db)
    ensures CleanupUserProfilesAsWritten(db).0.Keys <= CleanupUserProfiles(db).0.Keys
  {
  }

  // ---------------------------------------------------------------------
  // _initialize_schema
  // ---------------------------------------------------------------------

  const SchemaVersion: int := 4

  /** What the `schema_version` table holds when the store is opened. */
  datatype VersionTable = NoTable | EmptyTable | Holds(version: int)

  /** The outcome of opening: the version written back, the migration
      steps run (`1` for v1→v2, `2` for v2→v3, `3` for the column-only
      v3→v4), and whether `ensure_v4_columns` ran. */
  datatype Opened = Opened(version: int, steps: seq<int>, columnsEnsured: bool)

  /** `_initialize_schema`: a fresh store is created at the current
      version; an empty version table is filled with it; older versions
      migrate one step at a time, and a step that raises escapes before the
      version is written back; a newer version raises. `v1ToV2` and `v2ToV3`
      are what the two migrations raise on this store, `None` when they
      complete. */
  function InitializeSchema(t: VersionTable, v1ToV2: Option<string>, v2ToV3: Option<string>): (r: Result<Opened>)
    ensures r.Err? <==> t.Holds? && (t.version > SchemaVersion
                                      || (t.version == 1 && (v1ToV2.Some? || v2ToV3.Some?))
                                      || (t.version == 2 && v2ToV3.Some?))
    ensures r.Err? && t == Holds(1) && v1ToV2.Some? ==> r.message == v1ToV2.value
    ensures r.Err? && (t == Holds(2) || (t == Holds(1) && v1ToV2.None?)) ==> r.message == v2ToV3.value
    ensures r.Ok? ==> (r.value.columnsEnsured <==> !t.NoTable?)
    ensures r.Ok? && t.Holds? && 1 <= t.version ==>
              r.value.version == SchemaVersion
              && |r.value.steps| == SchemaVersion - t.version
              && forall i :: 0 <= i < |r.value.steps| ==> r.value.steps[i] == t.version + i
    ensures r.Ok? && (!t.Holds? || t.version < 1) ==>
              r.value.steps == [] && r.value.version == (if t.Holds? then t.version else SchemaVersion)
  {
    match t
    case NoTable => Ok(Opened(SchemaVersion, [], false))
    case EmptyTable => Ok(Opened(SchemaVersion, [], true))
    case Holds(v) =>
      if v > SchemaVersion then Err("Database schema version is newer than code version")
      else if v == 1 && v1ToV2.Some? then Err(v1ToV2.value)
      else if (v == 1 || v == 2) && v2ToV3.Some? then Err(v2ToV3.value)
      else
        var (v1, s1) := if v == 1 then (2, [1]) else (v, []);
        var (v2, s2) := if v1 == 2 then (3, s1 + [2]) else (v1, s1);
        var (v3, s3) := if v2 == 3 then (4, s2 + [3]) else (v2, s2);
        Ok(Opened(v3, s3, true))
  }

  /** A store that opened holds a version that opens again with no
      migration step, whatever the migrations would do. */
  lemma ReopenRunsNothing(t: VersionTable, v1ToV2: Option<string>, v2ToV3: Option<string>,
                          again1: Option<string>, again2: Option<string>)
    requires InitializeSchema(t, v1ToV2, v2ToV3).Ok?
    ensures var v := InitializeSchema(t, v1ToV2, v2ToV3).value.version;
            InitializeSchema(Holds(v), again1, again2) == Ok(Opened(v, [], true))
  {
  }

  /** What a run of `migrate_v1_to_v2` raises, if anything. */
  function Raises(r: M.Run): (m: Option<string>)
    ensures m.Some? <==> r.Failed?
  {
    if r.Failed? then Some(r.message) else None
  }

  /** Opening a v1 store with the all-or-nothing migration fails exactly
      when a thread id is listed under two subreddits (the v2-to-v3 copy
      cannot fail), and leaves the store as it was. */
  lemma OpenV1Store(db: M.V1Db)
    ensures var run := M.MigrateV1ToV2Atomic(M.V1Store(db, None));
            (InitializeSchema(Holds(1), Raises(run), None).Err? <==> !M.ConsistentIds(db.threads))
            && (run.Failed? ==> run.after == M.V1Store(db, None))
  {
  }

  /** With the migration as written, a failed open leaves the version at 1
      and `subreddits_v2` behind, so opening again fails even after the
      thread table is repaired. */
  lemma ReopenAfterFailedMigration(db: M.V1Db, repaired: M.V1Db)
    requires !M.ConsistentIds(db.threads)
    ensures var first := M.MigrateV1ToV2AsWritten(M.V1Store(db, None));
            var second := M.MigrateV1ToV2AsWritten(M.V1Store(repaired, first.after.leftover));
            InitializeSchema(Holds(1), Raises(first), None).Err?
            && InitializeSchema(Holds(1), Raises(second), None) == Err(M.TableExists)
  {
    M.FailedMigrationSticks(db, repaired);
  }
}

=== FILE: text.dfy ===
/** The string primitives the source borrows from Python's `str`: `strip()`,
    `lower()`, `split('\n')`, `'\n'.join(...)`, slicing `s[:n]`, and the
    code-point order `sorted()` uses on strings. Only the ASCII part of
    Python's whitespace and case tables is modelled. */
module Text {

  /** Python's `str.isspace()` restricted to ASCII: space, `\t`, `\n`,
      vertical tab, form feed, `\r`, and the four separators 0x1C–0x1F. */
  predicate IsSpace(c: char) {
    c == ' ' || c == '\t' || c == '\n' || c == '\r'
    || c == '\U{000B}' || c == '\U{000C}'
    || ('\U{001C}' <= c <= '\U{001F}')
  }

  /** `s.lstrip()`: drops the leading whitespace and nothing else. */
  function StripLeft(s: string): (r: string)
    ensures |r| <= |s| && r == s[|s| - |r|..]
    ensures |r| > 0 ==> !IsSpace(r[0])
    ensures forall i :: 0 <= i < |s| - |r| ==> IsSpace(s[i])
  {
    if |s| > 0 && IsSpace(s[0]) then StripLeft(s[1..]) else s
  }

  /** `s.rstrip()`: drops the trailing whitespace and nothing else. */
  function StripRight(s: string): (r: string)
    ensures |r| <= |s| && r == s[..|r|]
    ensures |r| > 0 ==> !IsSpace(r[|r| - 1])
    ensures forall i :: |r| <= i < |s| ==> IsSpace(s[i])
  {
    if |s| > 0 && IsSpace(s[|s| - 1]) then StripRight(s[..|s| - 1]) else s
  }

  /** `s.strip()`: the slice of `s` left after dropping whitespace at both
      ends, starting at `a`. */
  function Strip(s: string): (r: string)
    ensures |r| <= |s|
    ensures |r| > 0 ==> !IsSpace(r[0]) && !IsSpace(r[|r| - 1])
    ensures |r| == 0 ==> forall i :: 0 <= i < |s| ==> IsSpace(s[i])
    ensures exists a :: StrippedAt(s, a, r)
  {
    var l := StripLeft(s);
    var r := StripRight(l);
    assert StrippedAt(s, |s| - |l|, r) by {
      assert r == s[|s| - |l|..][..|r|];
    }
    r
  }

  /** `r` is `s[a..a + |r|]`, and everything of `s` outside it is
      whitespace. */
  predicate StrippedAt(s: string, a: int, r: string) {
    0 <= a <= a + |r| <= |s| && r == s[a..a + |r|]
    && (forall i :: 0 <= i < a ==> IsSpace(s[i]))
    && (forall i :: a + |r| <= i < |s| ==> IsSpace(s[i]))
  }

  /** A string with no whitespace at either end is its own strip. */
  lemma StripNoop(s: string)
    requires |s| > 0 ==> !IsSpace(s[0]) && !IsSpace(s[|s| - 1])
    ensures Strip(s) == s
  {
  }

  /** Stripping twice is stripping once. */
  lemma StripIdempotent(s: string)
    ensures Strip(Strip(s)) == Strip(s)
  {
    StripNoop(Strip(s));
  }

  /** Stripping only removes characters. */
  lemma StripWithout(s: string, c: char)
    requires c !in s
    ensures c !in Strip(s)
  {
    var r := Strip(s);
    var a :| StrippedAt(s, a, r);
    assert forall k :: 0 <= k < |r| ==> r[k] == s[a + k];
  }

  /** Python's `str.lower()` on one character, ASCII letters only. */
  function LowerChar(c: char): char {
    if 'A' <= c <= 'Z' then (c as int + 32) as char else c
  }

  predicate IsLowerCase(s: string) {
    forall i :: 0 <= i < |s| ==> !('A' <= s[i] <= 'Z')
  }

  /** `s.lower()`: the same length, no upper-case letter left, and every
      other character unchanged. */
  function Lower(s: string): (r: string)
    ensures |r| == |s| && IsLowerCase(r)
    ensures forall i :: 0 <= i < |s| && !('A' <= s[i] <= 'Z') ==> r[i] == s[i]
    ensures forall i :: 0 <= i < |s| && 'A' <= s[i] <= 'Z' ==> r[i] as int == s[i] as int + 32
  {
    seq(|s|, i requires 0 <= i < |s| => LowerChar(s[i]))
  }

  /** Lower-casing is idempotent, so a key that is already normalised is left
      alone by every lookup that normalises again. */
  lemma LowerIdempotent(s: string)
    ensures Lower(Lower(s)) == Lower(s)
  {
  }

  lemma LowerOfLowerCase(s: string)
    requires IsLowerCase(s)
    ensures Lower(s) == s
  {
  }

  /** `s[:n]` for `n >= 0`. */
  function Take(s: string, n: nat): (r: string)
    ensures |r| == if |s| <= n then |s| else n
    ensures r <= s
  {
    if |s| <= n then s else s[..n]
  }

  /** The first position of `c` in `s`. */
  function IndexOf(s: string, c: char): (i: nat)
    requires c in s
    ensures i < |s| && s[i] == c && c !in s[..i]
  {
    if s[0] == c then 0 else 1 + IndexOf(s[1..], c)
  }

  /** A position holding `c` with no `c` before it is the first position. */
  lemma {:induction false} IndexOfUnique(s: string, c: char, k: nat)
    requires k < |s| && s[k] == c && c !in s[..k]
    ensures IndexOf(s, c) == k
  {
    if k > 0 {
      assert s[0] == s[..k][0];
      var t := s[1..][..k - 1];
      forall j | 0 <= j < k - 1
        ensures t[j] != c
      {
        assert t[j] == s[..k][j + 1];
      }
      IndexOfUnique(s[1..], c, k - 1);
    }
  }

  /** `s.split(sep)` for a one-character separator: at least one piece, and
      no piece contains the separator. */
  function Split(s: string, sep: char): (r: seq<string>)
    ensures |r| >= 1
    ensures forall i :: 0 <= i < |r| ==> sep !in r[i]
    decreases |s|
  {
    if sep !in s then [s]
    else
      var i := IndexOf(s, sep);
      [s[..i]] + Split(s[i + 1..], sep)
  }

  /** `sep.join(xs)` for a one-character separator. */
  function Join(xs: seq<string>, sep: char): string
  {
    if |xs| == 0 then ""
    else if |xs| == 1 then xs[0]
    else xs[0] + [sep] + Join(xs[1..], sep)
  }

  /** Splitting and re-joining gives the original string back. */
  lemma {:induction false} JoinSplit(s: string, sep: char)
    ensures Join(Split(s, sep), sep) == s
    decreases |s|
  {
    if sep !in s {
      assert Split(s, sep) == [s];
    } else {
      var i := IndexOf(s, sep);
      var head, tail := s[..i], s[i + 1..];
      var xs := Split(s, sep);
      assert xs == [head] + Split(tail, sep);
      assert |xs| >= 2 && xs[0] == head && xs[1..] == Split(tail, sep);
      assert Join(xs, sep) == head + [sep] + Join(Split(tail, sep), sep);
      JoinSplit(tail, sep);
      RejoinAt(s, i);
    }
  }

  /** Cutting a string around position `i` and putting it back together
      gives the string. */
  lemma RejoinAt(s: string, i: nat)
    requires i < |s|
    ensures s[..i] + [s[i]] + s[i + 1..] == s
  {
    assert s == s[..i] + s[i..];
    assert s[i..] == [s[i]] + s[i + 1..];
  }

  /** Joining pieces free of the separator and splitting again gives the
      pieces back. */
  lemma {:induction false} SplitJoin(xs: seq<string>, sep: char)
    requires |xs| >= 1
    requires forall i :: 0 <= i < |xs| ==> sep !in xs[i]
    ensures Split(Join(xs, sep), sep) == xs
  {
    if |xs| == 1 {
    } else {
      var s := Join(xs, sep);
      var tail := Join(xs[1..], sep);
      assert s == xs[0] + [sep] + tail;
      assert s[|xs[0]|] == sep;
      assert s[..|xs[0]|] == xs[0];
      IndexOfUnique(s, sep, |xs[0]|);
      assert s[|xs[0]| + 1..] == tail;
      SplitJoin(xs[1..], sep);
    }
  }

  /** Python's `<` on strings: lexicographic by code point, a proper prefix
      first. */
  predicate StrLt(a: string, b: string)
    decreases |a|
  {
    if |a| == 0 then |b| > 0
    else if |b| == 0 then false
    else if a[0] != b[0] then a[0] < b[0]
    else StrLt(a[1..], b[1..])
  }

  lemma {:induction false} StrLtIrreflexive(a: string)
    ensures !StrLt(a, a)
    decreases |a|
  {
    if |a| > 0 {
      StrLtIrreflexive(a[1..]);
    }
  }

  lemma {:induction false} StrLtTransitive(a: string, b: string, c: string)
    requires StrLt(a, b) && StrLt(b, c)
    ensures StrLt(a, c)
    decreases |a|
  {
    if |a| > 0 && a[0] == b[0] && b[0] == c[0] {
      StrLtTransitive(a[1..], b[1..], c[1..]);
    }
  }

  /** Any two different strings are ordered one way or the other. */
  lemma {:induction false} StrLtTotal(a: string, b: string)
    requires a != b
    ensures StrLt(a, b) || StrLt(b, a)
    decreases |a|
  {
    if |a| > 0 && |b| > 0 && a[0] == b[0] {
      assert a == [a[0]] + a[1..] && b == [b[0]] + b[1..];
      StrLtTotal(a[1..], b[1..]);
    }
  }

  lemma {:induction false} StrLtAsymmetric(a: string, b: string)
    requires StrLt(a, b)
    ensures !StrLt(b, a)
    decreases |a|
  {
    if |a| > 0 && |b| > 0 && a[0] == b[0] {
      StrLtAsymmetric(a[1..], b[1..]);
    }
  }

  // ---------------------------------------------------------------------
  // Decimal numerals
  // ---------------------------------------------------------------------

  predicate IsDigit(c: char) {
    '0' <= c <= '9'
  }

  predicate AllDigits(s: string) {
    forall i :: 0 <= i < |s| ==> IsDigit(s[i])
  }

  function DigitValue(c: char): nat
    requires IsDigit(c)
  {
    c as int - '0' as int
  }

  /** The value of a string of decimal digits. */
  function DigitsValue(s: string): nat
    requires AllDigits(s)
  {
    if s == [] then 0 else DigitsValue(s[..|s| - 1]) * 10 + DigitValue(s[|s| - 1])
  }

  function DigitChar(d: nat): char
    requires d < 10
  {
    ('0' as int + d) as char
  }

  /** The decimal spelling of a count, as `str(n)` and f-strings give it. */
  function ShowNat(n: nat): (s: string)
    ensures |s| > 0 && AllDigits(s)
  {
    if n < 10 then [DigitChar(n)] else ShowNat(n / 10) + [DigitChar(n % 10)]
  }

  lemma {:induction false} DigitsValueShow(n: nat)
    ensures DigitsValue(ShowNat(n)) == n
  {
    var s := ShowNat(n);
    if n >= 10 {
      DigitsValueShow(n / 10);
      assert s[..|s| - 1] == ShowNat(n / 10);
    } else {
      assert s[..0] == [];
    }
  }
}

=== FILE: wrappers.dfy ===
/** Failure-compatible wrappers used throughout the model: `Option` for the
    source's `None`-or-value returns and `Result` for operations that raise. */
module Wrappers {

  datatype Option<+T> = None | Some(value: T) {

    /** The value, or `default` when absent (Python's `x or default` on a
        value that is never falsy). */
    function GetOr(default: T): T {
      match this
      case Some(v) => v
      case None => default
    }
  }

  /** `Err` carries the message of the exception the source would raise. */
  datatype Result<+T> = Ok(value: T) | Err(message: string)
}
